=== FILE: README.md ===
# mountd install core in Dafny

This project models how `mountd` installs skills and workflows for AI coding
agents. `mountd` is a command-line tool written in TypeScript. The model covers:

- the bundle resolver (`resolveBundleContents`): it expands a catalog bundle into
  the concrete skills and workflows it reaches, sharing one visited set across
  the whole expansion, and reports include names that have no catalog entry.
  The model proves that a fresh expansion collects every concrete entry
  reachable through nested bundles;
- the glue around it in `handleInstall`:
  - how a source is classified (none, GitHub shorthand, URL, `@` name, local path);
  - how a URL is routed (blob page, tree page, repository registry, zip, raw file);
  - the command-line item filter;
  - the per-selection resolution, merge, name deduplication and bundle skip;
  - the source URL recorded for each installed entry;
- `parseGitHubUrl`: a hand-written leftmost, greedy matcher for its unanchored
  regular expression. Also the raw-file URL and the archive URL;
- the `.mountdrc.json` bookkeeping of `ConfigManager`: load, shallow update, add
  and remove an installed record;
- the agent selection of `detectAgents`: pre-selection, prompt choices, the
  empty-answer error, the saved answer and the name-to-adapter mapping;
- the per-adapter plan of `installLocalSkill`: target, skip rule, copy
  destination, failures that do not stop the loop, and the record saved
  afterwards;
- the twelve adapters: name, display name, `detect`, skill path and workflow
  path. Also the ordered adapter registry and lookup by name.

How the model represents things:

- Everything is a pure function over immutable values.
- A path is a sequence of segments, and `path.join` is append.
- The file system is the set of existing paths. Where it matters, this set is
  closed under taking ancestors.
- Prompt answers, which copies fail, whether the source is a file, and the
  timestamp are inputs.
- The resolver threads its visited set in and out explicitly. It terminates on
  the number of catalog names not yet visited, then the position in the
  include list.
- JavaScript details are modelled as the code relies on them:
  - the empty string is falsy, in `ref || 'main'` and `path || ''`;
  - `String.replace` with a string pattern removes only the first occurrence;
  - a `Map` built from name/item pairs keeps each name at its first position
    with its last value;
  - a `Set` keeps first occurrences in order.

Where the code and its comments disagree, the model follows the code:

- The Copilot adapter's doc comment says workflows go to `.github/workflows/`.
  The code writes `.github/skills/<stem>/SKILL.md`, so the model does the same.
- The warning in the resolver calls every second visit of a bundle
  "circular". The model shows that a diamond, which has no cycle, takes the
  same path (`RegistryScenarios.Diamond`).
- The Cline adapter's doc comment says workflows go to `.cline/workflows/`.
  The code writes `.clinerules/workflows/`, so the model does the same
  (`Adapters.ClineAdapter`).
- The comment on the adapter registry says the first match wins. The agent
  selection pre-selects every adapter that detects, so the model does the same
  (`DetectAgent.AllDetectedPreSelected`).
- The generic adapter's doc comment says it is used when no specific agent is
  detected. Its `detect` always holds, so it is pre-selected in every project
  without saved agents (`Adapters.GenericAlwaysDetects`).
- The OpenCode adapter's doc comment names only `.opencode/`. The code also
  detects `opencode.json` (`Adapters.OpenCodeAdapter`).

The corrected `.git` handling (see Findings) is what `Add.RouteOf` uses. The
corrected per-entry source is what `Add.PlanItems` uses.

## Model

| member | source | states |
|---|---|---|
| Catalog.Find | src/utils/registry.ts:37 | The lookup finds nothing exactly when no entry has the name. Otherwise it returns a catalog entry with exactly that name. |
| Catalog.FindIsFirst | src/utils/registry.ts:37 | The entry found is at the first position carrying the name. |
| Dedup.Distinct | src/utils/registry.ts:51 | `Array.from(new Set(...))`: no duplicates, the same elements as the input, in order of first appearance. |
| Dedup.MapSet | src/utils/registry.ts:50 | One `Map.set` by name: an existing name keeps its position and takes the new item, a new name is appended, and no other entry changes. |
| Dedup.UniqueByName | src/utils/registry.ts:50 | `Array.from(new Map(...).values())`: distinct names in order of first appearance, each carrying the last item of that name. |
| Dedup.UniqueByNameFromInput | src/utils/registry.ts:50 | Every kept item is an input item. |
| Dedup.UniqueByNameCoversNames | src/utils/registry.ts:50 | Every input name keeps an item. |
| Dedup.UniqueByNameOfConsistent | src/utils/registry.ts:37-50 | When equal names always carry equal items, as inside the resolver where every item comes from the same lookup, the result holds exactly the input items. |
| Registry.Resolve | src/utils/registry.ts:9-57 | The visited set only grows, and only by the bundle's name and catalog names. A non-bundle resolves to itself with the visited set unchanged. A visited bundle contributes nothing. A bundle is marked visited. An empty bundle contributes nothing but is still marked. `valid` has distinct names and `missing` has no duplicates. |
| Registry.ResolveIncludes | src/utils/registry.ts:36-47 | The include loop threads the visited set and only adds catalog names to it. |
| Registry.ResolveSound | src/utils/registry.ts:14-47 | Every valid entry is concrete, and it is the selected item or the catalog's first entry of its name. Every missing name has no catalog entry. For an expanded bundle, an include is reported missing exactly when the catalog lacks it. |
| Registry.ResolveIncludesComplete | src/utils/registry.ts:36-47 | Every include that names a concrete catalog entry has that entry collected, whatever was visited before. |
| Registry.ResolveComplete | src/utils/registry.ts:26-51 | Expanding a bundle for the first time puts every direct include that names a concrete catalog entry into `valid`, deduplication included. |
| RegistryReach.ResolveSettles | src/utils/registry.ts:21-56 | At the end of a call, every bundle the call marked has each of its includes accounted for: no entry, or a concrete entry whose name was collected, or a bundle that is visited. This holds for the selection when it was an unvisited bundle, and for every other newly visited name through the entry `find` returns for it. |
| RegistryReach.ResolveIncludesSettles | src/utils/registry.ts:36-47 | The include loop accounts for every name it meets in the same way, and every name it newly visits is a bundle whose includes are accounted for. |
| RegistryReach.ResolveReaches | src/utils/registry.ts:9-57 | With a fresh visited set, every concrete entry reachable from the selection through a chain of bundle includes, each looked up with `find`, is in `valid`. The selection must be the entry `find` returns for its name, or its name must have none. |
| RegistryReach.ShadowedSelection | src/utils/registry.ts:21-43 | A selected bundle that is a later entry of a duplicated name is shadowed: it includes its own name, `find` returns the earlier bundle of that name, which is skipped as visited, and the skill that bundle includes is never collected. |
| Registry.ResolveIncludesSound | src/utils/registry.ts:36-47 | Entries the loop collects are concrete first catalog matches. Names it reports have no entry. Every include without an entry is reported. |
| Registry.ResolveIncludesFlat | src/utils/registry.ts:36-47 | A list of includes that all name concrete entries yields those entries in order, with nothing missing and the visited set untouched. |
| Registry.FlatBundle | src/utils/registry.ts:26-57 | Expanding a bundle of concrete includes yields their lookups, deduplicated, and marks only the bundle. |
| Registry.ResolveBundleStep | src/utils/registry.ts:26-57 | A non-empty unvisited bundle returns the deduplicated results of its include loop, run after its own name was marked. |
| Registry.ResolveIncludesFoundStep | src/utils/registry.ts:37-46 | A found include is resolved with the current visited set, and its lists come before those of the later includes. |
| Registry.ResolveIncludesMissingStep | src/utils/registry.ts:37-40 | An unknown include is pushed onto `missing` and leaves the visited set unchanged. |
| RegistryScenarios.SingleInclude | src/utils/registry.ts:26-57 | A bundle with one found include resolves to that include's deduplicated result. |
| RegistryScenarios.DiamondFirstBranch | src/utils/registry.ts:26-45 | In the diamond, the branch through `b` collects `s` and marks `b` and `d`. |
| RegistryScenarios.DiamondSecondBranch | src/utils/registry.ts:21-45 | The branch through `c` meets the already visited `d` and contributes nothing but `c`'s mark. |
| RegistryScenarios.DiamondTail | src/utils/registry.ts:36-47 | The include loop over `c` alone, after `d` is visited, collects nothing. |
| RegistryScenarios.DiamondLoop | src/utils/registry.ts:36-47 | The top bundle's include loop collects `s` exactly once and visits `b`, `d`, `c` in that order. |
| RegistryScenarios.TwoIncludes | src/utils/registry.ts:36-47 | A loop over two includes concatenates the first include's result with the rest, run on the visited set the first one left. |
| RegistryScenarios.Diamond | src/utils/registry.ts:26-51 | Diamond: `s` appears once, from the first branch, and all four bundles are visited, although there is no cycle. |
| RegistryScenarios.Cycle | src/utils/registry.ts:21-26 | Two bundles that include each other resolve to nothing, and both end up visited. |
| RegistryScenarios.TwoConcreteAndMissing | src/utils/registry.ts:36-55 | A bundle of two concrete entries and one unknown name yields both entries in include order and reports the unknown name. |
| Adapters.Name | src/adapters/index.ts:35-48 | Each adapter's `name` constant. |
| Adapters.FindAdapter | src/adapters/index.ts:53-55 | Finds nothing exactly when no adapter of the list has the name, and otherwise an adapter of the list with that name. |
| Adapters.GetAdapterByName | src/adapters/index.ts:53-55 | Returns an adapter with exactly that name, and `undefined` exactly when no adapter has it. |
| Adapters.RegistryComplete | src/adapters/index.ts:35-48 | The registry holds twelve adapters, every adapter, each once. |
| Adapters.RegistryOrder | src/adapters/index.ts:29-48 | Generic is last, and Antigravity comes first, directly before Gemini. |
| Adapters.NamesDistinct | src/adapters/index.ts:35-55 | No two adapters share a name. |
| Adapters.GetAdapterByOwnName | src/adapters/index.ts:53-55 | Looking up an adapter's own name returns that adapter. |
| Adapters.GenericAlwaysDetects | src/adapters/generic.ts:14-17 | The generic adapter detects in every project, whatever exists. |
| Adapters.AntigravityImpliesGemini | src/adapters/antigravity.ts:14-16 | In a file system closed under ancestors, the Antigravity marker implies that Gemini detects. |
| Adapters.DetectMonotone | src/adapters/index.ts:35-48 | Detection only tests for existing paths, so adding paths never turns it off. |
| Adapters.SkillPath | src/adapters/antigravity.ts:18-20 | A skill path is three segments below the project directory and ends in the skill name. |
| Adapters.WorkflowPath | src/adapters/copilot.ts:24-27 | A workflow path lies below the project directory. It ends in the workflow name, except Copilot's, which ends in `SKILL.md` one level deeper. |
| Adapters.AntigravitySharesGenericPaths | src/adapters/antigravity.ts:18-24 | Antigravity installs skills and workflows to the same paths as the generic adapter. |
| Adapters.SkillPathsSeparate | src/adapters/index.ts:35-48 | Apart from Antigravity and Generic, no two adapters install a skill to the same path. |
| Adapters.SkillAndWorkflowApart | src/adapters/cline.ts:20-26 | An adapter's skill path and workflow path differ. Except for Copilot, neither lies inside the other. |
| Adapters.CopilotWorkflowIsSkill | src/adapters/copilot.ts:20-27 | A Copilot workflow is the `SKILL.md` of the skill named by the workflow's stem. |
| Adapters.SkillPathInjective | src/adapters/antigravity.ts:18-20 | Different skill names give different skill paths. |
| Adapters.WorkflowPathInjective | src/adapters/gemini.ts:21-23 | Different workflow names give different workflow paths, for every adapter but Copilot. |
| Adapters.CopilotWorkflowsCollide | src/adapters/copilot.ts:24-27 | Two Copilot workflows that differ only in their extension land on the same `SKILL.md`. |
| Adapters.InstalledSkillDetected | src/adapters/claude.ts:14-22 | Installing a skill creates a marker its own adapter detects, for every adapter except Antigravity. |
| Adapters.AntigravitySkillNotDetected | src/adapters/antigravity.ts:14-20 | An Antigravity skill lands in `.agent`, so installing one does not make Antigravity detect. |
| Adapters.InstalledWorkflowDetected | src/adapters/cline.ts:14-26 | Installing a workflow creates a marker its own adapter detects, for every adapter except Antigravity. |
| Adapters.AntigravityAdapter | src/adapters/antigravity.ts:11-24 | Name `antigravity`, display `Antigravity`. Detects `.gemini/antigravity`. Skills go to `.agent/skills/<n>` and workflows to `.agent/workflows/<n>`. |
| Adapters.GeminiAdapter | src/adapters/gemini.ts:10-23 | Name `gemini`, display `Gemini Code Assist`. Detects `.gemini`. Skills go to `.gemini/skills/<n>` and workflows to `.gemini/workflows/<n>`. |
| Adapters.CursorAdapter | src/adapters/cursor.ts:10-25 | Name `cursor`, display `Cursor`. Detects `.cursor` or `.cursorrules`. Skills go to `.cursor/rules/<n>` and workflows to `.cursor/workflows/<n>`. |
| Adapters.CopilotAdapter | src/adapters/copilot.ts:11-27 | Name `copilot`, display `GitHub Copilot`. Detects its instructions file or `.github/skills`. Skills go to `.github/skills/<n>` and workflows to `.github/skills/<stem>/SKILL.md`. |
| Adapters.OpenCodeAdapter | src/adapters/opencode.ts:10-25 | Name `opencode`, display `OpenCode`. Detects `.opencode` or `opencode.json`. Skills go to `.opencode/skills/<n>` and workflows to `.opencode/commands/<n>`. |
| Adapters.ClaudeCodeAdapter | src/adapters/claude.ts:11-26 | Name `claude`, display `Claude Code`. Detects `.claude` or `CLAUDE.md`. Skills go to `.claude/skills/<n>` and workflows to `.claude/commands/<n>`. |
| Adapters.KiloCodeAdapter | src/adapters/kilocode.ts:10-23 | Name `kilocode`, display `Kilo Code`. Detects `.kilocode`. Skills go to `.kilocode/skills/<n>` and workflows to `.kilocode/workflows/<n>`. |
| Adapters.ClineAdapter | src/adapters/cline.ts:11-26 | Name `cline`, display `Cline`. Detects `.cline` or `.clinerules`. Skills go to `.cline/skills/<n>` and workflows to `.clinerules/workflows/<n>`. |
| Adapters.RooCodeAdapter | src/adapters/roocode.ts:10-23 | Name `roocode`, display `Roo Code`. Detects `.roo`. Skills go to `.roo/skills/<n>` and workflows to `.roo/workflows/<n>`. |
| Adapters.TraeAdapter | src/adapters/trae.ts:11-24 | Name `trae`, display `Trae`. Detects `.trae`. Skills go to `.trae/skills/<n>` and workflows to `.trae/workflows/<n>`. |
| Adapters.WindsurfAdapter | src/adapters/windsurf.ts:11-26 | Name `windsurf`, display `Windsurf`. Detects `.windsurfrules` or `.windsurf`. Skills go to `.windsurf/skills/<n>` and workflows to `.windsurf/workflows/<n>`. |
| Adapters.GenericAdapter | src/adapters/generic.ts:11-25 | Name `generic`, display `Generic / Other`. Always detects. Skills go to `.agent/skills/<n>` and workflows to `.agent/workflows/<n>`. |
| Paths.Create | src/utils/file-ops.ts:42-65 | Creating a path (as `ensureDir` and `copy` do) adds it and only its ancestors, and keeps the file system closed under ancestors. |
| Paths.Stem | src/adapters/copilot.ts:25 | `path.parse(n).name` is a prefix of the name, and the whole name when there is no dot. |
| Paths.StemDropsExtension | src/adapters/copilot.ts:25 | The stem of `base.ext` is `base`. |
| GitHub.SlashRun | src/utils/download.ts:60 | Greedy `[^\/]+` consumes a slash-free prefix that ends at the end of the text or at a `/`. |
| GitHub.SlashRunUnique | src/utils/download.ts:60 | Only one prefix has that property, so the greedy run is determined by it. |
| GitHub.LineRun | src/utils/download.ts:60 | Greedy `.*` consumes a prefix without line terminators that ends at the end or at a terminator. |
| GitHub.RefPart | src/utils/download.ts:60 | The optional group: type and ref are both present or both absent, a path only comes with a ref, the ref is non-empty and slash-free, and the path has no line terminator. |
| GitHub.OwnerRepo | src/utils/download.ts:60 | After `github.com/`, owner and repo are non-empty, slash-free, and start the text. |
| GitHub.OwnerRepoIffShape | src/utils/download.ts:60-61 | The match at the host succeeds exactly when the owner, a `/` and a repository character follow. |
| GitHub.MatchHereIffOccurs | src/utils/download.ts:60-61 | The expression matches at a position exactly when an occurrence starts there. |
| GitHub.SearchLeftmost | src/utils/download.ts:60-61 | The unanchored search reports the first occurrence, and fails exactly when there is none. |
| GitHub.SearchSkips | src/utils/download.ts:60 | Positions where `github.com/` does not start can be skipped. |
| GitHub.FirstIndexOf | src/utils/download.ts:68 | The first position of a pattern, absent exactly when the pattern does not occur. |
| GitHub.RemoveFirst | src/utils/download.ts:68 | `replace` with a string removes only the first occurrence, and changes nothing when there is none. |
| GitHub.RemoveFirstAt | src/utils/download.ts:68 | With the first occurrence at `k`, exactly the pattern at `k` is cut out. |
| GitHub.ParseGitHubUrl | src/utils/download.ts:59-73 | `null` exactly when no occurrence exists. The owner is non-empty and slash-free, type and ref come together, a path only with a ref, and the ref is non-empty and slash-free. |
| GitHub.ParseIsLeftmost | src/utils/download.ts:59-73 | The result is the leftmost occurrence's captures with the first `.git` removed from the repository name. |
| GitHub.OwnerRepoOf | src/utils/download.ts:60 | Owner, repository and the text after them are read back from `owner/repo<rest>`. |
| GitHub.SearchRepoRoot | src/utils/download.ts:60 | In a repository URL the leftmost match is the one at the host. |
| GitHub.SearchAtHost | src/utils/download.ts:60 | Searching right after `https://` matches at the host. |
| GitHub.SkipScheme | src/utils/download.ts:60 | `https://` cannot start a match. |
| GitHub.ParseRepoRoot | src/utils/download.ts:59-73 | A repository URL parses to its owner, its repository name with the first `.git` removed, and the optional group of what follows. |
| GitHub.RefPartOfPage | src/utils/download.ts:60 | `/tree/<ref>/<p>` and `/blob/<ref>/<p>` give back their type, ref and path. |
| GitHub.ParsePageUrl | src/utils/download.ts:59-73 | Round trip: a tree or blob page URL of a repository without `.git` parses back to owner, repository, type, ref and path. |
| GitHub.ParseRootUrl | src/utils/download.ts:59-73 | A repository root URL parses with no type, ref or path. |
| GitHub.RawUrl | src/utils/download.ts:75-78 | The raw URL is the raw host, owner and repository, then `ref || 'HEAD'` (an absent or empty ref is `HEAD`, also when the path is missing), then `/` and `path || ''`. |
| GitHub.RawUrlOfBlobPage | src/utils/download.ts:59-78 | The raw URL of a parsed blob page names the same owner, repository, ref and file. |
| GitHub.RawUrlGiven | src/utils/download.ts:75-78 | With a ref and a path, the raw URL uses both unchanged. |
| GitHub.RawUrlDefaults | src/utils/download.ts:75-78 | A missing or empty ref becomes `HEAD`, and a missing or empty path becomes empty. |
| GitHub.ArchiveUrl | src/utils/download.ts:90-94 | The zipball URL is `github.com/<owner>/<repo>/archive/<ref>.zip`, with `HEAD` when the ref is missing or empty. |
| GitHub.ParseArchiveUrl | src/utils/download.ts:59-94 | The archive URL parses back to the repository root, since `archive` is neither `tree` nor `blob`. |
| GitHub.DotGitInsideName | src/utils/download.ts:68 | As written, a `.git` inside the repository name is removed. `o.github.io` reads as `ohub.io`. |
| GitHub.StripGitSuffix | src/utils/download.ts:68 | Corrected: only a trailing `.git` is removed, and a name without one is unchanged. |
| GitHub.ParseGitHubUrlIntended | src/utils/download.ts:59-73 | The corrected parser fails exactly where the original fails, and differs from it only in the repository name. |
| GitHub.IntendedPlainUrl | src/utils/download.ts:59-73 | With the correction, a repository URL names the repository even when `.git` occurs inside the name. |
| GitHub.IntendedCloneUrl | src/utils/download.ts:59-73 | With the correction, the clone URL `<repo>.git` names the same repository as the plain URL. |
| GitHub.IntendedPageUrl | src/utils/download.ts:59-73 | Round trip with the correction: a page URL parses back to its parts. |
| Add.Normalize | src/commands/add.ts:73-78 | Shorthand is rewritten to a `https://github.com/` URL, and any other source is unchanged. The result starts with `http` exactly when the source did or was shorthand, and it is never shorthand again. |
| Add.Classify | src/commands/add.ts:30-273 | A missing or empty source is the reinstall branch. A source is a URL exactly when it starts with `http` or is shorthand. It is the `@` branch exactly when it starts with `@` and has no `/`. Any other non-empty source is a local path, kept as written. |
| Add.ScopedNameIsShorthand | src/commands/add.ts:73-78 | `@scope/name` is taken for GitHub shorthand and never reaches the `@` branch. |
| Add.ShorthandNamesRepository | src/commands/add.ts:73-78 | `owner/repo` becomes the URL of that repository, which parses back to it. |
| Add.ShorthandIsRemote | src/commands/add.ts:73-81 | A shorthand source is handled as the GitHub URL it abbreviates. |
| Add.RouteOf | src/commands/add.ts:84-264 | Routing: a blob page is fetched raw, a page with a non-empty path installs that directory of the archive, any other GitHub URL reads the registry, and a non-GitHub URL is a zip archive exactly when it ends in `.zip` and a raw file otherwise. |
| Add.BlobPageRoute | src/commands/add.ts:86-100 | A blob page is fetched from the raw host at the same ref and path. |
| Add.TreePageRoute | src/commands/add.ts:103-119 | A tree page with a path installs that path of the archive at its ref. |
| Add.RegistryRoutes | src/commands/add.ts:103-124 | A repository URL, and a tree page with an empty path, read the registry. |
| Add.Requested | src/commands/add.ts:131 | The filter keeps exactly the catalog entries whose name was requested, duplicates included. |
| Add.RequestedAppend | src/commands/add.ts:131 | The filter keeps catalog order: it distributes over concatenation. |
| Add.NotFound | src/commands/add.ts:132 | The not-found names are exactly the requested names without an entry. |
| Add.NotFoundAppend | src/commands/add.ts:132 | Not-found names keep request order. |
| Add.Selected | src/commands/add.ts:130-184 | With command-line names, the filtered entries are used, and the command ends exactly when none match. Without names, the prompt answer is used, and the command ends exactly when it is empty. |
| Add.MergeResolutions | src/commands/add.ts:192-199 | An empty selection merges to nothing. |
| Add.MergeSound | src/commands/add.ts:195-199 | Merged entries are concrete, each a selection or a catalog entry. Merged missing names have no entry. |
| Add.MergeAppend | src/commands/add.ts:195-199 | Each selection is resolved independently with a fresh visited set, and the lists are concatenated in selection order. |
| Add.MergeCons | src/commands/add.ts:195-199 | The first selection's lists come first. |
| Add.MissingRepeatsAcrossSelections | src/commands/add.ts:195-199 | Two selected bundles that include the same unknown name report it twice. |
| Add.DanglingBundle | src/utils/registry.ts:36-51 | A bundle whose only include is unknown reports just that name. |
| Add.MergeTwo | src/commands/add.ts:195-199 | Merging two selections concatenates their two resolutions. |
| Add.InstallList | src/commands/add.ts:208-211 | The install list has distinct names, only concrete entries, and each is the last merged entry of its name. |
| Add.ConcreteOnly | src/commands/add.ts:211 | The bundle skip keeps exactly the concrete entries and keeps names distinct. |
| Add.BundleSkipNeverFires | src/commands/add.ts:208-211 | On a merged resolution the bundle skip removes nothing. |
| Add.AllConcrete | src/commands/add.ts:211 | A list of concrete entries passes the skip unchanged. |
| Add.LastValueWins | src/commands/add.ts:208 | Two requested entries with the same name leave one, the later one. |
| Add.SameNameKeepsLast | src/commands/add.ts:208 | Of two items with one name, the name-keyed map keeps the second. |
| Add.ItemSource | src/commands/add.ts:222 | As written: the source, then `/tree/`, and the entry's path at the end. |
| Add.ItemSourceRepeatsRef | src/commands/add.ts:222 | As written, a tree-page source writes its ref a second time. |
| Add.ItemSourceMisread | src/commands/add.ts:222 | As written, the recorded URL of such an entry parses to the path `/tree/<ref>/<path>`, not to the entry's path. |
| Add.ItemSourceIntended | src/commands/add.ts:222 | Corrected: the tree page of the entry in the source's repository. |
| Add.ItemSourceRoundTrip | src/commands/add.ts:222 | The corrected source parses back to the repository, the ref (`main` when missing or empty) and the entry's path. |
| Add.ItemSourceAgreesOnRepositoryUrl | src/commands/add.ts:222 | For a plain repository URL the written and the corrected source agree. |
| Add.PlanItems | src/commands/add.ts:210-224 | Exactly the entries whose path exists are planned, each with its corrected source. |
| Add.PlanItemsDistinct | src/commands/add.ts:208-224 | Planned entries keep the distinct names of the install list. |
| Add.RegistryInstall | src/commands/add.ts:127-224 | The command ends exactly when nothing is selected. Otherwise the warning lists exactly the missing names the selections' resolutions reported, in selection order, and none of them has an entry. An entry of the deduplicated install list is installed, with its source, exactly when its path is in the archive, and nothing else is installed. The planned entries have distinct names and are concrete. |
| Add.PlannedFromCatalog | src/commands/add.ts:130-224 | With command-line names, every planned entry is a catalog entry. |
| Add.FoundIsCatalogEntry | src/commands/add.ts:132 | What `find` returns is a catalog entry. |
| Config.Load | src/utils/config.ts:13-24 | `null` exactly when the file is absent or unreadable, and otherwise the document. |
| Config.Current | src/utils/config.ts:36 | `load() \|\| {}`: the document, or the empty object. |
| Config.Merge | src/utils/config.ts:37 | Object spread: a key present in the updates wins, and every other key keeps its value. |
| Config.MergeIdentity | src/utils/config.ts:37 | Spreading `{}` on either side changes nothing. |
| Config.MergeIdempotent | src/utils/config.ts:37 | Spreading the same updates twice is spreading them once. |
| Config.MergeAssociative | src/utils/config.ts:37 | Two successive spreads are one spread of the combined updates. |
| Config.Update | src/utils/config.ts:35-39 | The saved document is the updates over the current document, or the updates alone when there is none. |
| Config.UpdateTwice | src/utils/config.ts:35-39 | Updating the saved document again with the same keys saves the same document. |
| Config.CountZero | src/utils/config.ts:45 | No record has the name exactly when the count of that name is zero. |
| Config.WithoutName | src/utils/config.ts:45-55 | The filter drops exactly the records of that name, and its length drops by their count. |
| Config.WithoutNameAppend | src/utils/config.ts:45-55 | The filter keeps order: it distributes over concatenation. |
| Config.WithoutNameAbsent | src/utils/config.ts:45-55 | Filtering out an absent name changes nothing. |
| Config.Replaced | src/utils/config.ts:43-46 | The new record comes last and is the only one of its name. Before it come the other records, in their order and with their repetitions. |
| Config.AddInstalled | src/utils/config.ts:41-48 | Every other top-level key is kept, an absent file counts as `{}`, and the list becomes the replaced list. |
| Config.AddInstalledLast | src/utils/config.ts:41-48 | After adding a record it is the last one saved and the only one of its name. |
| Config.ReplacedTwice | src/utils/config.ts:43-46 | Replacing with the same record twice is replacing once. |
| Config.AddInstalledTwice | src/utils/config.ts:41-48 | Adding the same record twice saves the same document as adding it once. |
| Config.RemoveInstalled | src/utils/config.ts:50-62 | It returns `true` and saves exactly when the document has an `installed` list with a record of the name. The saved list is the old one without exactly those records, the others in their order, and the other keys are kept. |
| Config.RemoveTwice | src/utils/config.ts:50-62 | After a removal, removing the same name again returns `false`. |
| Config.AddThenRemove | src/utils/config.ts:41-62 | Removing right after adding a name succeeds and leaves the other records in their order. |
| DetectAgent.Detected | src/utils/detect-agent.ts:19-25 | Exactly the adapters whose `detect` holds, every one of them, and all are registered names. |
| DetectAgent.SavedAgents | src/utils/detect-agent.ts:13-16 | `config?.agents \|\| []`: the document's `agents` list when the file is readable and has one, and the empty list otherwise. |
| DetectAgent.PreSelection | src/utils/detect-agent.ts:16-25 | Saved agents are the pre-selection when there are any. Otherwise it is the detected adapters. It is never empty. |
| DetectAgent.SavedAgentsIgnoreDetection | src/utils/detect-agent.ts:16-19 | With saved agents, the file system does not matter. |
| DetectAgent.AllDetectedPreSelected | src/utils/detect-agent.ts:19-25 | Without a saved list, every detecting adapter is pre-selected, not only the first. Generic always is, and Antigravity brings Gemini along. |
| DetectAgent.Choices | src/utils/detect-agent.ts:28-32 | One choice per registered adapter, in registry order, with its display name and name, checked exactly when pre-selected. |
| DetectAgent.ChoiceForEveryAgent | src/utils/detect-agent.ts:28-32 | Every adapter is offered exactly once. |
| DetectAgent.KnownNames | src/utils/detect-agent.ts:46-48 | The selected names that name an adapter. |
| DetectAgent.SelectedAdapters | src/utils/detect-agent.ts:46-48 | The mapped adapters are exactly those whose name was selected, with unknown names dropped. |
| DetectAgent.SelectedAdaptersInOrder | src/utils/detect-agent.ts:46-48 | The adapters come in the order of the selected names. |
| DetectAgent.SelectedRegistryNames | src/utils/detect-agent.ts:46-48 | Selecting adapters by their names gives back those adapters, in order. |
| DetectAgent.ConfirmAgents | src/utils/detect-agent.ts:39-48 | An empty answer is an error and saves nothing. Otherwise the answer is saved as `agents` with the other keys kept, and the adapters named are returned in the order of the answer, with unknown names dropped. |
| FileOps.Target | src/utils/file-ops.ts:23-29 | A workflow goes to the adapter's workflow path, anything else to its skill path, both named by the basename. |
| FileOps.Destination | src/utils/file-ops.ts:46-66 | A file installed as a workflow becomes the target. Any other file goes inside the target under its own name. A directory's contents become the target. |
| FileOps.Place | src/utils/file-ops.ts:25-70 | One adapter: skipped exactly when the target exists without `force`, failed exactly when not skipped and its copy fails. Only a copy changes the file system, and it creates the destination. |
| FileOps.PlaceCreatesOnlyDestination | src/utils/file-ops.ts:42-65 | One adapter creates nothing but the way to its destination. |
| FileOps.PlaceAll | src/utils/file-ops.ts:25-70 | One step per adapter, in order, each for its own target. The file system only grows and stays closed under ancestors. |
| FileOps.StepsForIndex | src/utils/file-ops.ts:25-29 | The step at each position belongs to the adapter at that position. |
| FileOps.PlaceAllCons | src/utils/file-ops.ts:25-70 | The loop is the first adapter's step followed by the rest, run on the file system it left. |
| FileOps.PlaceAllOutcomes | src/utils/file-ops.ts:34-69 | After the loop every copied destination exists, every adapter failed exactly when it was not skipped and its copy failed, and with `force` none was skipped. |
| FileOps.PlaceAllCreatesOnlyDestinations | src/utils/file-ops.ts:42-65 | Every path the loop creates lies on the way to the destination of an adapter that copied. |
| FileOps.Record | src/utils/file-ops.ts:74-79 | The record is named by the basename, its source is `originalSource \|\| sourcePath`, and its type is the given type, or `skill` when none is given. |
| FileOps.ChooseAdapters | src/utils/file-ops.ts:22 | A non-empty given list is used as is. Otherwise the agent prompt decides: it fails exactly on an empty answer. Otherwise it saves the answer as `agents`, keeps every other key of the file, and yields the adapters the answer names, in answer order. |
| FileOps.InstallLocalSkill | src/utils/file-ops.ts:9-82 | A missing source is an error before anything happens. The only other error is an empty agent answer. There is one step per adapter, in order: the given adapters, or else those the prompt answer names, in answer order. The file system only grows. The saved document is the file as the agent prompt left it: `agents` is the answer, or the file's own when adapters were given; the other keys are kept; the earlier records of other names stay in order; and the new record comes last, as the only one of its name. |
| FileOps.InstallTo | src/utils/file-ops.ts:25-79 | Once the adapters are chosen: one step per adapter, in order, and the file system only grows and stays closed under ancestors. `addInstalledSkill` runs on the given file: its other keys and its records of other names are kept, in order, and the record is saved last as the only one of its name. |
| FileOps.ForceNeverSkips | src/utils/file-ops.ts:34-37 | With `force`, no adapter is skipped. |
| FileOps.LaterAdapterStillCopied | src/utils/file-ops.ts:34-69 | A skipped or failed adapter does not stop the next, which still copies. |
| FileOps.SharedTargetSkipped | src/utils/file-ops.ts:34-37 | Antigravity and Generic share a target, so without `force` the second is skipped. |

## Left out

- Network access and zip extraction (`downloadFile`, `downloadAndExtractZip`, the archive download). They are foreign I/O. Only the URLs are modelled.
- `parseRegistryJson`: reading and parsing `registry.json`. The catalog is an input.
- The interactive prompts and their search filter, which uses Unicode `toLowerCase`. Their answers are inputs. The prompt's pre-ticking of installed skills is left out with them.
- Spinners, colouring and console output, including the resolver's warnings, which have no effect on results.
- What the reinstall branch does (it re-enters the command line for each recorded entry). The model only shows that a missing source takes this branch. Also `cli.ts` and the `list` and `remove` commands.
- Timestamps and the temporary directory and file names. The timestamp is an input.
- Node `path.join` normalisation. Skill and workflow names are required to be plain single segments (`PlainName`, `WorkflowName`, `FileOps.WellFormed`), and Copilot's stem must be one too.
- The contents of copies. A copy is reduced to the paths it creates, and a failing copy leaves the file system unchanged. Partial copies are not modelled.
- `await`: every operation is synchronous.
- Add.RouteOf: uses the corrected `parseGitHubUrl` (see Findings), not the one as written. `GitHub.ParseGitHubUrl` models the original, and `GitHub.ParseGitHubUrlIntended` states how the two differ.
- Add.PlanItems: records the corrected per-entry source (see Findings). `Add.ItemSource` models the original.
- RegistryReach.ResolveReaches: reach is promised only when the selection is the entry `find` returns for its name (or the name has none). A catalog with two entries of one name can shadow the later one, as `RegistryReach.ShadowedSelection` shows.
- Add.MergeResolutions: its contract states only the empty case. Its content is stated by `Add.MergeSound`, `Add.MergeAppend` and `Add.MergeCons`.

## Findings

| source | as written | input that shows it | evidently intended | confidence | as-written member | corrected member |
|---|---|---|---|---|---|---|
| src/utils/download.ts:68 | `repo.replace('.git', '')` removes the first `.git` anywhere in the repository name | `https://github.com/o/o.github.io` reads as repository `ohub.io` | remove only a trailing `.git` of a clone URL | not executed | GitHub.DotGitInsideName | GitHub.ParseGitHubUrlIntended |
| src/commands/add.ts:222 | the entry's source appends `/tree/<ref>/<path>` to the whole source, which may already be a tree page | `https://github.com/o/r/tree/dev/` records `https://github.com/o/r/tree/dev//tree/dev/<path>`, which parses to path `/tree/dev/<path>` | the tree page of the entry in the source's repository at that ref | not executed | Add.ItemSourceMisread | Add.ItemSourceRoundTrip |

=== FILE: adapters.dfy ===
/** The agent adapters of src/adapters/: for each supported coding agent a
    name, a display name, a detection test on the project directory and the
    two places a skill and a workflow are installed to; and the ordered
    registry `AGENT_ADAPTERS` with lookup by name. */
module Adapters {
  import opened Common
  import opened Paths

  /** One constructor per adapter class. */
  datatype Agent =
    | Antigravity | Gemini | Cursor | Copilot | OpenCode | ClaudeCode
    | KiloCode | Cline | RooCode | Trae | Windsurf | Generic

  /** `adapter.name` */
  function Name(a: Agent): string {
    match a
    case Antigravity => "antigravity"
    case Gemini => "gemini"
    case Cursor => "cursor"
    case Copilot => "copilot"
    case OpenCode => "opencode"
    case ClaudeCode => "claude"
    case KiloCode => "kilocode"
    case Cline => "cline"
    case RooCode => "roocode"
    case Trae => "trae"
    case Windsurf => "windsurf"
    case Generic => "generic"
  }

  /** `adapter.displayName` */
  function DisplayName(a: Agent): string {
    match a
    case Antigravity => "Antigravity"
    case Gemini => "Gemini Code Assist"
    case Cursor => "Cursor"
    case Copilot => "GitHub Copilot"
    case OpenCode => "OpenCode"
    case ClaudeCode => "Claude Code"
    case KiloCode => "Kilo Code"
    case Cline => "Cline"
    case RooCode => "Roo Code"
    case Trae => "Trae"
    case Windsurf => "Windsurf"
    case Generic => "Generic / Other"
  }

  /** `adapter.detect(cwd)` against the set of existing paths. */
  predicate Detect(a: Agent, fs: set<Path>, cwd: Path) {
    match a
    case Antigravity => cwd + [".gemini", "antigravity"] in fs
    case Gemini => cwd + [".gemini"] in fs
    case Cursor => cwd + [".cursor"] in fs || cwd + [".cursorrules"] in fs
    case Copilot => cwd + [".github", "copilot-instructions.md"] in fs || cwd + [".github", "skills"] in fs
    case OpenCode => cwd + [".opencode"] in fs || cwd + ["opencode.json"] in fs
    case ClaudeCode => cwd + [".claude"] in fs || cwd + ["CLAUDE.md"] in fs
    case KiloCode => cwd + [".kilocode"] in fs
    case Cline => cwd + [".cline"] in fs || cwd + [".clinerules"] in fs
    case RooCode => cwd + [".roo"] in fs
    case Trae => cwd + [".trae"] in fs
    case Windsurf => cwd + [".windsurfrules"] in fs || cwd + [".windsurf"] in fs
    case Generic => cwd + [".agent"] in fs || true
  }

  /** The directory skills of `a` go to. */
  function SkillRoot(a: Agent): (r: Path)
    ensures |r| == 2
  {
    match a
    case Antigravity => [".agent", "skills"]
    case Gemini => [".gemini", "skills"]
    case Cursor => [".cursor", "rules"]
    case Copilot => [".github", "skills"]
    case OpenCode => [".opencode", "skills"]
    case ClaudeCode => [".claude", "skills"]
    case KiloCode => [".kilocode", "skills"]
    case Cline => [".cline", "skills"]
    case RooCode => [".roo", "skills"]
    case Trae => [".trae", "skills"]
    case Windsurf => [".windsurf", "skills"]
    case Generic => [".agent", "skills"]
  }

  /** The directory workflows of `a` go to. */
  function WorkflowRoot(a: Agent): (r: Path)
    ensures |r| == 2
  {
    match a
    case Antigravity => [".agent", "workflows"]
    case Gemini => [".gemini", "workflows"]
    case Cursor => [".cursor", "workflows"]
    case Copilot => [".github", "skills"]
    case OpenCode => [".opencode", "commands"]
    case ClaudeCode => [".claude", "commands"]
    case KiloCode => [".kilocode", "workflows"]
    case Cline => [".clinerules", "workflows"]
    case RooCode => [".roo", "workflows"]
    case Trae => [".trae", "workflows"]
    case Windsurf => [".windsurf", "workflows"]
    case Generic => [".agent", "workflows"]
  }

  /** `adapter.getSkillPath(cwd, n)`: the entry `n` of the skill directory
      under the project directory. */
  function SkillPath(a: Agent, cwd: Path, n: string): (r: Path)
    requires PlainName(n)
    ensures PrefixOf(cwd, r) && |r| == |cwd| + 3 && Basename(r) == n
  {
    cwd + SkillRoot(a) + [n]
  }

  /** The names `getWorkflowPath` accepts without Node normalising them: plain,
      and for Copilot with a plain stem as well. */
  predicate WorkflowName(a: Agent, n: string) {
    PlainName(n) && (a == Copilot ==> PlainName(Stem(n)))
  }

  /** `adapter.getWorkflowPath(cwd, n)`. Copilot turns the workflow into a
      skill: `.github/skills/<stem>/SKILL.md`. */
  function WorkflowPath(a: Agent, cwd: Path, n: string): (r: Path)
    requires WorkflowName(a, n)
    ensures PrefixOf(cwd, r)
    ensures a != Copilot ==> |r| == |cwd| + 3 && Basename(r) == n
    ensures a == Copilot ==> |r| == |cwd| + 4 && Basename(r) == "SKILL.md"
  {
    if a == Copilot then cwd + WorkflowRoot(a) + [Stem(n), "SKILL.md"]
    else cwd + WorkflowRoot(a) + [n]
  }

  /** `AGENT_ADAPTERS`: every adapter once, most specific first, the generic
      fallback last. */
  const AgentAdapters: seq<Agent> := [
    Antigravity, Gemini, Cursor, Copilot, OpenCode, ClaudeCode,
    KiloCode, Cline, RooCode, Trae, Windsurf, Generic]

  /** The first adapter of `list` called `name`. */
  function FindAdapter(list: seq<Agent>, name: string): (r: Option<Agent>)
    ensures r.Some? ==> r.value in list && Name(r.value) == name
    ensures r.None? <==> forall a | a in list :: Name(a) != name
  {
    if |list| == 0 then None
    else if Name(list[0]) == name then Some(list[0])
    else
      assert forall a | a in list :: a == list[0] || a in list[1..];
      FindAdapter(list[1..], name)
  }

  /** `getAdapterByName(name)` */
  function GetAdapterByName(name: string): (r: Option<Agent>)
    ensures r.Some? ==> Name(r.value) == name
    ensures r.None? <==> forall a: Agent :: Name(a) != name
  {
    assert forall a: Agent :: a in AgentAdapters by {
      forall a: Agent ensures a in AgentAdapters { Registered(a); }
    }
    FindAdapter(AgentAdapters, name)
  }

  lemma Registered(a: Agent)
    ensures a in AgentAdapters
  {
    match a {
      case Antigravity => assert AgentAdapters[0] == a;
      case Gemini => assert AgentAdapters[1] == a;
      case Cursor => assert AgentAdapters[2] == a;
      case Copilot => assert AgentAdapters[3] == a;
      case OpenCode => assert AgentAdapters[4] == a;
      case ClaudeCode => assert AgentAdapters[5] == a;
      case KiloCode => assert AgentAdapters[6] == a;
      case Cline => assert AgentAdapters[7] == a;
      case RooCode => assert AgentAdapters[8] == a;
      case Trae => assert AgentAdapters[9] == a;
      case Windsurf => assert AgentAdapters[10] == a;
      case Generic => assert AgentAdapters[11] == a;
    }
  }

  /** The registry holds twelve adapters, each once. */
  lemma RegistryComplete()
    ensures |AgentAdapters| == 12
    ensures forall a: Agent :: a in AgentAdapters
    ensures forall i, j | 0 <= i < j < |AgentAdapters| :: AgentAdapters[i] != AgentAdapters[j]
  {
    forall a: Agent ensures a in AgentAdapters { Registered(a); }
  }

  /** Generic is the last adapter; Antigravity comes before Gemini, whose
      directory it lives in. */
  lemma RegistryOrder()
    ensures AgentAdapters[|AgentAdapters| - 1] == Generic
    ensures AgentAdapters[0] == Antigravity && AgentAdapters[1] == Gemini
  {
  }

  /** No two adapters share a name. */
  lemma NamesDistinct(a: Agent, b: Agent)
    requires Name(a) == Name(b)
    ensures a == b
  {
    match a {
      case Antigravity => assert Name(b)[0] == 'a';
      case Gemini => assert Name(b)[0] == 'g' && Name(b)[1] == 'e';
      case Cursor => assert Name(b)[0] == 'c' && Name(b)[1] == 'u';
      case Copilot => assert Name(b)[0] == 'c' && Name(b)[1] == 'o';
      case OpenCode => assert Name(b)[0] == 'o';
      case ClaudeCode => assert Name(b)[0] == 'c' && Name(b)[1] == 'l' && |Name(b)| == 6;
      case KiloCode => assert Name(b)[0] == 'k';
      case Cline => assert Name(b)[0] == 'c' && Name(b)[1] == 'l' && |Name(b)| == 5;
      case RooCode => assert Name(b)[0] == 'r';
      case Trae => assert Name(b)[0] == 't';
      case Windsurf => assert Name(b)[0] == 'w';
      case Generic => assert Name(b)[0] == 'g' && Name(b)[1] == 'e' && |Name(b)| == 7;
    }
  }

  /** Looking an adapter up by its own name finds that adapter. */
  lemma GetAdapterByOwnName(a: Agent)
    ensures GetAdapterByName(Name(a)) == Some(a)
  {
    var r := GetAdapterByName(Name(a));
    assert r.Some?;
    NamesDistinct(a, r.value);
  }

  /** The generic adapter detects in every project. */
  lemma GenericAlwaysDetects(fs: set<Path>, cwd: Path)
    ensures Detect(Generic, fs, cwd)
  {
  }

  /** A project with the Antigravity marker `.gemini/antigravity` has the
      `.gemini` directory Gemini looks for. */
  lemma AntigravityImpliesGemini(fs: set<Path>, cwd: Path)
    requires ParentClosed(fs) && Detect(Antigravity, fs, cwd)
    ensures Detect(Gemini, fs, cwd)
  {
    var p := cwd + [".gemini", "antigravity"];
    assert p[..|cwd| + 1] == cwd + [".gemini"];
  }

  /** Detection only looks for paths, so it survives adding paths. */
  lemma DetectMonotone(a: Agent, fs: set<Path>, fs': set<Path>, cwd: Path)
    requires fs <= fs' && Detect(a, fs, cwd)
    ensures Detect(a, fs', cwd)
  {
  }

  /** Antigravity installs to the same places as the generic adapter. */
  lemma AntigravitySharesGenericPaths(cwd: Path, n: string)
    requires PlainName(n)
    ensures SkillPath(Antigravity, cwd, n) == SkillPath(Generic, cwd, n)
    ensures WorkflowPath(Antigravity, cwd, n) == WorkflowPath(Generic, cwd, n)
  {
  }

  /** Apart from that pair, two adapters never install a skill to the same path. */
  lemma SkillPathsSeparate(a: Agent, b: Agent, cwd: Path, n: string)
    requires PlainName(n) && a != b && {a, b} != {Antigravity, Generic}
    ensures SkillPath(a, cwd, n) != SkillPath(b, cwd, n)
  {
    assert SkillPath(a, cwd, n)[|cwd|..|cwd| + 2] == SkillRoot(a);
    assert SkillPath(b, cwd, n)[|cwd|..|cwd| + 2] == SkillRoot(b);
    assert SkillRoot(a) != SkillRoot(b) by {
      SkillRootsSeparate(a, b);
    }
  }

  lemma SkillRootsSeparate(a: Agent, b: Agent)
    requires a != b && {a, b} != {Antigravity, Generic}
    ensures SkillRoot(a) != SkillRoot(b)
  {
  }

  /** A skill path and a workflow path of the same adapter differ; for every
      adapter but Copilot neither lies inside the other. */
  lemma SkillAndWorkflowApart(a: Agent, cwd: Path, n: string, m: string)
    requires PlainName(n) && WorkflowName(a, m)
    ensures SkillPath(a, cwd, n) != WorkflowPath(a, cwd, m)
    ensures a != Copilot ==> !PrefixOf(SkillPath(a, cwd, n), WorkflowPath(a, cwd, m))
    ensures a != Copilot ==> !PrefixOf(WorkflowPath(a, cwd, m), SkillPath(a, cwd, n))
  {
    var s, w := SkillPath(a, cwd, n), WorkflowPath(a, cwd, m);
    if a != Copilot {
      assert s[|cwd| + 1] == SkillRoot(a)[1];
      assert w[|cwd| + 1] == WorkflowRoot(a)[1];
      assert SkillRoot(a)[1] != WorkflowRoot(a)[1] by {
        var x := SkillRoot(a)[1];
        assert x == "skills" || x == "rules";
        assert WorkflowRoot(a)[1] == "workflows" || WorkflowRoot(a)[1] == "commands";
        assert x[0] == 's' || x[0] == 'r';
      }
    }
  }

  /** A Copilot workflow is the `SKILL.md` of the skill named by its stem. */
  lemma CopilotWorkflowIsSkill(cwd: Path, m: string)
    requires WorkflowName(Copilot, m)
    ensures WorkflowPath(Copilot, cwd, m) == SkillPath(Copilot, cwd, Stem(m)) + ["SKILL.md"]
  {
  }

  /** Skill paths of an adapter are one-to-one in the name. */
  lemma SkillPathInjective(a: Agent, cwd: Path, n: string, n': string)
    requires PlainName(n) && PlainName(n')
    requires SkillPath(a, cwd, n) == SkillPath(a, cwd, n')
    ensures n == n'
  {
    assert Basename(SkillPath(a, cwd, n)) == n;
  }

  /** So are workflow paths, except Copilot's: workflows differing only in
      their extension share one `SKILL.md`. */
  lemma WorkflowPathInjective(a: Agent, cwd: Path, m: string, m': string)
    requires a != Copilot && WorkflowName(a, m) && WorkflowName(a, m')
    requires WorkflowPath(a, cwd, m) == WorkflowPath(a, cwd, m')
    ensures m == m'
  {
    assert Basename(WorkflowPath(a, cwd, m)) == m;
  }

  lemma CopilotWorkflowsCollide(cwd: Path, base: string)
    requires PlainName(base) && forall k | 0 <= k < |base| :: base[k] != '.'
    ensures WorkflowName(Copilot, base + ".md") && WorkflowName(Copilot, base + ".txt")
    ensures WorkflowPath(Copilot, cwd, base + ".md") == WorkflowPath(Copilot, cwd, base + ".txt")
  {
    StemDropsExtension(base, "md");
    StemDropsExtension(base, "txt");
    assert base + ".md" == base + "." + "md";
    assert base + ".txt" == base + "." + "txt";
    assert PlainName(base + ".md") by {
      forall k | 0 <= k < |base + ".md"| ensures (base + ".md")[k] != '/' {
        if k < |base| { assert (base + ".md")[k] == base[k]; }
      }
      assert (base + ".md")[0] == base[0];
    }
    assert PlainName(base + ".txt") by {
      forall k | 0 <= k < |base + ".txt"| ensures (base + ".txt")[k] != '/' {
        if k < |base| { assert (base + ".txt")[k] == base[k]; }
      }
      assert (base + ".txt")[0] == base[0];
    }
  }

  /** Installing a skill creates a marker its adapter detects, for every
      adapter except Antigravity, whose skills go to `.agent`. */
  lemma InstalledSkillDetected(a: Agent, fs: set<Path>, cwd: Path, n: string)
    requires PlainName(n) && a != Antigravity
    ensures Detect(a, Create(fs, SkillPath(a, cwd, n)), cwd)
  {
    var p := SkillPath(a, cwd, n);
    var fs' := Create(fs, p);
    assert p[..|cwd| + 1] == cwd + [SkillRoot(a)[0]];
    assert p[..|cwd| + 2] == cwd + SkillRoot(a);
    assert PrefixOf(p[..|cwd| + 1], p) && PrefixOf(p[..|cwd| + 2], p);
  }

  /** Installing an Antigravity skill in a project without `.gemini/antigravity`
      leaves Antigravity undetected. */
  lemma AntigravitySkillNotDetected(fs: set<Path>, cwd: Path, n: string)
    requires PlainName(n) && !Detect(Antigravity, fs, cwd)
    ensures !Detect(Antigravity, Create(fs, SkillPath(Antigravity, cwd, n)), cwd)
  {
    var p := SkillPath(Antigravity, cwd, n);
    var q := cwd + [".gemini", "antigravity"];
    assert q[|cwd|] != p[|cwd|];
    assert !PrefixOf(q, p) by {
      assert p[..|q|][|cwd|] == p[|cwd|];
    }
  }

  /** Installing a workflow creates a marker its adapter detects, again for
      every adapter except Antigravity. */
  lemma InstalledWorkflowDetected(a: Agent, fs: set<Path>, cwd: Path, m: string)
    requires WorkflowName(a, m) && a != Antigravity
    ensures Detect(a, Create(fs, WorkflowPath(a, cwd, m)), cwd)
  {
    var p := WorkflowPath(a, cwd, m);
    assert p[..|cwd| + 1] == cwd + [WorkflowRoot(a)[0]];
    assert p[..|cwd| + 2] == cwd + WorkflowRoot(a);
    assert PrefixOf(p[..|cwd| + 1], p) && PrefixOf(p[..|cwd| + 2], p);
  }

  /** The Antigravity adapter: detects the Antigravity directory inside `.gemini` and installs to the shared `.agent` directories. */
  lemma AntigravityAdapter(fs: set<Path>, cwd: Path, n: string, m: string)
    requires PlainName(n) && WorkflowName(Antigravity, m)
    ensures Name(Antigravity) == "antigravity" && DisplayName(Antigravity) == "Antigravity"
    ensures Detect(Antigravity, fs, cwd) <==> cwd + [".gemini", "antigravity"] in fs
    ensures SkillPath(Antigravity, cwd, n) == cwd + [".agent", "skills", n]
    ensures WorkflowPath(Antigravity, cwd, m) == cwd + [".agent", "workflows", m]
  {
  }

  /** The Gemini Code Assist adapter: detects and installs under `.gemini`. */
  lemma GeminiAdapter(fs: set<Path>, cwd: Path, n: string, m: string)
    requires PlainName(n) && WorkflowName(Gemini, m)
    ensures Name(Gemini) == "gemini" && DisplayName(Gemini) == "Gemini Code Assist"
    ensures Detect(Gemini, fs, cwd) <==> cwd + [".gemini"] in fs
    ensures SkillPath(Gemini, cwd, n) == cwd + [".gemini", "skills", n]
    ensures WorkflowPath(Gemini, cwd, m) == cwd + [".gemini", "workflows", m]
  {
  }

  /** The Cursor adapter: detects `.cursor` or `.cursorrules`; skills are rules. */
  lemma CursorAdapter(fs: set<Path>, cwd: Path, n: string, m: string)
    requires PlainName(n) && WorkflowName(Cursor, m)
    ensures Name(Cursor) == "cursor" && DisplayName(Cursor) == "Cursor"
    ensures Detect(Cursor, fs, cwd) <==> cwd + [".cursor"] in fs || cwd + [".cursorrules"] in fs
    ensures SkillPath(Cursor, cwd, n) == cwd + [".cursor", "rules", n]
    ensures WorkflowPath(Cursor, cwd, m) == cwd + [".cursor", "workflows", m]
  {
  }

  /** The GitHub Copilot adapter: detects its instructions file or skill directory; workflows become skills. */
  lemma CopilotAdapter(fs: set<Path>, cwd: Path, n: string, m: string)
    requires PlainName(n) && WorkflowName(Copilot, m)
    ensures Name(Copilot) == "copilot" && DisplayName(Copilot) == "GitHub Copilot"
    ensures Detect(Copilot, fs, cwd) <==> cwd + [".github", "copilot-instructions.md"] in fs || cwd + [".github", "skills"] in fs
    ensures SkillPath(Copilot, cwd, n) == cwd + [".github", "skills", n]
    ensures WorkflowPath(Copilot, cwd, m) == cwd + [".github", "skills", Stem(m), "SKILL.md"]
  {
  }

  /** The OpenCode adapter: detects `.opencode` or `opencode.json`; workflows are commands. */
  lemma OpenCodeAdapter(fs: set<Path>, cwd: Path, n: string, m: string)
    requires PlainName(n) && WorkflowName(OpenCode, m)
    ensures Name(OpenCode) == "opencode" && DisplayName(OpenCode) == "OpenCode"
    ensures Detect(OpenCode, fs, cwd) <==> cwd + [".opencode"] in fs || cwd + ["opencode.json"] in fs
    ensures SkillPath(OpenCode, cwd, n) == cwd + [".opencode", "skills", n]
    ensures WorkflowPath(OpenCode, cwd, m) == cwd + [".opencode", "commands", m]
  {
  }

  /** The Claude Code adapter: detects `.claude` or `CLAUDE.md`; workflows are commands. */
  lemma ClaudeCodeAdapter(fs: set<Path>, cwd: Path, n: string, m: string)
    requires PlainName(n) && WorkflowName(ClaudeCode, m)
    ensures Name(ClaudeCode) == "claude" && DisplayName(ClaudeCode) == "Claude Code"
    ensures Detect(ClaudeCode, fs, cwd) <==> cwd + [".claude"] in fs || cwd + ["CLAUDE.md"] in fs
    ensures SkillPath(ClaudeCode, cwd, n) == cwd + [".claude", "skills", n]
    ensures WorkflowPath(ClaudeCode, cwd, m) == cwd + [".claude", "commands", m]
  {
  }

  /** The Kilo Code adapter: detects and installs under `.kilocode`. */
  lemma KiloCodeAdapter(fs: set<Path>, cwd: Path, n: string, m: string)
    requires PlainName(n) && WorkflowName(KiloCode, m)
    ensures Name(KiloCode) == "kilocode" && DisplayName(KiloCode) == "Kilo Code"
    ensures Detect(KiloCode, fs, cwd) <==> cwd + [".kilocode"] in fs
    ensures SkillPath(KiloCode, cwd, n) == cwd + [".kilocode", "skills", n]
    ensures WorkflowPath(KiloCode, cwd, m) == cwd + [".kilocode", "workflows", m]
  {
  }

  /** The Cline adapter: detects `.cline` or `.clinerules`; workflows go under `.clinerules`. */
  lemma ClineAdapter(fs: set<Path>, cwd: Path, n: string, m: string)
    requires PlainName(n) && WorkflowName(Cline, m)
    ensures Name(Cline) == "cline" && DisplayName(Cline) == "Cline"
    ensures Detect(Cline, fs, cwd) <==> cwd + [".cline"] in fs || cwd + [".clinerules"] in fs
    ensures SkillPath(Cline, cwd, n) == cwd + [".cline", "skills", n]
    ensures WorkflowPath(Cline, cwd, m) == cwd + [".clinerules", "workflows", m]
  {
  }

  /** The Roo Code adapter: detects and installs under `.roo`. */
  lemma RooCodeAdapter(fs: set<Path>, cwd: Path, n: string, m: string)
    requires PlainName(n) && WorkflowName(RooCode, m)
    ensures Name(RooCode) == "roocode" && DisplayName(RooCode) == "Roo Code"
    ensures Detect(RooCode, fs, cwd) <==> cwd + [".roo"] in fs
    ensures SkillPath(RooCode, cwd, n) == cwd + [".roo", "skills", n]
    ensures WorkflowPath(RooCode, cwd, m) == cwd + [".roo", "workflows", m]
  {
  }

  /** The Trae adapter: detects and installs under `.trae`. */
  lemma TraeAdapter(fs: set<Path>, cwd: Path, n: string, m: string)
    requires PlainName(n) && WorkflowName(Trae, m)
    ensures Name(Trae) == "trae" && DisplayName(Trae) == "Trae"
    ensures Detect(Trae, fs, cwd) <==> cwd + [".trae"] in fs
    ensures SkillPath(Trae, cwd, n) == cwd + [".trae", "skills", n]
    ensures WorkflowPath(Trae, cwd, m) == cwd + [".trae", "workflows", m]
  {
  }

  /** The Windsurf adapter: detects `.windsurfrules` or `.windsurf`; installs under `.windsurf`. */
  lemma WindsurfAdapter(fs: set<Path>, cwd: Path, n: string, m: string)
    requires PlainName(n) && WorkflowName(Windsurf, m)
    ensures Name(Windsurf) == "windsurf" && DisplayName(Windsurf) == "Windsurf"
    ensures Detect(Windsurf, fs, cwd) <==> cwd + [".windsurfrules"] in fs || cwd + [".windsurf"] in fs
    ensures SkillPath(Windsurf, cwd, n) == cwd + [".windsurf", "skills", n]
    ensures WorkflowPath(Windsurf, cwd, m) == cwd + [".windsurf", "workflows", m]
  {
  }

  /** The Generic / Other adapter: detects every project and installs under `.agent`. */
  lemma GenericAdapter(fs: set<Path>, cwd: Path, n: string, m: string)
    requires PlainName(n) && WorkflowName(Generic, m)
    ensures Name(Generic) == "generic" && DisplayName(Generic) == "Generic / Other"
    ensures Detect(Generic, fs, cwd)
    ensures SkillPath(Generic, cwd, n) == cwd + [".agent", "skills", n]
    ensures WorkflowPath(Generic, cwd, m) == cwd + [".agent", "workflows", m]
  {
  }
}

=== FILE: add.dfy ===
/** The decisions `handleInstall` (src/commands/add.ts) takes before it hands
    a source to `installLocalSkill`: how the user's source is classified, which
    kind of download a URL leads to, which registry entries a command line
    selects, how the selected entries are resolved, merged and deduplicated,
    and the source URL recorded for each installed entry.

    The prompt answers and the set of entry paths present in the downloaded
    archive are inputs. */
module Add {
  import opened Common
  import opened Catalog
  import opened Dedup
  import opened Registry
  import opened GitHub

  // ---------------------------------------------------------------------
  // Source classification

  /** `user/repo` shorthand: not starting with `http`, `.` or `/`, and containing a `/`. */
  predicate IsShorthand(source: string) {
    !StartsWith(source, "http") && !StartsWith(source, ".") && !StartsWith(source, "/") && '/' in source
  }

  /** The source after the shorthand was rewritten to a GitHub URL. */
  function Normalize(source: string): (r: string)
    ensures IsShorthand(source) ==> r == GitHubPrefix + source
    ensures !IsShorthand(source) ==> r == source
    ensures StartsWith(r, "http") <==> StartsWith(source, "http") || IsShorthand(source)
    ensures !IsShorthand(r)
  {
    Split("http", "s://" + Host + source);
    assert GitHubPrefix + source == "http" + ("s://" + Host + source);
    if IsShorthand(source) then GitHubPrefix + source else source
  }

  /** The ways a source is handled. */
  datatype SourceKind =
    | Reinstall                    // no source: reinstall what the configuration records
    | Remote(url: string)          // a URL: GitHub page, zip archive or raw file
    | RegistryName(name: string)   // `@name`: reported as not supported yet
    | Local(path: string)          // a path on this machine

  /** Which branch of `handleInstall` a source takes; a missing source is the
      empty string, which JavaScript treats as false. */
  function Classify(source: string): (r: SourceKind)
    ensures r.Reinstall? <==> source == ""
    ensures r.Remote? <==> StartsWith(source, "http") || IsShorthand(source)
    ensures r.Remote? ==> r.url == Normalize(source)
    ensures r.RegistryName? <==> StartsWith(source, "@") && '/' !in source
    ensures r.Local? ==> r.path == source
    ensures r.Local? <==> (source != "" && !StartsWith(source, "http") && !StartsWith(source, "@")
      && (StartsWith(source, ".") || StartsWith(source, "/") || '/' !in source))
  {
    if source == "" then Reinstall
    else
      var s := Normalize(source);
      assert StartsWith(source, "@") ==> source[0] == '@';
      assert StartsWith(source, "http") ==> source[0] == 'h';
      // `startsWith('https')` implies `startsWith('http')`
      if StartsWith(s, "http") then Remote(s)
      else if StartsWith(s, "@") then RegistryName(s)
      else Local(s)
  }

  /** A scoped name `@scope/name` is taken for GitHub shorthand, so the `@`
      branch is reached only by names without a `/`. */
  lemma ScopedNameIsShorthand(scope: string, name: string)
    ensures Classify("@" + scope + "/" + name) == Remote(GitHubPrefix + "@" + scope + "/" + name)
  {
    var s := "@" + scope + "/" + name;
    assert s[0] == '@' && s[|scope| + 1] == '/';
    assert !StartsWith(s, "http") by { assert s[0] != 'h'; }
    assert GitHubPrefix + s == GitHubPrefix + "@" + scope + "/" + name;
  }

  /** Shorthand `owner/repo` names the repository's root. */
  lemma ShorthandNamesRepository(owner: string, repo: string)
    requires Segment(owner) && Segment(repo) && !EndsWith(repo, ".git")
    requires owner[0] != '.' && !StartsWith(owner, "http")
    ensures Classify(owner + "/" + repo) == Remote(GitHubPrefix + owner + "/" + repo)
    ensures ParseGitHubUrlIntended(GitHubPrefix + owner + "/" + repo)
         == Some(GitHubInfo(owner, repo, None, None, None))
  {
    var s := owner + "/" + repo;
    assert s[|owner|] == '/';
    assert s[0] == owner[0] && owner[0] != '/';
    assert !StartsWith(s, "http") by {
      assert |owner| >= 4 ==> s[..4] == owner[..4];
    }
    ShorthandIsRemote(s);
    assert GitHubPrefix + s == GitHubPrefix + owner + "/" + repo;
    IntendedPlainUrl(owner, repo);
  }

  /** A shorthand source is read as the GitHub URL it abbreviates. */
  lemma ShorthandIsRemote(s: string)
    requires |s| > 0 && s[0] != '.' && s[0] != '/' && '/' in s && !StartsWith(s, "http")
    ensures Classify(s) == Remote(GitHubPrefix + s)
  {
    assert IsShorthand(s);
  }

  // ---------------------------------------------------------------------
  // What a URL leads to

  /** The branch a URL takes. */
  datatype Route =
    | BlobFile(info: GitHubInfo, rawUrl: string)                   // one file, fetched raw
    | RepoPath(info: GitHubInfo, archiveUrl: string, path: string) // one directory of the archive
    | RepoRegistry(info: GitHubInfo, archiveUrl: string)          // the archive's registry.json
    | ZipFile(url: string)                                        // any other `.zip`
    | RawFile(url: string)                                        // any other URL

  /** The routing of a URL: a GitHub blob page is fetched raw, a GitHub page
      with a non-empty path installs that directory of the archive, any other
      GitHub URL reads the archive's registry, and other URLs are a zip archive
      or a single file by their ending. The corrected `parseGitHubUrl` is used. */
  function RouteOf(url: string): (r: Route)
    ensures r.ZipFile? || r.RawFile? <==> ParseGitHubUrlIntended(url).None?
    ensures r.ZipFile? <==> ParseGitHubUrlIntended(url).None? && EndsWith(url, ".zip")
    ensures r.BlobFile? <==> ParseGitHubUrlIntended(url).Some? && ParseGitHubUrlIntended(url).value.kind == Some(Blob)
    ensures r.BlobFile? ==> r.info == ParseGitHubUrlIntended(url).value && r.rawUrl == RawUrl(r.info)
    ensures r.RepoPath? ==> (r.info == ParseGitHubUrlIntended(url).value && r.info.kind != Some(Blob)
      && r.path != "" && r.info.path == Some(r.path) && r.archiveUrl == ArchiveUrl(r.info))
    ensures r.RepoRegistry? ==> (r.info == ParseGitHubUrlIntended(url).value && r.info.kind != Some(Blob)
      && OrElse(r.info.path, "") == "" && r.archiveUrl == ArchiveUrl(r.info))
    ensures r.ZipFile? || r.RawFile? ==> r.url == url
  {
    match ParseGitHubUrlIntended(url)
    case Some(info) =>
      if info.kind == Some(Blob) then BlobFile(info, RawUrl(info))
      else if OrElse(info.path, "") != "" then RepoPath(info, ArchiveUrl(info), info.path.value)
      else RepoRegistry(info, ArchiveUrl(info))
    case None =>
      if EndsWith(url, ".zip") then ZipFile(url) else RawFile(url)
  }

  /** A blob page is fetched from the raw host at the same ref and path. */
  lemma BlobPageRoute(owner: string, repo: string, ref: string, p: string)
    requires Segment(owner) && Segment(repo) && Segment(ref) && LineFree(p) && !EndsWith(repo, ".git")
    ensures RouteOf(PageUrl(owner, repo, Blob, ref, p))
         == BlobFile(GitHubInfo(owner, repo, Some(Blob), Some(ref), Some(p)),
                     RawPrefix + owner + "/" + repo + "/" + ref + "/" + p)
  {
    IntendedPageUrl(owner, repo, Blob, ref, p);
    RawUrlGiven(GitHubInfo(owner, repo, Some(Blob), Some(ref), Some(p)));
  }

  /** A tree page with a path installs that path of the archive at its ref. */
  lemma TreePageRoute(owner: string, repo: string, ref: string, p: string)
    requires Segment(owner) && Segment(repo) && Segment(ref) && LineFree(p) && p != ""
    requires !EndsWith(repo, ".git")
    ensures var info := GitHubInfo(owner, repo, Some(Tree), Some(ref), Some(p));
      RouteOf(PageUrl(owner, repo, Tree, ref, p)) == RepoPath(info, ArchiveUrl(info), p)
  {
    IntendedPageUrl(owner, repo, Tree, ref, p);
  }

  /** A repository URL, and a tree page with an empty path, read the registry. */
  lemma RegistryRoutes(owner: string, repo: string, ref: string)
    requires Segment(owner) && Segment(repo) && Segment(ref) && !EndsWith(repo, ".git")
    ensures var info := GitHubInfo(owner, repo, None, None, None);
      RouteOf(GitHubPrefix + owner + "/" + repo) == RepoRegistry(info, ArchiveUrl(info))
    ensures var info := GitHubInfo(owner, repo, Some(Tree), Some(ref), Some(""));
      RouteOf(PageUrl(owner, repo, Tree, ref, "")) == RepoRegistry(info, ArchiveUrl(info))
  {
    IntendedPlainUrl(owner, repo);
    IntendedPageUrl(owner, repo, Tree, ref, "");
  }

  // ---------------------------------------------------------------------
  // Selecting registry entries

  /** `items.filter(item => itemsToInstall.includes(item.name))` */
  function Requested(items: seq<RegistryItem>, requested: seq<string>): (r: seq<RegistryItem>)
    ensures forall x :: x in r <==> x in items && x.name in requested
    ensures |r| <= |items|
  {
    if |items| == 0 then []
    else
      assert forall x | x in items :: x == items[0] || x in items[1..];
      (if items[0].name in requested then [items[0]] else []) + Requested(items[1..], requested)
  }

  /** The filter keeps catalog order, duplicates included: it distributes over concatenation. */
  lemma {:induction false} RequestedAppend(a: seq<RegistryItem>, b: seq<RegistryItem>, requested: seq<string>)
    ensures Requested(a + b, requested) == Requested(a, requested) + Requested(b, requested)
  {
    if |a| == 0 {
      assert a + b == b;
    } else {
      assert (a + b)[1..] == a[1..] + b;
      RequestedAppend(a[1..], b, requested);
    }
  }

  /** `itemsToInstall.filter(name => !items.find(item => item.name === name))` */
  function NotFound(items: seq<RegistryItem>, requested: seq<string>): (r: seq<string>)
    ensures forall n :: n in r <==> n in requested && n !in Names(items)
    ensures |r| <= |requested|
  {
    if |requested| == 0 then []
    else
      assert forall n | n in requested :: n == requested[0] || n in requested[1..];
      (if requested[0] !in Names(items) then [requested[0]] else []) + NotFound(items, requested[1..])
  }

  /** The not-found names keep request order: the filter distributes over concatenation. */
  lemma {:induction false} NotFoundAppend(items: seq<RegistryItem>, a: seq<string>, b: seq<string>)
    ensures NotFound(items, a + b) == NotFound(items, a) + NotFound(items, b)
  {
    if |a| == 0 {
      assert a + b == b;
    } else {
      assert (a + b)[1..] == a[1..] + b;
      NotFoundAppend(items, a[1..], b);
    }
  }

  /** The selected entries: the command-line names when there are any, and
      otherwise the prompt's answer; `None` when nothing is selected, which
      ends the command. */
  function Selected(items: seq<RegistryItem>, requested: seq<string>, answer: seq<RegistryItem>)
    : (r: Option<seq<RegistryItem>>)
    ensures |requested| > 0 ==> (r.None? <==> forall x | x in items :: x.name !in requested)
    ensures |requested| > 0 && r.Some? ==> r.value == Requested(items, requested)
    ensures |requested| == 0 ==> (r.None? <==> |answer| == 0)
    ensures |requested| == 0 && r.Some? ==> r.value == answer
    ensures r.Some? ==> |r.value| > 0
  {
    if |requested| > 0 then
      var selected := Requested(items, requested);
      if |selected| == 0 then None
      else
        assert selected[0] in items;
        Some(selected)
    else if |answer| == 0 then None
    else Some(answer)
  }

  // ---------------------------------------------------------------------
  // Resolution, merge and deduplication

  /** The `for (const item of selectedItems)` loop: every selection is
      resolved with a fresh visited set and the lists are concatenated. */
  function MergeResolutions(items: seq<RegistryItem>, selected: seq<RegistryItem>): (r: Resolution)
    ensures |selected| == 0 ==> r == Empty
  {
    if |selected| == 0 then Empty
    else
      var first := ResolveFresh(items, selected[0]);
      var rest := MergeResolutions(items, selected[1..]);
      Resolution(first.valid + rest.valid, first.missing + rest.missing)
  }

  /** The merged lists keep what each resolution holds: concrete entries, each
      a selection or the catalog's entry for its name, and names without an
      entry. */
  lemma {:induction false} MergeSound(items: seq<RegistryItem>, selected: seq<RegistryItem>)
    ensures var r := MergeResolutions(items, selected);
      forall x | x in r.valid :: Concrete(x) && (x in selected || Canonical(items, x))
    ensures var r := MergeResolutions(items, selected);
      forall n | n in r.missing :: n !in Names(items)
  {
    if |selected| > 0 {
      ResolveSound(items, selected[0], {});
      MergeSound(items, selected[1..]);
      MergeCons(items, selected);
      assert forall x | x in selected[1..] :: x in selected;
    }
  }

  /** Merging is compositional over the selection. */
  lemma {:induction false} MergeAppend(items: seq<RegistryItem>, a: seq<RegistryItem>, b: seq<RegistryItem>)
    ensures MergeResolutions(items, a + b)
         == Resolution(MergeResolutions(items, a).valid + MergeResolutions(items, b).valid,
                       MergeResolutions(items, a).missing + MergeResolutions(items, b).missing)
  {
    if |a| == 0 {
      assert a + b == b;
    } else {
      assert (a + b)[0] == a[0] && (a + b)[1..] == a[1..] + b;
      MergeAppend(items, a[1..], b);
      var f := ResolveFresh(items, a[0]);
      var ra := MergeResolutions(items, a[1..]);
      var rb := MergeResolutions(items, b);
      MergeCons(items, a);
      MergeCons(items, a + b);
      AppendAssoc(f.valid, ra.valid, rb.valid);
      AppendAssoc(f.missing, ra.missing, rb.missing);
    }
  }

  /** One unfolding of the merge. */
  lemma MergeCons(items: seq<RegistryItem>, selected: seq<RegistryItem>)
    requires |selected| > 0
    ensures var first := ResolveFresh(items, selected[0]);
      var rest := MergeResolutions(items, selected[1..]);
      MergeResolutions(items, selected) == Resolution(first.valid + rest.valid, first.missing + rest.missing)
  {
  }

  lemma AppendAssoc<T>(a: seq<T>, b: seq<T>, c: seq<T>)
    ensures a + (b + c) == (a + b) + c
  {
  }

  /** Two selected bundles that include the same unknown name report it twice:
      each selection has its own visited set and the merge does not deduplicate. */
  lemma MissingRepeatsAcrossSelections(items: seq<RegistryItem>, b1: RegistryItem, b2: RegistryItem, n: string)
    requires b1.kind == Bundle && b1.includes == Some([n])
    requires b2.kind == Bundle && b2.includes == Some([n])
    requires n !in Names(items)
    ensures MergeResolutions(items, [b1, b2]).missing == [n, n]
  {
    DanglingBundle(items, b1, n);
    DanglingBundle(items, b2, n);
    MergeTwo(items, b1, b2);
  }

  /** A bundle whose one include is unknown reports just that name. */
  lemma DanglingBundle(items: seq<RegistryItem>, b: RegistryItem, n: string)
    requires b.kind == Bundle && b.includes == Some([n]) && n !in Names(items)
    ensures ResolveFresh(items, b) == Resolution([], [n])
  {
    ResolveBundleStep(items, b, {});
    ResolveIncludesMissingStep(items, [n], {b.name});
    assert [n][1..] == [];
    assert Distinct([n]) == [n] by { assert [n][..0] == []; }
  }

  /** The merge of two selections. */
  lemma MergeTwo(items: seq<RegistryItem>, x: RegistryItem, y: RegistryItem)
    ensures MergeResolutions(items, [x, y])
         == Resolution(ResolveFresh(items, x).valid + ResolveFresh(items, y).valid,
                       ResolveFresh(items, x).missing + ResolveFresh(items, y).missing)
  {
    assert [x, y][1..] == [y];
    assert [y][1..] == [];
    var ry := ResolveFresh(items, y);
    assert MergeResolutions(items, [y]) == Resolution(ry.valid + [], ry.missing + []);
    assert ry.valid + [] == ry.valid && ry.missing + [] == ry.missing;
  }

  /** `uniqueItems` with the `type === 'bundle'` entries skipped. */
  function InstallList(valid: seq<RegistryItem>): (r: seq<RegistryItem>)
    ensures DistinctNames(r)
    ensures forall x | x in r :: Concrete(x) && x in valid && x == LastNamed(valid, x.name)
  {
    UniqueByNameFromInput(valid);
    ConcreteOnly(UniqueByName(valid))
  }

  /** The entries that are not bundles, in order. */
  function ConcreteOnly(s: seq<RegistryItem>): (r: seq<RegistryItem>)
    ensures forall x :: x in r <==> x in s && Concrete(x)
    ensures DistinctNames(s) ==> DistinctNames(r)
  {
    if |s| == 0 then []
    else
      assert forall x | x in s :: x == s[0] || x in s[1..];
      var rest := ConcreteOnly(s[1..]);
      if Concrete(s[0]) then
        assert DistinctNames(s) ==> DistinctNames([s[0]] + rest) by {
          if DistinctNames(s) {
            DistinctNamesTail(s);
            forall x | x in rest ensures x.name != s[0].name {
              var k :| 0 <= k < |s[1..]| && s[1..][k] == x;
              assert s[k + 1] == x;
            }
            DistinctNamesCons(s[0], rest);
          }
        }
        [s[0]] + rest
      else
        assert DistinctNames(s) ==> DistinctNames(s[1..]) by {
          if DistinctNames(s) {
            DistinctNamesTail(s);
          }
        }
        rest
  }

  /** The bundle skip never fires on a merged resolution: every resolved entry
      is already concrete. */
  lemma BundleSkipNeverFires(items: seq<RegistryItem>, selected: seq<RegistryItem>)
    ensures var valid := MergeResolutions(items, selected).valid;
      InstallList(valid) == UniqueByName(valid)
  {
    MergeSound(items, selected);
    var u := UniqueByName(MergeResolutions(items, selected).valid);
    UniqueByNameFromInput(MergeResolutions(items, selected).valid);
    AllConcrete(u);
  }

  lemma {:induction false} AllConcrete(s: seq<RegistryItem>)
    requires forall x | x in s :: Concrete(x)
    ensures ConcreteOnly(s) == s
  {
    if |s| > 0 {
      assert forall x | x in s[1..] :: x in s;
      AllConcrete(s[1..]);
      ConcreteCons(s[0], s[1..]);
      assert [s[0]] + s[1..] == s;
    }
  }

  /** A concrete entry in front is kept in front. */
  lemma ConcreteCons(x: RegistryItem, s: seq<RegistryItem>)
    requires Concrete(x)
    ensures ConcreteOnly([x] + s) == [x] + ConcreteOnly(s)
  {
    assert ([x] + s)[0] == x && ([x] + s)[1..] == s;
  }

  /** Two catalog entries sharing a name and both requested: the install list
      holds one entry, the later one, at the position of the earlier. */
  lemma LastValueWins(items: seq<RegistryItem>, x: RegistryItem, y: RegistryItem)
    requires Concrete(x) && Concrete(y) && x.name == y.name
    ensures InstallList(MergeResolutions(items, [x, y]).valid) == [y]
  {
    MergeTwo(items, x, y);
    assert ResolveFresh(items, x).valid == [x];
    assert ResolveFresh(items, y).valid == [y];
    assert [x] + [y] == [x, y];
    SameNameKeepsLast(x, y);
    assert ConcreteOnly([y]) == [y] by { assert [y][1..] == []; }
  }

  /** Two items with one name leave the second. */
  lemma SameNameKeepsLast(x: RegistryItem, y: RegistryItem)
    requires x.name == y.name
    ensures UniqueByName([x, y]) == [y]
  {
    assert [x, y][..1] == [x];
    assert UniqueByName([x]) == [x] by { assert [x][..0] == []; }
    assert FindIndex([x], y.name) == Some(0);
  }

  // ---------------------------------------------------------------------
  // The source recorded for each entry

  /** `${source}/tree/${ghInfo.ref || 'main'}/${item.path}` as written. */
  function ItemSource(source: string, info: GitHubInfo, item: RegistryItem): (r: string)
    ensures StartsWith(r, source + "/tree/")
    ensures EndsWith(r, "/" + item.path)
  {
    var head := source + "/tree/";
    var tail := OrElse(info.ref, "main") + "/" + item.path;
    Split(head, tail);
    assert (head + tail)[|head + tail| - |item.path| - 1..] == tail[|tail| - |item.path| - 1..];
    head + tail
  }

  /** When the source is a tree page with an empty path (which reads the
      registry), its ref is written a second time: the recorded URL is the
      page `/tree/<ref>/<path>` below the original ref. */
  lemma ItemSourceRepeatsRef(owner: string, repo: string, ref: string, item: RegistryItem)
    ensures var info := GitHubInfo(owner, repo, Some(Tree), Some(ref), Some(""));
      ref != "" ==> (ItemSource(PageUrl(owner, repo, Tree, ref, ""), info, item)
                     == PageUrl(owner, repo, Tree, ref, "/tree/" + ref + "/" + item.path))
  {
    var x := GitHubPrefix + owner + "/" + repo + "/" + "tree" + "/" + ref + "/";
    var q := "/tree/" + ref + "/" + item.path;
    assert PageUrl(owner, repo, Tree, ref, "") == x;
    assert PageUrl(owner, repo, Tree, ref, q) == x + q;
    AppendAssoc(x, "/tree/", ref + "/" + item.path);
    AppendAssoc("/tree/", ref + "/", item.path);
    AppendAssoc("/tree/", ref, "/");
  }

  /** The recorded URL of such an entry parses to the wrong path: the path
      read back is `/tree/<ref>/<path>`, not the entry's path. */
  lemma ItemSourceMisread(owner: string, repo: string, ref: string, item: RegistryItem)
    requires Segment(owner) && Segment(repo) && Segment(ref) && !EndsWith(repo, ".git")
    requires LineFree(ref) && LineFree(item.path)
    ensures var source := PageUrl(owner, repo, Tree, ref, "");
      RouteOf(source).RepoRegistry?
      && ParseGitHubUrlIntended(ItemSource(source, RouteOf(source).info, item))
         == Some(GitHubInfo(owner, repo, Some(Tree), Some(ref), Some("/tree/" + ref + "/" + item.path)))
  {
    RegistryRoutes(owner, repo, ref);
    ItemSourceRepeatsRef(owner, repo, ref, item);
    var q := "/tree/" + ref + "/" + item.path;
    TreeSuffixLineFree(ref, item.path);
    IntendedPageUrl(owner, repo, Tree, ref, q);
  }

  lemma LineFreeAppend(a: string, b: string)
    requires LineFree(a) && LineFree(b)
    ensures LineFree(a + b)
  {
    assert forall k | |a| <= k < |a + b| :: (a + b)[k] == b[k - |a|];
  }

  lemma TreeSuffixLineFree(ref: string, p: string)
    requires LineFree(ref) && LineFree(p)
    ensures LineFree("/tree/" + ref + "/" + p)
  {
    var t := "/tree/";
    assert LineFree(t) by {
      forall k | 0 <= k < |t| ensures !LineTerminator(t[k]) {
        assert t[k] in "/tree";
      }
    }
    assert LineFree("/") by { assert "/"[0] == '/'; }
    LineFreeAppend(t, ref);
    LineFreeAppend(t + ref, "/");
    LineFreeAppend(t + ref + "/", p);
  }

  /** The tree page of the entry in the repository and at the ref the source names. */
  function ItemSourceIntended(info: GitHubInfo, item: RegistryItem): (r: string)
    ensures StartsWith(r, GitHubPrefix + info.owner + "/" + info.repo + "/tree/")
  {
    var head := GitHubPrefix + info.owner + "/" + info.repo + "/tree/";
    var tail := OrElse(info.ref, "main") + "/" + item.path;
    Split(head, tail);
    assert PageUrl(info.owner, info.repo, Tree, OrElse(info.ref, "main"), item.path) == head + tail;
    head + tail
  }

  /** The corrected source parses back to the repository, the ref (`main` by
      default) and the entry's path. */
  lemma ItemSourceRoundTrip(info: GitHubInfo, item: RegistryItem)
    requires Segment(info.owner) && Segment(info.repo) && !EndsWith(info.repo, ".git")
    requires OrElse(info.ref, "main") != "" && SlashFree(OrElse(info.ref, "main"))
    requires LineFree(item.path)
    ensures ParseGitHubUrlIntended(ItemSourceIntended(info, item))
         == Some(GitHubInfo(info.owner, info.repo, Some(Tree), Some(OrElse(info.ref, "main")), Some(item.path)))
  {
    var ref := OrElse(info.ref, "main");
    assert ItemSourceIntended(info, item) == PageUrl(info.owner, info.repo, Tree, ref, item.path);
    IntendedPageUrl(info.owner, info.repo, Tree, ref, item.path);
  }

  /** For a plain repository URL the two agree. */
  lemma ItemSourceAgreesOnRepositoryUrl(owner: string, repo: string, item: RegistryItem)
    requires Segment(owner) && Segment(repo) && !EndsWith(repo, ".git")
    ensures var source := GitHubPrefix + owner + "/" + repo;
      RouteOf(source).RepoRegistry?
      && ItemSource(source, RouteOf(source).info, item) == ItemSourceIntended(RouteOf(source).info, item)
  {
    IntendedPlainUrl(owner, repo);
    var source := GitHubPrefix + owner + "/" + repo;
    assert RouteOf(source).info == GitHubInfo(owner, repo, None, None, None);
  }

  // ---------------------------------------------------------------------
  // The registry install as a whole

  /** An entry that will be installed, with the source recorded for it. */
  datatype Planned = Planned(item: RegistryItem, source: string)

  /** The `for (const item of uniqueItems)` loop: entries whose path is not in
      the archive are skipped; the others are installed with their source. */
  function PlanItems(unique: seq<RegistryItem>, present: set<string>, info: GitHubInfo): (r: seq<Planned>)
    ensures forall p | p in r :: p.item in unique && p.item.path in present && p.source == ItemSourceIntended(info, p.item)
    ensures forall x | x in unique && x.path in present :: Planned(x, ItemSourceIntended(info, x)) in r
  {
    if |unique| == 0 then []
    else
      var x := unique[0];
      assert forall y | y in unique :: y == x || y in unique[1..];
      (if x.path in present then [Planned(x, ItemSourceIntended(info, x))] else [])
        + PlanItems(unique[1..], present, info)
  }

  /** No two planned entries share a name. */
  predicate DistinctPlanned(r: seq<Planned>) {
    forall i, j | 0 <= i < j < |r| :: r[i].item.name != r[j].item.name
  }

  /** Planning keeps the names distinct when the entries have distinct names. */
  lemma {:induction false} PlanItemsDistinct(unique: seq<RegistryItem>, present: set<string>, info: GitHubInfo)
    requires DistinctNames(unique)
    ensures DistinctPlanned(PlanItems(unique, present, info))
  {
    if |unique| > 0 {
      var x := unique[0];
      var rest := PlanItems(unique[1..], present, info);
      PlanItemsDistinct(unique[1..], present, info);
      assert DistinctPlanned(rest);
      forall p | p in rest ensures p.item.name != x.name {
        var k :| 0 <= k < |unique[1..]| && unique[1..][k] == p.item;
        assert unique[k + 1] == p.item;
      }
      var r := PlanItems(unique, present, info);
      if x.path in present {
        assert r == [Planned(x, ItemSourceIntended(info, x))] + rest;
        DistinctPlannedCons(Planned(x, ItemSourceIntended(info, x)), rest);
      } else {
        assert r == rest;
      }
    }
  }

  lemma DistinctPlannedCons(p: Planned, rest: seq<Planned>)
    requires DistinctPlanned(rest) && forall q | q in rest :: q.item.name != p.item.name
    ensures DistinctPlanned([p] + rest)
  {
    var r := [p] + rest;
    forall i, j | 0 <= i < j < |r| ensures r[i].item.name != r[j].item.name {
      assert r[j] == rest[j - 1] && rest[j - 1] in rest;
      if i > 0 {
        assert r[i] == rest[i - 1];
      }
    }
  }

  /** Installing from a repository's registry: the selection (or `None` when
      the command ends because nothing is selected), then the planned entries
      and the missing include names to warn about. */
  function RegistryInstall(items: seq<RegistryItem>, requested: seq<string>, answer: seq<RegistryItem>,
                           info: GitHubInfo, present: set<string>)
    : (r: Option<(seq<Planned>, seq<string>)>)
    ensures r.None? <==> Selected(items, requested, answer).None?
    ensures r.Some? ==> DistinctPlanned(r.value.0)
    ensures r.Some? ==> forall p | p in r.value.0 :: Concrete(p.item) && p.item.path in present
    ensures r.Some? ==> forall n | n in r.value.1 :: n !in Names(items)
    // the warning lists what every selection's resolution reported missing, in selection order
    ensures r.Some? ==> r.value.1 == MergeResolutions(items, Selected(items, requested, answer).value).missing
    // an entry of the deduplicated list is installed exactly when its path is in the archive,
    // and nothing else is installed
    ensures r.Some? ==> var list := InstallList(MergeResolutions(items, Selected(items, requested, answer).value).valid);
      forall x | x in list :: x.path in present <==> Planned(x, ItemSourceIntended(info, x)) in r.value.0
    ensures r.Some? ==> var list := InstallList(MergeResolutions(items, Selected(items, requested, answer).value).valid);
      forall p | p in r.value.0 :: p.item in list && p.source == ItemSourceIntended(info, p.item)
  {
    match Selected(items, requested, answer)
    case None => None
    case Some(selected) =>
      var merged := MergeResolutions(items, selected);
      MergeSound(items, selected);
      PlanItemsDistinct(InstallList(merged.valid), present, info);
      Some((PlanItems(InstallList(merged.valid), present, info), merged.missing))
  }

  /** With command-line names, every planned entry is a requested catalog
      entry or an entry reached from one. */
  lemma PlannedFromCatalog(items: seq<RegistryItem>, requested: seq<string>, info: GitHubInfo, present: set<string>)
    requires |requested| > 0
    ensures var r := RegistryInstall(items, requested, [], info, present);
      r.Some? ==> forall p | p in r.value.0 :: p.item in items
  {
    var r := RegistryInstall(items, requested, [], info, present);
    if r.Some? {
      var selected := Requested(items, requested);
      var valid := MergeResolutions(items, selected).valid;
      MergeSound(items, selected);
      forall p | p in r.value.0 ensures p.item in items {
        assert p.item in valid;
        if !(p.item in selected) {
          assert Canonical(items, p.item);
          FoundIsCatalogEntry(items, p.item.name);
        }
      }
    }
  }

  /** What `find` returns is a catalog entry. */
  lemma FoundIsCatalogEntry(items: seq<RegistryItem>, n: string)
    requires Find(items, n).Some?
    ensures Find(items, n).value in items
  {
  }
}

=== FILE: catalog.dfy ===
/** The registry catalog: the `RegistryItem` records of a `registry.json`
    manifest (src/utils/download.ts) and lookup of an entry by name, which the
    code performs with `Array.prototype.find` and exact string equality. */
module Catalog {
  import opened Common

  /** `'skill' | 'workflow' | 'bundle'` */
  datatype ItemType = Skill | Workflow | Bundle

  /** One catalog entry. `includes` is only meaningful for bundles. */
  datatype RegistryItem = RegistryItem(
    name: string,
    path: string,
    kind: ItemType,
    description: Option<string>,
    includes: Option<seq<string>>)

  /** The names that have at least one catalog entry. */
  function Names(items: seq<RegistryItem>): set<string> {
    set x | x in items :: x.name
  }

  /** Index of the first entry called `n`, the one `find` returns. */
  function FindIndex(items: seq<RegistryItem>, n: string): (r: Option<nat>)
    ensures r.Some? ==> r.value < |items| && items[r.value].name == n
    ensures r.Some? ==> forall j | 0 <= j < r.value :: items[j].name != n
    ensures r.None? ==> forall j | 0 <= j < |items| :: items[j].name != n
  {
    if |items| == 0 then None
    else if items[0].name == n then Some(0)
    else
      match FindIndex(items[1..], n)
      case None => None
      case Some(j) => Some(j + 1)
  }

  /** `items.find(i => i.name === n)`: the first entry with exactly that name,
      absent exactly when no entry has it. */
  function Find(items: seq<RegistryItem>, n: string): (r: Option<RegistryItem>)
    ensures r.None? <==> n !in Names(items)
    ensures r.Some? ==> r.value in items && r.value.name == n
  {
    match FindIndex(items, n)
    case None =>
      assert forall x | x in items :: x.name != n by {
        forall x | x in items ensures x.name != n {
          var i :| 0 <= i < |items| && items[i] == x;
        }
      }
      None
    case Some(i) =>
      assert items[i] in items;
      Some(items[i])
  }

  /** What `find` returns is the entry at the first position carrying the name. */
  lemma FindIsFirst(items: seq<RegistryItem>, n: string)
    requires Find(items, n).Some?
    ensures exists i | 0 <= i < |items| :: items[i] == Find(items, n).value
                                           && forall j | 0 <= j < i :: items[j].name != n
  {
    var i := FindIndex(items, n).value;
    assert items[i] == Find(items, n).value;
  }
}

=== FILE: common.dfy ===
/** Shared vocabulary: optional values, results that carry an error message,
    and the handful of JavaScript string and array operations the tool relies on
    (startsWith, endsWith, includes, the falsy empty string). */
module Common {

  /** `T | undefined` (or `T | null`) in the TypeScript code. */
  datatype Option<+T> = None | Some(value: T)

  /** A computation that either produces a value or throws an `Error` with a message. */
  datatype Result<+T> = Ok(value: T) | Err(message: string)

  /** `s.startsWith(prefix)` */
  predicate StartsWith(s: string, prefix: string) {
    |prefix| <= |s| && s[..|prefix|] == prefix
  }

  /** `s.endsWith(suffix)` */
  predicate EndsWith(s: string, suffix: string) {
    |suffix| <= |s| && s[|s| - |suffix|..] == suffix
  }

  /** `a || fallback` where `a` is an optional string: both `undefined` and the
      empty string are falsy in JavaScript. */
  function OrElse(a: Option<string>, fallback: string): string {
    if a.Some? && a.value != "" then a.value else fallback
  }

  /** No element occurs twice. */
  predicate NoDups<T(==)>(s: seq<T>) {
    forall i, j | 0 <= i < j < |s| :: s[i] != s[j]
  }

  /** Position of the first occurrence of `x` in `s`. */
  function IndexOf<T(==)>(s: seq<T>, x: T): (r: nat)
    requires x in s
    ensures r < |s| && s[r] == x
    ensures forall k | 0 <= k < r :: s[k] != x
  {
    if s[0] == x then 0 else 1 + IndexOf(s[1..], x)
  }

  /** The first occurrence of an element of a prefix is found inside the prefix. */
  lemma IndexOfPrefix<T>(s: seq<T>, n: nat, x: T)
    requires n <= |s| && x in s[..n]
    ensures IndexOf(s, x) == IndexOf(s[..n], x)
  {
    var a, b := IndexOf(s, x), IndexOf(s[..n], x);
    assert s[b] == x;
    assert a <= b;
    assert s[..n][a] == x;
  }
}

=== FILE: config.dfy ===
/** The `.mountdrc.json` document and the bookkeeping `ConfigManager` does on
    it (src/utils/config.ts).

    Every operation reads the file afresh, edits the value in memory and writes
    it back whole, so each is modelled as a pure function from the file's
    current state to the document it saves. A key that is absent from the JSON
    object is `None`. */
module Config {
  import opened Common
  import opened Catalog

  /** One record of the `installed` list. */
  datatype InstalledSkill = InstalledSkill(
    name: string,
    source: string,
    version: Option<string>,
    kind: Option<ItemType>,
    installedAt: string)

  datatype PathSettings = PathSettings(skills: Option<string>, workflows: Option<string>)

  datatype Defaults = Defaults(overwrite: Option<bool>, validate: Option<bool>)

  /** `FlowerConfig`: every top-level key is optional. Agent names are kept as
      strings, since the tool stores any registry name there. */
  datatype Settings = Settings(
    agents: Option<seq<string>>,
    paths: Option<PathSettings>,
    defaults: Option<Defaults>,
    installed: Option<seq<InstalledSkill>>)

  /** The empty object `{}`. */
  const NoSettings := Settings(None, None, None, None)

  /** What `load` finds on disk: no file, a file that does not parse, or a document. */
  datatype ConfigFile = Absent | Unreadable | Readable(settings: Settings)

  /** `load()`: the document, or `null` when the file is missing or unreadable. */
  function Load(f: ConfigFile): (r: Option<Settings>)
    ensures r.None? <==> f.Absent? || f.Unreadable?
    ensures forall c :: f == Readable(c) ==> r == Some(c)
  {
    if f.Readable? then Some(f.settings) else None
  }

  /** `await this.load() || {}` */
  function Current(f: ConfigFile): (r: Settings)
    ensures f.Readable? ==> r == f.settings
    ensures !f.Readable? ==> r == NoSettings
  {
    match Load(f)
    case Some(c) => c
    case None => NoSettings
  }

  /** One key of `{ ...base, ...over }`: present in `over` wins. */
  function Pick<T>(base: Option<T>, over: Option<T>): Option<T> {
    if over.Some? then over else base
  }

  /** The object spread `{ ...base, ...over }`. */
  function Merge(base: Settings, over: Settings): (r: Settings)
    ensures over.agents.Some? ==> r.agents == over.agents
    ensures over.agents.None? ==> r.agents == base.agents
    ensures over.paths.Some? ==> r.paths == over.paths
    ensures over.paths.None? ==> r.paths == base.paths
    ensures over.defaults.Some? ==> r.defaults == over.defaults
    ensures over.defaults.None? ==> r.defaults == base.defaults
    ensures over.installed.Some? ==> r.installed == over.installed
    ensures over.installed.None? ==> r.installed == base.installed
  {
    Settings(Pick(base.agents, over.agents), Pick(base.paths, over.paths),
             Pick(base.defaults, over.defaults), Pick(base.installed, over.installed))
  }

  /** Spreading `{}` on either side changes nothing. */
  lemma MergeIdentity(c: Settings)
    ensures Merge(c, NoSettings) == c && Merge(NoSettings, c) == c
  {
  }

  /** Spreading the same updates twice is spreading them once. */
  lemma MergeIdempotent(c: Settings, u: Settings)
    ensures Merge(Merge(c, u), u) == Merge(c, u)
  {
  }

  /** Two successive spreads are one spread of the merged updates. */
  lemma MergeAssociative(c: Settings, u: Settings, w: Settings)
    ensures Merge(Merge(c, u), w) == Merge(c, Merge(u, w))
  {
  }

  /** `update(updates)`: the saved document is the current one (or `{}`) with
      the keys of `updates` overriding. */
  function Update(f: ConfigFile, updates: Settings): (r: Settings)
    ensures !f.Readable? ==> r == updates
    ensures f.Readable? ==> r == Merge(f.settings, updates)
  {
    Merge(Current(f), updates)
  }

  /** Updating a saved document again with the same keys saves the same document. */
  lemma UpdateTwice(f: ConfigFile, updates: Settings)
    ensures Update(Readable(Update(f, updates)), updates) == Update(f, updates)
  {
    MergeIdempotent(Current(f), updates);
  }

  /** How many records carry the name `n`. */
  function Count(s: seq<InstalledSkill>, n: string): (r: nat)
    ensures r <= |s|
  {
    if |s| == 0 then 0 else (if s[0].name == n then 1 else 0) + Count(s[1..], n)
  }

  /** `Count` is zero exactly when no record carries the name. */
  lemma {:induction false} CountZero(s: seq<InstalledSkill>, n: string)
    ensures Count(s, n) == 0 <==> forall x | x in s :: x.name != n
  {
    if |s| > 0 {
      CountZero(s[1..], n);
      assert forall x | x in s :: x == s[0] || x in s[1..];
    }
  }

  /** `installed.filter(s => s.name !== n)` */
  function WithoutName(s: seq<InstalledSkill>, n: string): (r: seq<InstalledSkill>)
    ensures |r| == |s| - Count(s, n)
    ensures forall x :: x in r <==> x in s && x.name != n
  {
    if |s| == 0 then []
    else
      assert forall x | x in s :: x == s[0] || x in s[1..];
      (if s[0].name == n then [] else [s[0]]) + WithoutName(s[1..], n)
  }

  /** Filtering keeps the relative order: it distributes over concatenation. */
  lemma {:induction false} WithoutNameAppend(a: seq<InstalledSkill>, b: seq<InstalledSkill>, n: string)
    ensures WithoutName(a + b, n) == WithoutName(a, n) + WithoutName(b, n)
  {
    if |a| > 0 {
      var head := if a[0].name == n then [] else [a[0]];
      assert (a + b)[0] == a[0];
      assert (a + b)[1..] == a[1..] + b;
      assert WithoutName(a + b, n) == head + WithoutName(a[1..] + b, n);
      assert WithoutName(a, n) == head + WithoutName(a[1..], n);
      WithoutNameAppend(a[1..], b, n);
    } else {
      assert a + b == b;
    }
  }

  /** A list without the name is left as it is; in particular filtering twice is filtering once. */
  lemma {:induction false} WithoutNameAbsent(s: seq<InstalledSkill>, n: string)
    requires forall x | x in s :: x.name != n
    ensures WithoutName(s, n) == s
  {
    if |s| > 0 {
      assert forall x | x in s[1..] :: x in s;
      WithoutNameAbsent(s[1..], n);
    }
  }

  /** The list `addInstalledSkill` builds: the other records in their order, then `skill`. */
  function Replaced(installed: seq<InstalledSkill>, skill: InstalledSkill): (r: seq<InstalledSkill>)
    ensures |r| > 0 && r[|r| - 1] == skill
    ensures Count(r, skill.name) == 1
    ensures forall x | x in r[..|r| - 1] :: x in installed && x.name != skill.name
    ensures forall x | x in installed && x.name != skill.name :: x in r
    ensures r[..|r| - 1] == WithoutName(installed, skill.name)
  {
    var rest := WithoutName(installed, skill.name);
    var r := rest + [skill];
    assert r[..|r| - 1] == rest;
    WithoutNameAppend(rest, [skill], skill.name);
    CountZero(rest, skill.name);
    assert Count([skill], skill.name) == 1;
    assert WithoutName(r, skill.name) == rest by {
      WithoutNameAbsent(rest, skill.name);
      assert WithoutName([skill], skill.name) == [];
    }
    r
  }

  /** `addInstalledSkill(skill)`: the saved document. An absent or unreadable
      file counts as `{}`; every key but `installed` is kept. */
  function AddInstalled(f: ConfigFile, skill: InstalledSkill): (r: Settings)
    ensures r.agents == Current(f).agents && r.paths == Current(f).paths
    ensures r.defaults == Current(f).defaults
    ensures r.installed.Some?
    ensures var before := if Current(f).installed.Some? then Current(f).installed.value else [];
      r.installed.value == Replaced(before, skill)
  {
    var current := Current(f);
    var installed := if current.installed.Some? then current.installed.value else [];
    current.(installed := Some(Replaced(installed, skill)))
  }

  /** After `addInstalledSkill(skill)` the record is the last one saved and the
      only one of its name. */
  lemma AddInstalledLast(f: ConfigFile, skill: InstalledSkill)
    ensures var saved := AddInstalled(f, skill).installed;
      saved.Some? && |saved.value| > 0 && saved.value[|saved.value| - 1] == skill
      && Count(saved.value, skill.name) == 1
  {
  }

  /** Replacing a record that is already the last one of its name changes nothing. */
  lemma ReplacedTwice(installed: seq<InstalledSkill>, skill: InstalledSkill)
    ensures Replaced(Replaced(installed, skill), skill) == Replaced(installed, skill)
  {
    var rest := WithoutName(installed, skill.name);
    CountZero(rest, skill.name);
    WithoutNameAppend(rest, [skill], skill.name);
    WithoutNameAbsent(rest, skill.name);
    assert WithoutName([skill], skill.name) == [];
    assert rest + [] == rest;
  }

  /** Adding the same record twice saves the same document as adding it once. */
  lemma AddInstalledTwice(f: ConfigFile, skill: InstalledSkill)
    ensures AddInstalled(Readable(AddInstalled(f, skill)), skill) == AddInstalled(f, skill)
  {
    var c := Current(f);
    var before := if c.installed.Some? then c.installed.value else [];
    ReplacedTwice(before, skill);
  }

  /** `removeInstalledSkill(n)`: whether something was removed, and the
      document saved when it was. */
  function RemoveInstalled(f: ConfigFile, n: string): (r: (bool, Option<Settings>))
    ensures r.0 <==> r.1.Some?
    ensures r.0 <==> f.Readable? && f.settings.installed.Some? && Count(f.settings.installed.value, n) > 0
    ensures r.0 ==> r.1.value.agents == f.settings.agents && r.1.value.paths == f.settings.paths
                    && r.1.value.defaults == f.settings.defaults
    ensures r.0 ==> var before := f.settings.installed.value;
      var after := r.1.value.installed;
      after.Some? && |after.value| < |before|
      && forall x :: x in after.value <==> x in before && x.name != n
    ensures r.0 ==> r.1.value.installed == Some(WithoutName(f.settings.installed.value, n))
  {
    match Load(f)
    case None => (false, None)
    case Some(current) =>
      if current.installed.None? then (false, None)
      else
        var filtered := WithoutName(current.installed.value, n);
        if |filtered| != |current.installed.value| then (true, Some(current.(installed := Some(filtered))))
        else (false, None)
  }

  /** After a successful removal, removing the same name again reports `false`. */
  lemma RemoveTwice(f: ConfigFile, n: string)
    requires RemoveInstalled(f, n).0
    ensures !RemoveInstalled(Readable(RemoveInstalled(f, n).1.value), n).0
  {
    var after := RemoveInstalled(f, n).1.value.installed.value;
    CountZero(after, n);
  }

  /** Removing a name right after adding a record of that name succeeds and
      leaves exactly the other records, in their order. */
  lemma AddThenRemove(f: ConfigFile, skill: InstalledSkill)
    ensures var added := AddInstalled(f, skill);
      var before := if Current(f).installed.Some? then Current(f).installed.value else [];
      RemoveInstalled(Readable(added), skill.name)
        == (true, Some(added.(installed := Some(WithoutName(before, skill.name)))))
  {
    var before := if Current(f).installed.Some? then Current(f).installed.value else [];
    var rest := WithoutName(before, skill.name);
    CountZero(rest, skill.name);
    WithoutNameAppend(rest, [skill], skill.name);
    WithoutNameAbsent(rest, skill.name);
    assert WithoutName([skill], skill.name) == [];
    assert rest + [] == rest;
  }
}

=== FILE: dedup.dfy ===
/** Insertion-ordered deduplication, as JavaScript's `Set` and `Map` perform it.

    `Array.from(new Set(xs))` keeps each value once, at the position of its
    first occurrence. `Array.from(new Map(items.map(i => [i.name, i])).values())`
    also orders keys by first occurrence, but `Map.set` on an existing key
    overwrites the value in place, so each name carries the LAST item seen with
    it. Both are written below as the left-to-right insertion loop the runtime
    performs and are then proved against a declarative description. */
module Dedup {
  import opened Common
  import opened Catalog

  /** `Array.from(new Set(s))`: every element once, in order of first appearance. */
  function Distinct(s: seq<string>): (r: seq<string>)
    ensures NoDups(r)
    ensures forall x :: x in r <==> x in s
    ensures forall i, j | 0 <= i < j < |r| :: IndexOf(s, r[i]) < IndexOf(s, r[j])
  {
    if |s| == 0 then []
    else
      var p := s[..|s| - 1];
      var x := s[|s| - 1];
      var d := Distinct(p);
      assert s == p + [x];
      forall y | y in d ensures IndexOf(s, y) == IndexOf(p, y) {
        IndexOfPrefix(s, |s| - 1, y);
      }
      if x in d then d
      else
        assert IndexOf(s, x) == |s| - 1;
        d + [x]
  }

  /** The names of a list of items, position by position. */
  function NamesOf(s: seq<RegistryItem>): (r: seq<string>)
    ensures |r| == |s|
    ensures forall i | 0 <= i < |s| :: r[i] == s[i].name
  {
    if |s| == 0 then [] else NamesOf(s[..|s| - 1]) + [s[|s| - 1].name]
  }

  /** No two items share a name. */
  predicate DistinctNames(s: seq<RegistryItem>) {
    forall i, j | 0 <= i < j < |s| :: s[i].name != s[j].name
  }

  lemma DistinctNamesCons(x: RegistryItem, s: seq<RegistryItem>)
    requires DistinctNames(s) && forall y | y in s :: y.name != x.name
    ensures DistinctNames([x] + s)
  {
    var r := [x] + s;
    forall i, j | 0 <= i < j < |r| ensures r[i].name != r[j].name {
      assert r[j] == s[j - 1] && s[j - 1] in s;
      if i > 0 {
        assert r[i] == s[i - 1];
      }
    }
  }

  lemma DistinctNamesTail(s: seq<RegistryItem>)
    requires |s| > 0 && DistinctNames(s)
    ensures DistinctNames(s[1..])
  {
    forall i, j | 0 <= i < j < |s| - 1 ensures s[1..][i].name != s[1..][j].name {
      assert s[1..][i] == s[i + 1] && s[1..][j] == s[j + 1];
    }
  }

  /** The last item of `s` called `n`. */
  function LastNamed(s: seq<RegistryItem>, n: string): (r: RegistryItem)
    requires n in Names(s)
    ensures r in s && r.name == n
  {
    var x := s[|s| - 1];
    if x.name == n then x
    else
      assert n in Names(s[..|s| - 1]) by {
        var y :| y in s && y.name == n;
        var i :| 0 <= i < |s| && s[i] == y;
        assert s[..|s| - 1][i] == y;
      }
      LastNamed(s[..|s| - 1], n)
  }

  /** `Map.prototype.set(x.name, x)` on a name-keyed map held as its entry list:
      an existing key keeps its position and takes the new value, a new key is
      appended at the end. */
  function MapSet(entries: seq<RegistryItem>, x: RegistryItem): (r: seq<RegistryItem>)
    requires DistinctNames(entries)
    ensures DistinctNames(r)
    ensures x in r
    ensures x.name in NamesOf(entries) ==> NamesOf(r) == NamesOf(entries)
    ensures x.name !in NamesOf(entries) ==> NamesOf(r) == NamesOf(entries) + [x.name]
    ensures forall k | 0 <= k < |r| && r[k].name != x.name :: k < |entries| && r[k] == entries[k]
  {
    match FindIndex(entries, x.name)
    case Some(j) =>
      var r := entries[j := x];
      assert NamesOf(r) == NamesOf(entries);
      r
    case None =>
      var r := entries + [x];
      assert NamesOf(r) == NamesOf(entries) + [x.name];
      r
  }

  /** `Array.from(new Map(s.map(i => [i.name, i])).values())`: one item per
      name, names in order of first appearance, each carrying the last item
      seen with that name. */
  function UniqueByName(s: seq<RegistryItem>): (r: seq<RegistryItem>)
    ensures DistinctNames(r)
    ensures NamesOf(r) == Distinct(NamesOf(s))
    ensures forall k | 0 <= k < |r| :: r[k].name in Names(s) && r[k] == LastNamed(s, r[k].name)
  {
    if |s| == 0 then []
    else
      var p := s[..|s| - 1];
      var x := s[|s| - 1];
      var d := UniqueByName(p);
      assert NamesOf(s) == NamesOf(p) + [x.name];
      assert NamesOf(s)[..|s| - 1] == NamesOf(p);
      assert x.name in NamesOf(d) <==> x.name in Distinct(NamesOf(p));
      var r := MapSet(d, x);
      assert x.name in Names(s) by { assert x in s; }
      forall k | 0 <= k < |r|
        ensures r[k].name in Names(s) && r[k] == LastNamed(s, r[k].name)
      {
        if r[k].name == x.name {
          assert r[k] == x by {
            var q :| 0 <= q < |r| && r[q] == x;
            assert NamesOf(r)[q] == NamesOf(r)[k];
          }
        } else {
          assert r[k] == d[k];
          assert r[k].name in Names(p);
          assert r[k] in s by { assert d[k] in p; }
        }
      }
      r
  }

  /** Every item kept by `UniqueByName` comes from the input. */
  lemma UniqueByNameFromInput(s: seq<RegistryItem>)
    ensures forall x | x in UniqueByName(s) :: x in s
  {
    var r := UniqueByName(s);
    forall x | x in r ensures x in s {
      var k :| 0 <= k < |r| && r[k] == x;
    }
  }

  /** Every name of the input keeps an item. */
  lemma UniqueByNameCoversNames(s: seq<RegistryItem>)
    ensures forall x | x in s :: x.name in NamesOf(UniqueByName(s))
  {
    var ns := NamesOf(s);
    forall x | x in s ensures x.name in ns {
      var i :| 0 <= i < |s| && s[i] == x;
      assert ns[i] == x.name;
    }
  }

  /** When equal names always carry equal items, keeping the first or the last
      occurrence is the same: the result is then exactly the first occurrence of
      each name. */
  lemma {:induction false} UniqueByNameOfConsistent(s: seq<RegistryItem>)
    requires forall i, j | 0 <= i < |s| && 0 <= j < |s| && s[i].name == s[j].name :: s[i] == s[j]
    ensures forall x | x in UniqueByName(s) :: x in s
    ensures forall x | x in s :: x in UniqueByName(s)
  {
    var r := UniqueByName(s);
    UniqueByNameFromInput(s);
    UniqueByNameCoversNames(s);
    forall x | x in s ensures x in r {
      var nr := NamesOf(r);
      var k := IndexOf(nr, x.name);
      var i :| 0 <= i < |s| && s[i] == r[k];
      var i' :| 0 <= i' < |s| && s[i'] == x;
    }
  }
}

=== FILE: detect_agent.dfy ===
/** The decisions of `detectAgents` (src/utils/detect-agent.ts): which agents
    are pre-selected, which choices the checkbox prompt shows, and what a
    given answer to that prompt leads to. The answer itself is an input. */
module DetectAgent {
  import opened Common
  import opened Paths
  import opened Adapters
  import opened Config

  /** Names of the registry adapters whose `detect` holds. */
  function Detected(fs: set<Path>, cwd: Path): (r: set<string>)
    ensures forall a: Agent :: Name(a) in r <==> Detect(a, fs, cwd)
    ensures forall n | n in r :: GetAdapterByName(n).Some?
  {
    var r := set a | a in AgentAdapters && Detect(a, fs, cwd) :: Name(a);
    forall a: Agent ensures Name(a) in r <==> Detect(a, fs, cwd) {
      Registered(a);
      if Name(a) in r {
        var b :| b in AgentAdapters && Detect(b, fs, cwd) && Name(b) == Name(a);
        NamesDistinct(a, b);
      }
    }
    forall n | n in r ensures GetAdapterByName(n).Some? {
      var b :| b in AgentAdapters && Name(b) == n;
      GetAdapterByOwnName(b);
    }
    r
  }

  /** `config?.agents || []`: the saved agent list, or nothing when the file
      is absent, unreadable or has no `agents` key. */
  function SavedAgents(f: ConfigFile): (r: seq<string>)
    ensures |r| > 0 ==> f.Readable? && f.settings.agents == Some(r)
    ensures f.Readable? && f.settings.agents.Some? ==> r == f.settings.agents.value
    ensures !(f.Readable? && f.settings.agents.Some?) ==> r == []
  {
    match Load(f)
    case Some(c) => if c.agents.Some? then c.agents.value else []
    case None => []
  }

  /** `preSelectedNames`: the saved agents when there are any, and otherwise
      every adapter whose `detect` holds. */
  function PreSelection(f: ConfigFile, fs: set<Path>, cwd: Path): (r: set<string>)
    ensures |SavedAgents(f)| > 0 ==> forall n :: n in r <==> n in SavedAgents(f)
    ensures |SavedAgents(f)| == 0 ==> forall a: Agent :: Name(a) in r <==> Detect(a, fs, cwd)
    ensures |SavedAgents(f)| == 0 ==> forall n | n in r :: GetAdapterByName(n).Some?
    ensures r != {}
  {
    var saved := SavedAgents(f);
    if |saved| > 0 then
      assert saved[0] in set n | n in saved;
      set n | n in saved
    else
      GenericAlwaysDetects(fs, cwd);
      Detected(fs, cwd)
  }

  /** A saved agent list decides the pre-selection whatever the directory holds. */
  lemma SavedAgentsIgnoreDetection(f: ConfigFile, fs: set<Path>, fs': set<Path>, cwd: Path)
    requires |SavedAgents(f)| > 0
    ensures PreSelection(f, fs, cwd) == PreSelection(f, fs', cwd)
  {
  }

  /** Every adapter that detects is pre-selected when nothing is saved, not just the first. */
  lemma AllDetectedPreSelected(f: ConfigFile, fs: set<Path>, cwd: Path)
    requires !f.Readable?
    ensures Name(Generic) in PreSelection(f, fs, cwd)
    ensures Detect(Antigravity, fs, cwd) && ParentClosed(fs)
      ==> Name(Antigravity) in PreSelection(f, fs, cwd) && Name(Gemini) in PreSelection(f, fs, cwd)
  {
    GenericAlwaysDetects(fs, cwd);
    if Detect(Antigravity, fs, cwd) && ParentClosed(fs) {
      AntigravityImpliesGemini(fs, cwd);
    }
  }

  /** One entry of the checkbox prompt. */
  datatype Choice = Choice(display: string, value: string, checked: bool)

  /** `AGENT_ADAPTERS.map(...)`: one choice per adapter, in registry order. */
  function Choices(preSelected: set<string>): (r: seq<Choice>)
    ensures |r| == |AgentAdapters|
    ensures forall k | 0 <= k < |r| ::
      r[k].value == Name(AgentAdapters[k]) && r[k].display == DisplayName(AgentAdapters[k])
    ensures forall k | 0 <= k < |r| :: r[k].checked <==> r[k].value in preSelected
  {
    seq(|AgentAdapters|, k requires 0 <= k < |AgentAdapters| =>
      Choice(DisplayName(AgentAdapters[k]), Name(AgentAdapters[k]), Name(AgentAdapters[k]) in preSelected))
  }

  /** Every adapter is offered exactly once, ticked exactly when pre-selected. */
  lemma ChoiceForEveryAgent(preSelected: set<string>, a: Agent)
    ensures exists k :: 0 <= k < |Choices(preSelected)| && Choices(preSelected)[k].value == Name(a)
    ensures forall k | 0 <= k < |Choices(preSelected)| && Choices(preSelected)[k].value == Name(a) ::
      AgentAdapters[k] == a && (Choices(preSelected)[k].checked <==> Name(a) in preSelected)
  {
    var cs := Choices(preSelected);
    Registered(a);
    var k := IndexOf(AgentAdapters, a);
    assert cs[k].value == Name(a);
    forall j | 0 <= j < |cs| && cs[j].value == Name(a)
      ensures AgentAdapters[j] == a
    {
      NamesDistinct(AgentAdapters[j], a);
    }
  }

  /** The selected names that name an adapter, in selection order. */
  function KnownNames(selected: seq<string>): (r: seq<string>)
    ensures forall n :: n in r <==> n in selected && GetAdapterByName(n).Some?
    ensures |r| <= |selected|
  {
    if |selected| == 0 then []
    else
      assert forall n | n in selected :: n == selected[0] || n in selected[1..];
      (if GetAdapterByName(selected[0]).Some? then [selected[0]] else []) + KnownNames(selected[1..])
  }

  /** `selected.map(getAdapterByName).filter(a => !!a)` */
  function SelectedAdapters(selected: seq<string>): (r: seq<Agent>)
    ensures |r| <= |selected|
    ensures forall a: Agent :: a in r <==> Name(a) in selected
  {
    if |selected| == 0 then []
    else
      var rest := SelectedAdapters(selected[1..]);
      InSelection(selected);
      match GetAdapterByName(selected[0])
      case Some(a0) =>
        OwnNameOnly(a0);
        [a0] + rest
      case None => rest
  }

  /** A name is in a non-empty selection when it is the first or in the rest. */
  lemma InSelection(selected: seq<string>)
    requires |selected| > 0
    ensures forall n :: n in selected <==> n == selected[0] || n in selected[1..]
  {
    assert selected == [selected[0]] + selected[1..];
  }

  /** No other adapter carries the name of `a0`. */
  lemma OwnNameOnly(a0: Agent)
    ensures forall a: Agent :: Name(a) == Name(a0) <==> a == a0
  {
    forall a: Agent | Name(a) == Name(a0) ensures a == a0 {
      NamesDistinct(a, a0);
    }
  }

  /** The names of a list of adapters. */
  function AgentNames(agents: seq<Agent>): (r: seq<string>)
    ensures |r| == |agents| && forall k | 0 <= k < |r| :: r[k] == Name(agents[k])
  {
    if |agents| == 0 then [] else [Name(agents[0])] + AgentNames(agents[1..])
  }

  /** The adapters come in the order of the selected names they answer to. */
  lemma {:induction false} SelectedAdaptersInOrder(selected: seq<string>)
    ensures AgentNames(SelectedAdapters(selected)) == KnownNames(selected)
  {
    if |selected| > 0 {
      SelectedAdaptersInOrder(selected[1..]);
      var rest := SelectedAdapters(selected[1..]);
      match GetAdapterByName(selected[0])
      case Some(a0) =>
        assert SelectedAdapters(selected) == [a0] + rest;
        assert ([a0] + rest)[1..] == rest;
        assert AgentNames([a0] + rest) == [Name(a0)] + AgentNames(rest);
        assert KnownNames(selected) == [selected[0]] + KnownNames(selected[1..]);
      case None =>
        assert KnownNames(selected) == [] + KnownNames(selected[1..]);
    }
  }

  /** Selecting adapters by their names yields those adapters one for one, in order. */
  lemma {:induction false} SelectedRegistryNames(agents: seq<Agent>)
    ensures SelectedAdapters(AgentNames(agents)) == agents
  {
    if |agents| > 0 {
      var names := AgentNames(agents);
      assert names[1..] == AgentNames(agents[1..]);
      SelectedRegistryNames(agents[1..]);
      assert GetAdapterByName(names[0]) == Some(agents[0]) by {
        GetAdapterByOwnName(agents[0]);
      }
      assert SelectedAdapters(names) == [agents[0]] + SelectedAdapters(names[1..]);
      assert agents == [agents[0]] + agents[1..];
    }
  }

  /** What the answer `selected` to the prompt leads to: an error when it is
      empty (nothing is saved), and otherwise the saved document, which records
      the answer as `agents`, and the adapters it names. */
  function ConfirmAgents(f: ConfigFile, selected: seq<string>): (r: Result<(seq<Agent>, Settings)>)
    ensures r.Err? <==> |selected| == 0
    ensures r.Ok? ==> r.value.1.agents == Some(selected)
    ensures r.Ok? ==> var c := Current(f);
      r.value.1.paths == c.paths && r.value.1.defaults == c.defaults && r.value.1.installed == c.installed
    ensures r.Ok? ==> forall a :: a in r.value.0 <==> Name(a) in selected
    ensures r.Ok? ==> AgentNames(r.value.0) == KnownNames(selected)
  {
    if |selected| == 0 then Err("At least one AI agent must be selected.")
    else
      var agents := SelectedAdapters(selected);
      SelectedAdaptersInOrder(selected);
      Ok((agents, Update(f, NoSettings.(agents := Some(selected)))))
  }
}

=== FILE: file_ops.dfy ===
/** The decisions of `installLocalSkill` (src/utils/file-ops.ts): which
    adapters are installed to, where, which are skipped, which destination
    the copy creates, and the record written to the configuration afterwards.

    The copy itself is reduced to the paths it creates. Whether the source is
    a file, which copies fail, the answer to the agent prompt and the
    timestamp are inputs. */
module FileOps {
  import opened Common
  import opened Catalog
  import opened Paths
  import opened Adapters
  import opened Config
  import opened DetectAgent

  /** The arguments of one call. `sourceText` is the source path as the user
      wrote it, `source` its segments. */
  datatype Request = Request(
    source: Path,
    sourceText: string,
    isFile: bool,
    force: bool,
    originalSource: Option<string>,
    kind: Option<ItemType>)

  /** `type === 'workflow'` */
  predicate AsWorkflow(req: Request) {
    req.kind == Some(Workflow)
  }

  /** The name the item is installed under: `path.basename(sourcePath)`. */
  function SkillName(req: Request): string
    requires |req.source| > 0
  {
    Basename(req.source)
  }

  /** Requests whose name every adapter can join into a path unchanged. */
  predicate WellFormed(req: Request) {
    |req.source| > 0 && PlainName(SkillName(req))
    && (AsWorkflow(req) ==> forall a: Agent :: WorkflowName(a, SkillName(req)))
  }

  /** `targetDir` for one adapter. */
  function Target(a: Agent, cwd: Path, req: Request): (r: Path)
    requires WellFormed(req)
    ensures PrefixOf(cwd, r) && |r| > |cwd|
    ensures AsWorkflow(req) ==> r == WorkflowPath(a, cwd, SkillName(req))
    ensures !AsWorkflow(req) ==> r == SkillPath(a, cwd, SkillName(req))
  {
    if AsWorkflow(req) then
      CopilotWorkflowIsSkill(cwd, SkillName(req));
      WorkflowPath(a, cwd, SkillName(req))
    else SkillPath(a, cwd, SkillName(req))
  }

  /** Where the copy lands: a file installed as a workflow becomes the target
      itself, any other file goes inside the target directory under its own
      name, and a directory's contents become the target directory. */
  function Destination(target: Path, req: Request): (r: Path)
    requires WellFormed(req)
    ensures PrefixOf(target, r) && |r| <= |target| + 1
    ensures |r| == |target| + 1 <==> req.isFile && !AsWorkflow(req)
    ensures |r| == |target| + 1 ==> r[|target|] == SkillName(req)
  {
    if req.isFile then
      if AsWorkflow(req) then target else target + [SkillName(req)]
    else target
  }

  /** What happened for one adapter. */
  datatype Step =
    | Skipped(agent: Agent, target: Path)
    | Failed(agent: Agent, target: Path)
    | Copied(agent: Agent, target: Path, dest: Path)

  /** One iteration of the adapter loop on file system `fs`: an existing
      target without `force` is skipped; a failing copy is reported and
      leaves the file system as it was; otherwise the destination is created. */
  function Place(a: Agent, cwd: Path, req: Request, failures: set<Agent>, fs: set<Path>)
    : (r: (Step, set<Path>))
    requires WellFormed(req)
    ensures r.0.agent == a && r.0.target == Target(a, cwd, req)
    ensures r.0.Skipped? <==> Target(a, cwd, req) in fs && !req.force
    ensures r.0.Failed? <==> !r.0.Skipped? && a in failures
    ensures !r.0.Copied? ==> r.1 == fs
    ensures r.0.Copied? ==> r.0.dest == Destination(Target(a, cwd, req), req) && r.0.dest in r.1
    ensures fs <= r.1 && (ParentClosed(fs) ==> ParentClosed(r.1))
  {
    var target := Target(a, cwd, req);
    if target in fs && !req.force then (Skipped(a, target), fs)
    else if a in failures then (Failed(a, target), fs)
    else
      var dest := Destination(target, req);
      (Copied(a, target, dest), Create(fs, dest))
  }

  /** One iteration creates only the destination and its missing ancestors. */
  lemma PlaceCreatesOnlyDestination(a: Agent, cwd: Path, req: Request, failures: set<Agent>, fs: set<Path>)
    requires WellFormed(req)
    ensures var r := Place(a, cwd, req, failures, fs);
      forall p | p in r.1 && p !in fs :: CreatedBy(r.0, p)
  {
  }

  /** The `for (const adapter of adapters)` loop. */
  function PlaceAll(adapters: seq<Agent>, cwd: Path, req: Request, failures: set<Agent>, fs: set<Path>)
    : (r: (seq<Step>, set<Path>))
    requires WellFormed(req)
    ensures StepsFor(adapters, cwd, req, r.0)
    ensures fs <= r.1 && (ParentClosed(fs) ==> ParentClosed(r.1))
  {
    if |adapters| == 0 then ([], fs)
    else
      var first := Place(adapters[0], cwd, req, failures, fs);
      var rest := PlaceAll(adapters[1..], cwd, req, failures, first.1);
      var steps := [first.0] + rest.0;
      assert steps[0] == first.0 && steps[1..] == rest.0;
      (steps, rest.1)
  }

  /** `st` is the step of adapter `a`, for its target. */
  predicate StepFor(a: Agent, cwd: Path, req: Request, st: Step)
    requires WellFormed(req)
  {
    st.agent == a && st.target == Target(a, cwd, req)
  }

  /** One step per adapter, in order. */
  predicate StepsFor(adapters: seq<Agent>, cwd: Path, req: Request, steps: seq<Step>)
    requires WellFormed(req)
    decreases |adapters|
  {
    && |steps| == |adapters|
    && (|adapters| > 0 ==>
          StepFor(adapters[0], cwd, req, steps[0]) && StepsFor(adapters[1..], cwd, req, steps[1..]))
  }

  /** The step at each position belongs to the adapter at that position. */
  lemma {:induction false} StepsForIndex(adapters: seq<Agent>, cwd: Path, req: Request, steps: seq<Step>)
    requires WellFormed(req) && StepsFor(adapters, cwd, req, steps)
    ensures |steps| == |adapters|
    ensures forall k | 0 <= k < |adapters| :: StepFor(adapters[k], cwd, req, steps[k])
    decreases |adapters|
  {
    if |adapters| > 0 {
      StepsForIndex(adapters[1..], cwd, req, steps[1..]);
      forall k | 1 <= k < |adapters| ensures StepFor(adapters[k], cwd, req, steps[k]) {
        assert StepFor(adapters[1..][k - 1], cwd, req, steps[1..][k - 1]);
        assert adapters[k] == adapters[1..][k - 1] && steps[k] == steps[1..][k - 1];
      }
    }
  }

  /** The loop unrolled once. */
  lemma PlaceAllCons(adapters: seq<Agent>, cwd: Path, req: Request, failures: set<Agent>, fs: set<Path>)
    requires WellFormed(req) && |adapters| > 0
    ensures var first := Place(adapters[0], cwd, req, failures, fs);
      var rest := PlaceAll(adapters[1..], cwd, req, failures, first.1);
      PlaceAll(adapters, cwd, req, failures, fs) == ([first.0] + rest.0, rest.1)
      && first.1 <= rest.1
  {
  }

  /** What one adapter's step says about the file system `after` the loop: a
      copy's destination exists, the adapter failed exactly when it was not
      skipped and its copy failed, and with `force` it was not skipped. */
  predicate Outcome(a: Agent, req: Request, failures: set<Agent>, st: Step, after: set<Path>) {
    && (st.Copied? ==> st.dest in after)
    && (st.Failed? <==> !st.Skipped? && a in failures)
    && (req.force ==> !st.Skipped?)
  }

  /** Every adapter of `adapters` has its outcome in `steps`. */
  predicate AllOutcomes(adapters: seq<Agent>, req: Request, failures: set<Agent>, steps: seq<Step>, after: set<Path>) {
    |steps| == |adapters|
    && forall k | 0 <= k < |adapters| :: Outcome(adapters[k], req, failures, steps[k], after)
  }

  lemma OutcomesCons(adapters: seq<Agent>, req: Request, failures: set<Agent>, steps: seq<Step>, after: set<Path>)
    requires |adapters| > 0 && |steps| == |adapters|
    requires Outcome(adapters[0], req, failures, steps[0], after)
    requires AllOutcomes(adapters[1..], req, failures, steps[1..], after)
    ensures AllOutcomes(adapters, req, failures, steps, after)
  {
    forall k | 1 <= k < |adapters| ensures Outcome(adapters[k], req, failures, steps[k], after) {
      assert steps[k] == steps[1..][k - 1] && adapters[k] == adapters[1..][k - 1];
    }
  }

  /** Every adapter's step has its outcome. */
  lemma {:induction false} PlaceAllOutcomes(adapters: seq<Agent>, cwd: Path, req: Request,
                                            failures: set<Agent>, fs: set<Path>)
    requires WellFormed(req)
    ensures var r := PlaceAll(adapters, cwd, req, failures, fs);
      AllOutcomes(adapters, req, failures, r.0, r.1)
  {
    if |adapters| > 0 {
      var first := Place(adapters[0], cwd, req, failures, fs);
      var rest := PlaceAll(adapters[1..], cwd, req, failures, first.1);
      PlaceAllOutcomes(adapters[1..], cwd, req, failures, first.1);
      PlaceAllCons(adapters, cwd, req, failures, fs);
      var r := PlaceAll(adapters, cwd, req, failures, fs);
      assert r.0[0] == first.0 && r.0[1..] == rest.0 && r.1 == rest.1;
      assert Outcome(adapters[0], req, failures, first.0, rest.1);
      OutcomesCons(adapters, req, failures, r.0, r.1);
    }
  }

  /** The step `st` copied to a destination on the way to which `p` lies. */
  predicate CreatedBy(st: Step, p: Path) {
    st.Copied? && PrefixOf(p, st.dest)
  }

  /** Some step of `steps` created `p`. */
  predicate Created(steps: seq<Step>, p: Path) {
    exists k | 0 <= k < |steps| :: CreatedBy(steps[k], p)
  }

  lemma CreatedCons(first: Step, rest: seq<Step>, p: Path)
    requires CreatedBy(first, p) || Created(rest, p)
    ensures Created([first] + rest, p)
  {
    if CreatedBy(first, p) {
      assert ([first] + rest)[0] == first;
    } else {
      var j :| 0 <= j < |rest| && CreatedBy(rest[j], p);
      assert ([first] + rest)[j + 1] == rest[j];
    }
  }

  /** Every path the loop creates lies on the way to the destination of an
      adapter that copied. */
  lemma {:induction false} PlaceAllCreatesOnlyDestinations(adapters: seq<Agent>, cwd: Path, req: Request,
                                                          failures: set<Agent>, fs: set<Path>)
    requires WellFormed(req)
    ensures var r := PlaceAll(adapters, cwd, req, failures, fs);
      forall p | p in r.1 && p !in fs :: Created(r.0, p)
  {
    if |adapters| > 0 {
      var first := Place(adapters[0], cwd, req, failures, fs);
      var rest := PlaceAll(adapters[1..], cwd, req, failures, first.1);
      PlaceAllCreatesOnlyDestinations(adapters[1..], cwd, req, failures, first.1);
      PlaceCreatesOnlyDestination(adapters[0], cwd, req, failures, fs);
      PlaceAllCons(adapters, cwd, req, failures, fs);
      forall p | p in rest.1 && p !in fs ensures Created([first.0] + rest.0, p) {
        CreatedCons(first.0, rest.0, p);
      }
    }
  }

  /** The result of a call that returns (it always returns `true`). */
  datatype Install = Install(steps: seq<Step>, fs: set<Path>, saved: Settings)

  /** The record `addInstalledSkill` receives. */
  function Record(req: Request, installedAt: string): (r: InstalledSkill)
    requires |req.source| > 0
    ensures r.name == Basename(req.source)
    ensures r.source == OrElse(req.originalSource, req.sourceText)
    ensures r.kind.Some? && (r.kind.value == Workflow <==> AsWorkflow(req))
    ensures req.kind.None? ==> r.kind == Some(Skill)
    ensures req.kind.Some? ==> r.kind == req.kind
  {
    InstalledSkill(SkillName(req), OrElse(req.originalSource, req.sourceText), None,
                   Some(if req.kind.Some? then req.kind.value else Skill), installedAt)
  }

  /** `saved` is what `addInstalledSkill(record)` writes over the document
      `base`: every other key is kept, the records of other names stay in
      order, and the record comes last. */
  predicate AddedTo(saved: Settings, base: Settings, record: InstalledSkill) {
    && saved.agents == base.agents && saved.paths == base.paths && saved.defaults == base.defaults
    && saved.installed.Some? && |saved.installed.value| > 0
    && saved.installed.value[|saved.installed.value| - 1] == record
    && saved.installed.value[..|saved.installed.value| - 1]
       == WithoutName(if base.installed.Some? then base.installed.value else [], record.name)
  }

  /** The adapters to install to: the given list when it is non-empty, and
      otherwise the outcome of `detectAgents` for the prompt answer `answer`,
      together with the configuration file as that call leaves it. */
  function ChooseAdapters(given: seq<Agent>, config: ConfigFile, answer: seq<string>)
    : (r: Result<(seq<Agent>, ConfigFile)>)
    ensures |given| > 0 ==> r == Ok((given, config))
    ensures |given| == 0 ==> (r.Err? <==> |answer| == 0)
    ensures |given| == 0 && r.Ok? ==> r.value.1.Readable? && r.value.1.settings.agents == Some(answer)
    ensures |given| == 0 && r.Ok? ==> AgentNames(r.value.0) == KnownNames(answer)
    // the prompt changes only the `agents` key of the file
    ensures |given| == 0 && r.Ok? ==> var c := Current(config);
      r.value.1.settings.paths == c.paths && r.value.1.settings.defaults == c.defaults
      && r.value.1.settings.installed == c.installed
  {
    if |given| > 0 then Ok((given, config))
    else
      match ConfirmAgents(config, answer)
      case Err(m) => Err(m)
      case Ok(chosen) => Ok((chosen.0, Readable(chosen.1)))
  }

  /** The adapter of each step, in order. */
  function StepAgents(steps: seq<Step>): (r: seq<Agent>)
    ensures |r| == |steps| && forall k | 0 <= k < |steps| :: r[k] == steps[k].agent
  {
    seq(|steps|, k requires 0 <= k < |steps| => steps[k].agent)
  }

  /** `installLocalSkill(sourcePath, { force }, originalSource, agentAdapters, type)`
      on file system `fs` in directory `cwd`. */
  function InstallLocalSkill(fs: set<Path>, cwd: Path, req: Request, given: seq<Agent>,
                             config: ConfigFile, answer: seq<string>, failures: set<Agent>,
                             installedAt: string): (r: Result<Install>)
    requires WellFormed(req)
    // a missing source is an error before anything else happens
    ensures req.source !in fs ==> r.Err?
    ensures r.Err? <==> req.source !in fs || (|given| == 0 && |answer| == 0)
    // one step per adapter, in order
    ensures r.Ok? ==> |r.value.steps| == |ChooseAdapters(given, config, answer).value.0|
    ensures r.Ok? && |given| > 0 ==> forall k | 0 <= k < |given| :: r.value.steps[k].agent == given[k]
    ensures r.Ok? && |given| == 0 ==> AgentNames(StepAgents(r.value.steps)) == KnownNames(answer)
    // the file system only grows, and stays closed under parents
    ensures r.Ok? ==> fs <= r.value.fs && (ParentClosed(fs) ==> ParentClosed(r.value.fs))
    // the record is saved whatever happened to the adapters, replacing any of its name
    ensures r.Ok? ==> var saved := r.value.saved.installed;
      saved.Some? && |saved.value| > 0 && saved.value[|saved.value| - 1] == Record(req, installedAt)
      && Count(saved.value, Basename(req.source)) == 1
    // the saved document is the file as `detectAgents` left it, with the record added
    ensures r.Ok? && |given| > 0 ==> AddedTo(r.value.saved, Current(config), Record(req, installedAt))
    ensures r.Ok? && |given| == 0 ==>
      AddedTo(r.value.saved, Current(config).(agents := Some(answer)), Record(req, installedAt))
  {
    if req.source !in fs then Err("Source path does not exist: " + req.sourceText)
    else
      match ChooseAdapters(given, config, answer)
      case Err(m) => Err(m)
      case Ok(chosen) => Ok(InstallTo(fs, cwd, req, chosen.0, chosen.1, failures, installedAt))
  }

  /** The part of `installLocalSkill` after the adapters are chosen: the copy
      loop over `adapters`, then the record added to `config`. */
  function InstallTo(fs: set<Path>, cwd: Path, req: Request, adapters: seq<Agent>,
                     config: ConfigFile, failures: set<Agent>, installedAt: string): (r: Install)
    requires WellFormed(req)
    ensures |r.steps| == |adapters| && forall k | 0 <= k < |adapters| :: r.steps[k].agent == adapters[k]
    ensures StepAgents(r.steps) == adapters
    ensures fs <= r.fs && (ParentClosed(fs) ==> ParentClosed(r.fs))
    ensures var saved := r.saved.installed;
      saved.Some? && |saved.value| > 0 && saved.value[|saved.value| - 1] == Record(req, installedAt)
      && Count(saved.value, Basename(req.source)) == 1
    ensures AddedTo(r.saved, Current(config), Record(req, installedAt))
  {
    var placed := PlaceAll(adapters, cwd, req, failures, fs);
    StepsForIndex(adapters, cwd, req, placed.0);
    AddInstalledLast(config, Record(req, installedAt));
    Install(placed.0, placed.1, AddInstalled(config, Record(req, installedAt)))
  }

  /** With `force`, no adapter is skipped. */
  lemma ForceNeverSkips(fs: set<Path>, cwd: Path, req: Request, given: seq<Agent>,
                        config: ConfigFile, answer: seq<string>, failures: set<Agent>, installedAt: string)
    requires WellFormed(req) && req.force
    ensures var r := InstallLocalSkill(fs, cwd, req, given, config, answer, failures, installedAt);
      r.Ok? ==> forall k | 0 <= k < |r.value.steps| :: !r.value.steps[k].Skipped?
  {
    var chosen := ChooseAdapters(given, config, answer);
    if req.source in fs && chosen.Ok? {
      PlaceAllOutcomes(chosen.value.0, cwd, req, failures, fs);
    }
  }

  /** A skipped or failed adapter does not stop the next one: with a fresh
      target and a working copy, the adapter after it still copies. */
  lemma LaterAdapterStillCopied(a: Agent, b: Agent, cwd: Path, req: Request, failures: set<Agent>, fs: set<Path>)
    requires WellFormed(req)
    requires Target(b, cwd, req) !in fs && b !in failures
    requires Target(a, cwd, req) in fs || a in failures
    ensures var r := PlaceAll([a, b], cwd, req, failures, fs);
      r.0[1] == Copied(b, Target(b, cwd, req), Destination(Target(b, cwd, req), req))
  {
    assert [a, b][1..] == [b];
  }

  /** Antigravity and Generic share their targets: installing to both without
      `force` copies once, for Antigravity, and skips Generic. */
  lemma SharedTargetSkipped(cwd: Path, req: Request, failures: set<Agent>, fs: set<Path>)
    requires WellFormed(req) && !req.force
    requires Target(Antigravity, cwd, req) !in fs && Antigravity !in failures
    ensures var r := PlaceAll([Antigravity, Generic], cwd, req, failures, fs);
      r.0[0].Copied? && r.0[1] == Skipped(Generic, Target(Antigravity, cwd, req))
  {
    var n := SkillName(req);
    AntigravitySharesGenericPaths(cwd, n);
    var target := Target(Antigravity, cwd, req);
    var first := Place(Antigravity, cwd, req, failures, fs);
    assert target in first.1 by {
      var dest := Destination(target, req);
      assert PrefixOf(target, dest);
      assert dest[..|target|] == target;
    }
    assert [Antigravity, Generic][1..] == [Generic];
  }
}

=== FILE: github.dfy ===
/** GitHub URL handling of src/utils/download.ts: `parseGitHubUrl`, a single
    unanchored regular expression

        github\.com\/([^\/]+)\/([^\/]+)(?:\/(tree|blob)\/([^\/]+)(?:\/(.*))?)?

    written out as the leftmost, greedy match a JavaScript engine finds, and the
    two URL strings composed from its result (`getGitHubRawUrl` and the archive
    URL of `downloadGitHubRepoZip`). */
module GitHub {
  import opened Common

  /** `'tree' | 'blob'` */
  datatype RefKind = Tree | Blob

  /** `GitHubInfo`; absent optional fields are `undefined` in the code. */
  datatype GitHubInfo = GitHubInfo(
    owner: string,
    repo: string,
    kind: Option<RefKind>,
    ref: Option<string>,
    path: Option<string>)

  /** The literal part `github.com/` the match starts with. */
  const Host: string := "github.com/"

  /** The scheme and host prefix of URLs the tool writes itself. */
  const GitHubPrefix: string := "https://" + Host

  function KindWord(k: RefKind): string {
    match k
    case Tree => "tree"
    case Blob => "blob"
  }

  /** No character is `/`: what `[^\/]` accepts. */
  predicate SlashFree(s: string) {
    forall k | 0 <= k < |s| :: s[k] != '/'
  }

  /** The characters `.` refuses in a JavaScript regular expression. */
  predicate LineTerminator(c: char) {
    c == '\n' || c == '\r' || c == '\U{2028}' || c == '\U{2029}'
  }

  predicate LineFree(s: string) {
    forall k | 0 <= k < |s| :: !LineTerminator(s[k])
  }

  /** Length of the longest slash-free prefix: what greedy `[^\/]+` consumes. */
  function SlashRun(s: string): (n: nat)
    ensures n <= |s| && SlashFree(s[..n])
    ensures n == |s| || s[n] == '/'
  {
    if |s| == 0 || s[0] == '/' then 0
    else
      var m := SlashRun(s[1..]);
      assert s[..1 + m] == [s[0]] + s[1..][..m];
      1 + m
  }

  /** Length of the longest prefix without a line terminator: what greedy `.*` consumes. */
  function LineRun(s: string): (n: nat)
    ensures n <= |s| && LineFree(s[..n])
    ensures n == |s| || LineTerminator(s[n])
  {
    if |s| == 0 || LineTerminator(s[0]) then 0
    else
      var m := LineRun(s[1..]);
      assert s[..1 + m] == [s[0]] + s[1..][..m];
      1 + m
  }

  /** The greedy run is the only slash-free prefix that ends at the end of the
      text or at a `/`. */
  lemma {:induction false} SlashRunUnique(s: string, m: nat)
    requires m <= |s| && SlashFree(s[..m]) && (m == |s| || s[m] == '/')
    ensures SlashRun(s) == m
  {
    if m > 0 {
      assert s[0] == s[..m][0];
      assert s[1..][..m - 1] == s[..m][1..];
      SlashRunUnique(s[1..], m - 1);
    }
  }

  /** The greedy run of a slash-free word followed by the end or by a `/` is that word. */
  lemma SlashRunOf(a: string, b: string)
    requires SlashFree(a) && (b == [] || b[0] == '/')
    ensures SlashRun(a + b) == |a|
  {
    assert (a + b)[..|a|] == a;
    SlashRunUnique(a + b, |a|);
  }

  /** The greedy run of a line-free word followed by nothing is that word. */
  lemma {:induction false} LineRunOf(a: string)
    requires LineFree(a)
    ensures LineRun(a) == |a|
  {
    if |a| > 0 {
      assert !LineTerminator(a[0]);
      LineRunOf(a[1..]);
    }
  }

  /** The optional group `(?:\/(tree|blob)\/([^\/]+)(?:\/(.*))?)?` tried on the
      text after the repository name: type, ref and path, all absent when the
      group does not match. */
  function RefPart(w: string): (r: (Option<RefKind>, Option<string>, Option<string>))
    ensures r.0.Some? <==> r.1.Some?
    ensures r.2.Some? ==> r.1.Some?
    ensures r.1.Some? ==> r.1.value != "" && SlashFree(r.1.value)
    ensures r.2.Some? ==> LineFree(r.2.value)
  {
    var kind :=
      if StartsWith(w, "/tree/") then Some(Tree)
      else if StartsWith(w, "/blob/") then Some(Blob)
      else None;
    if kind.None? then (None, None, None)
    else
      var x := w[6..];
      var n := SlashRun(x);
      if n == 0 then (None, None, None)
      else if n == |x| then (kind, Some(x[..n]), None)
      else
        var p := x[n + 1..];
        (kind, Some(x[..n]), Some(p[..LineRun(p)]))
  }

  /** `([^\/]+)\/([^\/]+)` and the optional group, tried at the start of the
      text after `github.com/`. */
  function OwnerRepo(u: string): (r: Option<GitHubInfo>)
    ensures r.Some? ==> r.value.owner != "" && SlashFree(r.value.owner)
    ensures r.Some? ==> r.value.repo != "" && SlashFree(r.value.repo)
    ensures r.Some? ==> StartsWith(u, r.value.owner + "/" + r.value.repo)
  {
    var o := SlashRun(u);
    if o == 0 || o == |u| then None
    else
      var v := u[o + 1..];
      var n := SlashRun(v);
      if n == 0 then None
      else
        var rp := RefPart(v[n..]);
        assert u[..o + 1 + n] == u[..o] + "/" + v[..n];
        Some(GitHubInfo(u[..o], v[..n], rp.0, rp.1, rp.2))
  }

  /** The regular expression tried at the start of `t`, with the raw captures. */
  function MatchHere(t: string): (r: Option<GitHubInfo>) {
    if StartsWith(t, Host) then OwnerRepo(t[|Host|..]) else None
  }

  /** The text after `github.com/` begins with a non-empty slash-free owner, a
      `/`, and a repository character that is not `/`. */
  predicate OwnerRepoShape(u: string) {
    exists j | 0 < j < |u| - 1 :: u[j] == '/' && SlashFree(u[..j]) && u[j + 1] != '/'
  }

  /** There is an occurrence of `github.com/<owner>/<repo>` starting at `i`. */
  predicate OccursAt(s: string, i: nat) {
    i <= |s| && StartsWith(s[i..], Host) && OwnerRepoShape(s[i..][|Host|..])
  }

  /** `OwnerRepo` succeeds exactly on the shape. */
  lemma OwnerRepoIffShape(u: string)
    ensures OwnerRepo(u).Some? <==> OwnerRepoShape(u)
  {
    var o := SlashRun(u);
    if OwnerRepo(u).Some? {
      assert u[o + 1] == u[o + 1..][0];
    }
    if OwnerRepoShape(u) {
      var j :| 0 < j < |u| - 1 && u[j] == '/' && SlashFree(u[..j]) && u[j + 1] != '/';
      assert u == u[..j] + u[j..];
      SlashRunOf(u[..j], u[j..]);
      assert u[j + 1..][0] == u[j + 1];
    }
  }

  /** `MatchHere` succeeds exactly at the occurrences. */
  lemma MatchHereIffOccurs(s: string, i: nat)
    requires i <= |s|
    ensures MatchHere(s[i..]).Some? <==> OccursAt(s, i)
  {
    if StartsWith(s[i..], Host) {
      OwnerRepoIffShape(s[i..][|Host|..]);
    }
  }

  /** The leftmost match at or after position `i`. */
  function Search(s: string, i: nat): (r: Option<GitHubInfo>)
    requires i <= |s|
    decreases |s| - i
  {
    match MatchHere(s[i..])
    case Some(m) => Some(m)
    case None => if i == |s| then None else Search(s, i + 1)
  }

  /** The search finds the first occurrence at or after `i`, or reports none. */
  lemma {:induction false} SearchLeftmost(s: string, i: nat)
    requires i <= |s|
    ensures Search(s, i).None? <==> forall k | i <= k <= |s| :: !OccursAt(s, k)
    ensures Search(s, i).Some? ==>
      exists k | i <= k <= |s| :: OccursAt(s, k) && Search(s, i) == MatchHere(s[k..])
        && forall k' | i <= k' < k :: !OccursAt(s, k')
    decreases |s| - i
  {
    MatchHereIffOccurs(s, i);
    if MatchHere(s[i..]).None? && i < |s| {
      SearchLeftmost(s, i + 1);
      if Search(s, i).Some? {
        var k :| i + 1 <= k <= |s| && OccursAt(s, k) && Search(s, i + 1) == MatchHere(s[k..])
          && forall k' | i + 1 <= k' < k :: !OccursAt(s, k');
        assert forall k' | i <= k' < k :: !OccursAt(s, k');
      }
    }
  }

  /** Skipping positions where the expression cannot start. */
  lemma {:induction false} SearchSkips(s: string, i: nat, k: nat)
    requires i <= k <= |s|
    requires forall j | i <= j < k :: !StartsWith(s[j..], Host)
    ensures Search(s, i) == Search(s, k)
    decreases k - i
  {
    if i < k {
      SearchSkips(s, i + 1, k);
    }
  }

  /** `pat` occurs in `s` at position `k`. */
  predicate At(s: string, k: int, pat: string) {
    0 <= k && k + |pat| <= |s| && s[k..k + |pat|] == pat
  }

  /** `s` contains `pat` nowhere. */
  predicate Lacks(s: string, pat: string) {
    forall k | 0 <= k <= |s| :: !At(s, k, pat)
  }

  lemma AtShift(s: string, k: int, pat: string)
    requires |s| > 0 && k >= 1
    ensures At(s, k, pat) <==> At(s[1..], k - 1, pat)
  {
    if k + |pat| <= |s| {
      assert s[k..k + |pat|] == s[1..][k - 1..k - 1 + |pat|];
    }
  }

  /** Position of the first occurrence of `pat` in `s`: `s.indexOf(pat)`. */
  function FirstIndexOf(s: string, pat: string): (r: Option<nat>)
    ensures r.Some? ==> At(s, r.value, pat) && forall k | k < r.value :: !At(s, k, pat)
    ensures r.None? ==> Lacks(s, pat)
  {
    if |pat| > |s| then None
    else if s[..|pat|] == pat then Some(0)
    else
      match FirstIndexOf(s[1..], pat)
      case None =>
        forall k ensures !At(s, k, pat) {
          if k >= 1 { AtShift(s, k, pat); }
        }
        None
      case Some(j) =>
        forall k | k <= j + 1 ensures At(s, k, pat) <==> k == j + 1 {
          if k >= 1 { AtShift(s, k, pat); }
        }
        Some(j + 1)
  }

  /** `s.replace(pat, '')` with a string pattern: only the first occurrence goes. */
  function RemoveFirst(s: string, pat: string): (r: string)
    ensures Lacks(s, pat) ==> r == s
    ensures !Lacks(s, pat) ==>
      exists k :: At(s, k, pat) && (forall k' | k' < k :: !At(s, k', pat)) && r == s[..k] + s[k + |pat|..]
  {
    match FirstIndexOf(s, pat)
    case None => s
    case Some(k) => s[..k] + s[k + |pat|..]
  }

  /** `parseGitHubUrl(url)`: `None` for `null`. */
  function ParseGitHubUrl(url: string): (r: Option<GitHubInfo>)
    ensures r.None? <==> forall i | 0 <= i <= |url| :: !OccursAt(url, i)
    ensures r.Some? ==> r.value.owner != "" && SlashFree(r.value.owner)
    ensures r.Some? ==> (r.value.kind.Some? <==> r.value.ref.Some?)
    ensures r.Some? && r.value.path.Some? ==> r.value.ref.Some?
    ensures r.Some? && r.value.ref.Some? ==> r.value.ref.value != "" && SlashFree(r.value.ref.value)
  {
    SearchLeftmost(url, 0);
    match Search(url, 0)
    case None => None
    case Some(m) =>
      if m.owner == "" || m.repo == "" then
        assert false;
        None
      else Some(m.(repo := RemoveFirst(m.repo, ".git")))
  }

  /** The captures as `parseGitHubUrl` returns them: the first `.git` is
      removed from the repository name. */
  function Finish(m: Option<GitHubInfo>): Option<GitHubInfo> {
    match m
    case None => None
    case Some(x) => Some(x.(repo := RemoveFirst(x.repo, ".git")))
  }

  /** What `parseGitHubUrl` reports comes from the leftmost occurrence in the URL. */
  lemma ParseIsLeftmost(url: string)
    requires ParseGitHubUrl(url).Some?
    ensures exists i | 0 <= i <= |url| ::
      OccursAt(url, i) && (forall i' | 0 <= i' < i :: !OccursAt(url, i'))
      && ParseGitHubUrl(url) == Finish(MatchHere(url[i..]))
  {
    SearchLeftmost(url, 0);
    var k :| 0 <= k <= |url| && OccursAt(url, k) && Search(url, 0) == MatchHere(url[k..])
      && forall k' | 0 <= k' < k :: !OccursAt(url, k');
    assert ParseGitHubUrl(url) == Finish(MatchHere(url[k..]));
  }

  /** The URL a GitHub page of kind `k` at `ref` and `p` has. */
  function PageUrl(owner: string, repo: string, k: RefKind, ref: string, p: string): string {
    GitHubPrefix + owner + "/" + repo + "/" + KindWord(k) + "/" + ref + "/" + p
  }

  /** Words that can be an owner, a repository or a ref. */
  predicate Segment(s: string) {
    s != "" && SlashFree(s)
  }

  /** Splitting a concatenation at the end of its first part. */
  lemma Split(a: string, b: string)
    ensures StartsWith(a + b, a) && (a + b)[|a|..] == b
  {
    assert (a + b)[..|a|] == a;
  }

  /** `https://` cannot start a match, so the search moves to the host. */
  lemma SkipScheme(x: string)
    ensures Search(GitHubPrefix + x, 0) == Search(GitHubPrefix + x, 8)
  {
    var s := "https://" + (Host + x);
    assert GitHubPrefix + x == s;
    forall j | 0 <= j < 8 ensures !StartsWith(s[j..], Host) {
      assert s[j] == "https://"[j];
      assert s[j..][0] == s[j];
    }
    SearchSkips(s, 0, 8);
  }

  /** The owner, the repository and the text `w` after them are read back. */
  lemma OwnerRepoOf(owner: string, repo: string, w: string)
    requires Segment(owner) && Segment(repo) && (w == "" || w[0] == '/')
    ensures OwnerRepo(owner + "/" + repo + w)
         == Some(GitHubInfo(owner, repo, RefPart(w).0, RefPart(w).1, RefPart(w).2))
  {
    var v := repo + w;
    var u := owner + ("/" + v);
    assert owner + "/" + repo + w == u;
    LeadingSegment(owner, "/" + v);
    DropSlash(u, |owner|, v);
    LeadingSegment(repo, w);
    OwnerRepoAt(u, |owner|, v, |repo|);
  }

  lemma DropSlash(u: string, o: nat, v: string)
    requires o <= |u| && u[o..] == "/" + v
    ensures o < |u| && u[o + 1..] == v
  {
    assert u[o + 1..] == u[o..][1..];
  }

  /** `OwnerRepo` once the two greedy runs are known. */
  lemma OwnerRepoAt(u: string, o: nat, v: string, n: nat)
    requires 0 < o < |u| && SlashRun(u) == o && u[o + 1..] == v
    requires 0 < n && SlashRun(v) == n
    ensures OwnerRepo(u) == Some(GitHubInfo(u[..o], v[..n], RefPart(v[n..]).0, RefPart(v[n..]).1, RefPart(v[n..]).2))
  {
  }

  /** A segment followed by nothing or by a `/`: the greedy run is the segment. */
  lemma LeadingSegment(seg: string, rest: string)
    requires Segment(seg) && (rest == "" || rest[0] == '/')
    ensures SlashRun(seg + rest) == |seg|
    ensures (seg + rest)[..|seg|] == seg && (seg + rest)[|seg|..] == rest
  {
    SlashRunOf(seg, rest);
    Split(seg, rest);
  }

  /** The leftmost match in a repository URL followed by `w` is the one at the host. */
  lemma SearchRepoRoot(owner: string, repo: string, w: string)
    requires Segment(owner) && Segment(repo) && (w == "" || w[0] == '/')
    ensures Search(GitHubPrefix + owner + "/" + repo + w, 0)
         == Some(GitHubInfo(owner, repo, RefPart(w).0, RefPart(w).1, RefPart(w).2))
  {
    var x := owner + "/" + repo + w;
    assert GitHubPrefix + owner + "/" + repo + w == GitHubPrefix + x;
    OwnerRepoOf(owner, repo, w);
    SkipScheme(x);
    SearchAtHost(x);
  }

  /** Right after the scheme the expression is tried on the text after the host. */
  lemma SearchAtHost(x: string)
    requires OwnerRepo(x).Some?
    ensures Search(GitHubPrefix + x, 8) == OwnerRepo(x)
  {
    AfterScheme(x);
    MatchAtHost(x);
  }

  /** The eight characters of `https://` come first. */
  lemma AfterScheme(x: string)
    ensures |GitHubPrefix + x| >= 8 && (GitHubPrefix + x)[8..] == Host + x
  {
    assert GitHubPrefix + x == "https://" + (Host + x);
    Split("https://", Host + x);
  }

  /** The expression matches at the host. */
  lemma MatchAtHost(x: string)
    ensures MatchHere(Host + x) == OwnerRepo(x)
  {
    Split(Host, x);
  }

  /** Parsing a repository URL followed by `w`. */
  lemma ParseRepoRoot(owner: string, repo: string, w: string)
    requires Segment(owner) && Segment(repo) && (w == "" || w[0] == '/')
    ensures ParseGitHubUrl(GitHubPrefix + owner + "/" + repo + w)
         == Some(GitHubInfo(owner, RemoveFirst(repo, ".git"), RefPart(w).0, RefPart(w).1, RefPart(w).2))
  {
    SearchRepoRoot(owner, repo, w);
  }

  /** The optional group of a tree or blob page. */
  lemma RefPartOfPage(k: RefKind, ref: string, p: string)
    requires Segment(ref) && LineFree(p)
    ensures RefPart("/" + KindWord(k) + "/" + ref + "/" + p) == (Some(k), Some(ref), Some(p))
  {
    var x := ref + "/" + p;
    var w := "/" + KindWord(k) + "/" + x;
    assert "/" + KindWord(k) + "/" + ref + "/" + p == w;
    KindHead(k, x);
    RefThenPath(ref, p);
    LineRunOf(p);
    RefPartAt(w, k, x, ref, p);
  }

  /** `RefPart` of a tree or blob page once its pieces are known. */
  lemma RefPartAt(w: string, k: RefKind, x: string, ref: string, p: string)
    requires |w| >= 6 && w[6..] == x
    requires StartsWith(w, "/tree/") <==> k == Tree
    requires k == Blob ==> StartsWith(w, "/blob/")
    requires 0 < |ref| < |x| && SlashRun(x) == |ref|
    requires x[..|ref|] == ref && x[|ref| + 1..] == p && LineRun(p) == |p|
    ensures RefPart(w) == (Some(k), Some(ref), Some(p))
  {
    assert p[..|p|] == p;
  }

  /** `/tree/` or `/blob/` and what follows it. */
  lemma KindHead(k: RefKind, x: string)
    ensures var w := "/" + KindWord(k) + "/" + x;
      |w| >= 6 && w[6..] == x
      && (StartsWith(w, "/tree/") <==> k == Tree)
      && (k == Blob ==> StartsWith(w, "/blob/"))
  {
    var head := "/" + KindWord(k) + "/";
    assert "/" + KindWord(k) + "/" + x == head + x;
    Split(head, x);
    match k {
      case Tree => assert head == "/tree/";
      case Blob =>
        assert head == "/blob/";
        assert (head + x)[1] == 'b';
    }
  }

  /** A ref, a `/` and a path: the greedy run stops at the ref. */
  lemma RefThenPath(ref: string, p: string)
    requires Segment(ref)
    ensures var x := ref + "/" + p;
      SlashRun(x) == |ref| && |ref| < |x| && x[..|ref|] == ref && x[|ref| + 1..] == p
  {
    assert ref + "/" + p == ref + ("/" + p);
    SlashRunOf(ref, "/" + p);
    Split(ref, "/" + p);
    Split(ref + "/", p);
  }

  /** Round trip: the URL of a tree or blob page parses back to its parts. */
  lemma ParsePageUrl(owner: string, repo: string, k: RefKind, ref: string, p: string)
    requires Segment(owner) && Segment(repo) && Segment(ref) && LineFree(p)
    requires Lacks(repo, ".git")
    ensures ParseGitHubUrl(PageUrl(owner, repo, k, ref, p)) == Some(GitHubInfo(owner, repo, Some(k), Some(ref), Some(p)))
  {
    var w := "/" + KindWord(k) + "/" + ref + "/" + p;
    assert PageUrl(owner, repo, k, ref, p) == GitHubPrefix + owner + "/" + repo + w;
    ParseRepoRoot(owner, repo, w);
    RefPartOfPage(k, ref, p);
  }

  /** A repository root URL parses with no type, ref or path. */
  lemma ParseRootUrl(owner: string, repo: string)
    requires Segment(owner) && Segment(repo) && Lacks(repo, ".git")
    ensures ParseGitHubUrl(GitHubPrefix + owner + "/" + repo) == Some(GitHubInfo(owner, repo, None, None, None))
  {
    ParseRepoRoot(owner, repo, "");
    assert GitHubPrefix + owner + "/" + repo + "" == GitHubPrefix + owner + "/" + repo;
  }

  /** Where `getGitHubRawUrl` points. */
  const RawPrefix: string := "https://raw.githubusercontent.com/"

  /** `getGitHubRawUrl(info)` */
  function RawUrl(info: GitHubInfo): (r: string)
    ensures StartsWith(r, RawPrefix + info.owner + "/" + info.repo + "/")
    ensures info.path.Some? ==> EndsWith(r, "/" + info.path.value)
    ensures r == RawPrefix + info.owner + "/" + info.repo + "/" + OrElse(info.ref, "HEAD") + "/" + OrElse(info.path, "")
  {
    var prefix := RawPrefix + info.owner + "/" + info.repo + "/";
    var r := prefix + OrElse(info.ref, "HEAD") + "/" + OrElse(info.path, "");
    assert r[..|prefix|] == prefix;
    r
  }

  /** The raw URL of a parsed blob page names the same owner, repository, ref and file. */
  lemma RawUrlOfBlobPage(owner: string, repo: string, ref: string, p: string)
    requires Segment(owner) && Segment(repo) && Segment(ref) && LineFree(p) && p != ""
    requires Lacks(repo, ".git")
    ensures ParseGitHubUrl(PageUrl(owner, repo, Blob, ref, p)).Some?
    ensures RawUrl(ParseGitHubUrl(PageUrl(owner, repo, Blob, ref, p)).value)
         == RawPrefix + owner + "/" + repo + "/" + ref + "/" + p
  {
    ParsePageUrl(owner, repo, Blob, ref, p);
    RawUrlGiven(GitHubInfo(owner, repo, Some(Blob), Some(ref), Some(p)));
  }

  /** A raw URL with a ref and a path uses both as they are. */
  lemma RawUrlGiven(info: GitHubInfo)
    requires info.ref.Some? && info.ref.value != "" && info.path.Some?
    ensures RawUrl(info) == RawPrefix + info.owner + "/" + info.repo + "/" + info.ref.value + "/" + info.path.value
  {
  }

  /** A raw URL without ref or path points at `HEAD` and at the empty path. */
  lemma RawUrlDefaults(owner: string, repo: string)
    ensures RawUrl(GitHubInfo(owner, repo, None, None, None))
         == RawPrefix + owner + "/" + repo + "/HEAD/"
    ensures RawUrl(GitHubInfo(owner, repo, None, Some(""), Some("")))
         == RawPrefix + owner + "/" + repo + "/HEAD/"
  {
  }

  /** The zipball URL `downloadGitHubRepoZip` fetches. */
  function ArchiveUrl(info: GitHubInfo): (r: string)
    ensures StartsWith(r, GitHubPrefix + info.owner + "/" + info.repo + "/archive/")
    ensures EndsWith(r, ".zip")
    ensures r == GitHubPrefix + info.owner + "/" + info.repo + "/archive/" + OrElse(info.ref, "HEAD") + ".zip"
  {
    var prefix := GitHubPrefix + info.owner + "/" + info.repo + "/archive/";
    var tail := OrElse(info.ref, "HEAD") + ".zip";
    assert (prefix + tail)[..|prefix|] == prefix;
    assert (prefix + tail)[|prefix + tail| - 4..] == tail[|tail| - 4..];
    prefix + tail
  }

  /** The archive URL parses back to the repository root: `archive` is neither
      `tree` nor `blob`, so no ref or path is read from it. */
  lemma ParseArchiveUrl(info: GitHubInfo)
    requires Segment(info.owner) && Segment(info.repo) && Lacks(info.repo, ".git")
    ensures ParseGitHubUrl(ArchiveUrl(info)) == Some(GitHubInfo(info.owner, info.repo, None, None, None))
  {
    var w := "/archive/" + OrElse(info.ref, "HEAD") + ".zip";
    assert ArchiveUrl(info) == GitHubPrefix + info.owner + "/" + info.repo + w;
    assert w[1] == 'a';
    assert RefPart(w) == (None, None, None) by {
      assert !StartsWith(w, "/tree/") && !StartsWith(w, "/blob/");
    }
    ParseRepoRoot(info.owner, info.repo, w);
  }

  /** Removing the first occurrence when it is at `k`. */
  lemma RemoveFirstAt(s: string, k: nat, pat: string)
    requires At(s, k, pat) && forall k' | k' < k :: !At(s, k', pat)
    ensures RemoveFirst(s, pat) == s[..k] + s[k + |pat|..]
  {
    var f := FirstIndexOf(s, pat);
    assert f.Some? && f.value == k;
  }

  /** `.git` is removed wherever it first occurs in the repository name, not
      only as a suffix: with `c` = `o` and `rest` = `hub.io`, the pages site
      `o.github.io` is read as `ohub.io`. */
  lemma DotGitInsideName(owner: string, c: char, rest: string)
    requires Segment(owner) && c != '.' && c != '/' && SlashFree(rest)
    ensures ParseGitHubUrl(GitHubPrefix + owner + "/" + ([c] + ".git" + rest))
         == Some(GitHubInfo(owner, [c] + rest, None, None, None))
  {
    var name := [c] + ".git" + rest;
    assert SlashFree(name) by {
      forall k | 0 <= k < |name| ensures name[k] != '/' {
        if k >= 5 { assert name[k] == rest[k - 5]; }
      }
    }
    assert ParseGitHubUrl(GitHubPrefix + owner + "/" + name)
        == Some(GitHubInfo(owner, RemoveFirst(name, ".git"), None, None, None)) by {
      ParseRepoRoot(owner, name, "");
      assert GitHubPrefix + owner + "/" + name + "" == GitHubPrefix + owner + "/" + name;
    }
    assert RemoveFirst(name, ".git") == [c] + rest by {
      assert name[1..5] == ".git";
      assert !At(name, 0, ".git") by { assert name[0] != ".git"[0]; }
      RemoveFirstAt(name, 1, ".git");
      assert name[..1] == [c];
      assert name[5..] == rest;
    }
  }

  /** Removing the `.git` of a clone URL only when the name ends with it. */
  function StripGitSuffix(repo: string): (r: string)
    ensures EndsWith(repo, ".git") ==> r + ".git" == repo
    ensures !EndsWith(repo, ".git") ==> r == repo
  {
    if EndsWith(repo, ".git") then repo[..|repo| - 4] else repo
  }

  /** `parseGitHubUrl` with the repository name cleaned by `StripGitSuffix`. */
  function ParseGitHubUrlIntended(url: string): (r: Option<GitHubInfo>)
    ensures r.None? <==> ParseGitHubUrl(url).None?
    ensures r.Some? ==> r.value == ParseGitHubUrl(url).value.(repo := r.value.repo)
  {
    SearchLeftmost(url, 0);
    match Search(url, 0)
    case None => None
    case Some(m) => Some(m.(repo := StripGitSuffix(m.repo)))
  }

  /** A repository URL names the repository, whatever `.git` the name
      contains elsewhere. */
  lemma IntendedPlainUrl(owner: string, repo: string)
    requires Segment(owner) && Segment(repo) && !EndsWith(repo, ".git")
    ensures ParseGitHubUrlIntended(GitHubPrefix + owner + "/" + repo)
         == Some(GitHubInfo(owner, repo, None, None, None))
  {
    SearchRepoRoot(owner, repo, "");
    assert GitHubPrefix + owner + "/" + repo + "" == GitHubPrefix + owner + "/" + repo;
  }

  /** The clone URL of a repository names the same repository as its plain URL. */
  lemma IntendedCloneUrl(owner: string, repo: string)
    requires Segment(owner) && Segment(repo)
    ensures ParseGitHubUrlIntended(GitHubPrefix + owner + "/" + repo + ".git")
         == Some(GitHubInfo(owner, repo, None, None, None))
  {
    var clone := repo + ".git";
    var url := GitHubPrefix + owner + "/" + clone + "";
    assert url == GitHubPrefix + owner + "/" + repo + ".git";
    CloneSegment(repo);
    SearchRepoRoot(owner, clone, "");
    NoRefPart();
    StripClone(repo);
    IntendedAt(url, GitHubInfo(owner, clone, None, None, None));
  }

  /** Nothing after the repository: no kind, ref or path. */
  lemma NoRefPart()
    ensures RefPart("") == (None, None, None)
  {
    assert !StartsWith("", "/tree/") && !StartsWith("", "/blob/");
  }

  /** The corrected parser once the leftmost match is known. */
  lemma IntendedAt(url: string, m: GitHubInfo)
    requires Search(url, 0) == Some(m)
    ensures ParseGitHubUrlIntended(url) == Some(m.(repo := StripGitSuffix(m.repo)))
  {
  }

  lemma CloneSegment(repo: string)
    requires Segment(repo)
    ensures Segment(repo + ".git")
  {
    var clone := repo + ".git";
    forall k | 0 <= k < |clone| ensures clone[k] != '/' {
      if k < |repo| { assert clone[k] == repo[k]; }
    }
  }

  lemma StripClone(repo: string)
    ensures StripGitSuffix(repo + ".git") == repo
  {
    var clone := repo + ".git";
    assert clone[|clone| - 4..] == ".git";
    assert clone[..|clone| - 4] == repo;
  }

  /** Round trip with the corrected parser: a tree or blob page of a
      repository whose name does not end in `.git` parses back to its parts. */
  lemma IntendedPageUrl(owner: string, repo: string, k: RefKind, ref: string, p: string)
    requires Segment(owner) && Segment(repo) && Segment(ref) && LineFree(p)
    requires !EndsWith(repo, ".git")
    ensures ParseGitHubUrlIntended(PageUrl(owner, repo, k, ref, p))
         == Some(GitHubInfo(owner, repo, Some(k), Some(ref), Some(p)))
  {
    var w := "/" + KindWord(k) + "/" + ref + "/" + p;
    assert PageUrl(owner, repo, k, ref, p) == GitHubPrefix + owner + "/" + repo + w;
    SearchRepoRoot(owner, repo, w);
    RefPartOfPage(k, ref, p);
  }
}

=== FILE: paths.dfy ===
/** Paths and the file system as the adapters and the installer see them.

    A path is its list of segments, so `path.join(cwd, 'a', 'b')` is
    `cwd + ["a", "b"]` as long as every joined name is a plain segment (not
    empty, not `.` or `..`, without `/`), which is where Node's normalisation
    has nothing to do. The file system is the set of paths that exist; it is
    closed under taking parents, because a path can only exist inside an
    existing directory. */
module Paths {
  import opened Common

  type Path = seq<string>

  /** A single path segment that `path.join` leaves as it is. */
  predicate PlainName(n: string) {
    n != "" && n != "." && n != ".." && forall k | 0 <= k < |n| :: n[k] != '/'
  }

  /** `p` is `q` or an ancestor of `q`. */
  predicate PrefixOf(p: Path, q: Path) {
    |p| <= |q| && q[..|p|] == p
  }

  /** Every existing path has all its ancestors. */
  predicate ParentClosed(fs: set<Path>) {
    forall p, k | p in fs && 0 <= k <= |p| :: p[..k] in fs
  }

  /** `p` and all its ancestors. */
  function Ancestry(p: Path): (r: set<Path>)
    ensures forall q :: q in r <==> PrefixOf(q, p)
  {
    set k | 0 <= k <= |p| :: p[..k]
  }

  /** The file system after `p` was created together with its missing
      ancestors (what `fs.ensureDir` and `fs.copy` do). */
  function Create(fs: set<Path>, p: Path): (r: set<Path>)
    ensures fs <= r && p in r
    ensures forall q | q in r && q !in fs :: PrefixOf(q, p)
    ensures ParentClosed(fs) ==> ParentClosed(r)
  {
    var r := fs + Ancestry(p);
    assert p[..|p|] == p;
    assert ParentClosed(fs) ==> ParentClosed(r) by {
      if ParentClosed(fs) {
        forall q, k | q in r && 0 <= k <= |q| ensures q[..k] in r {
          if q !in fs {
            assert q[..k] == p[..k];
          }
        }
      }
    }
    r
  }

  /** `path.basename(p)` of a path whose segments are plain. */
  function Basename(p: Path): (r: string)
    requires |p| > 0
    ensures exists q :: p == q + [r]
  {
    assert p == p[..|p| - 1] + [p[|p| - 1]];
    p[|p| - 1]
  }

  /** Index of the last `.` in `n`. */
  function LastDot(n: string): (r: Option<nat>)
    ensures r.Some? ==> r.value < |n| && n[r.value] == '.'
    ensures r.Some? ==> forall k | r.value < k < |n| :: n[k] != '.'
    ensures r.None? ==> forall k | 0 <= k < |n| :: n[k] != '.'
  {
    if |n| == 0 then None
    else if n[|n| - 1] == '.' then Some(|n| - 1)
    else LastDot(n[..|n| - 1])
  }

  /** `path.parse(n).name` for a single segment `n`: everything before the
      last `.`, except that a name whose last dot is its first character, or
      the name `..`, is its own stem. */
  function Stem(n: string): (r: string)
    ensures |r| <= |n| && n[..|r|] == r
    ensures LastDot(n).None? ==> r == n
  {
    match LastDot(n)
    case None => n
    case Some(d) => if d == 0 || n == ".." then n else n[..d]
  }

  /** The stem drops exactly the last extension. */
  lemma StemDropsExtension(base: string, ext: string)
    requires base != "" && !(base == "." && ext == "")
    requires forall k | 0 <= k < |ext| :: ext[k] != '.'
    ensures Stem(base + "." + ext) == base
  {
    var n := base + "." + ext;
    var d := LastDot(n);
    assert n[|base|] == '.';
    assert d.Some? && d.value == |base|;
    assert n[..|base|] == base;
  }
}

=== FILE: registry.dfy ===
/** The bundle resolver of src/utils/registry.ts.

    `resolveBundleContents` expands a selected catalog entry into the concrete
    (skill or workflow) entries it reaches and the include names that have no
    catalog entry. One `processedBundles` set is shared by the whole call tree
    and only ever grows; here it is threaded explicitly: every call takes the
    visited set in and hands the extended set back. Because the set is shared,
    a bundle met a second time contributes nothing, in a diamond as well as in
    a true cycle. */
module Registry {
  import opened Common
  import opened Catalog
  import opened Dedup

  /** `BundleResolution` */
  datatype Resolution = Resolution(valid: seq<RegistryItem>, missing: seq<string>)

  const Empty := Resolution([], [])

  /** Entries that are not bundles. */
  predicate Concrete(x: RegistryItem) {
    x.kind != Bundle
  }

  /** The catalog entry `find` returns for `x.name` is `x` itself. */
  predicate Canonical(catalog: seq<RegistryItem>, x: RegistryItem) {
    Find(catalog, x.name) == Some(x)
  }

  /** `|A - B|` does not grow when `B` grows. */
  lemma UnvisitedShrinks(names: set<string>, v: set<string>, v': set<string>)
    requires v <= v'
    ensures |names - v'| <= |names - v|
  {
    assert names - v' <= names - v;
    SubsetCard(names - v', names - v);
  }

  lemma SubsetCard<T>(a: set<T>, b: set<T>)
    requires a <= b
    ensures |a| <= |b|
  {
    if a != {} {
      var x :| x in a;
      SubsetCard(a - {x}, b - {x});
    }
  }

  /** `resolveBundleContents(catalog, item, visited)`, returning the resolution
      together with the visited set as the shared `Set` holds it afterwards. */
  function Resolve(catalog: seq<RegistryItem>, item: RegistryItem, visited: set<string>): (out: (Resolution, set<string>))
    decreases |Names(catalog) - visited|, if item.name in Names(catalog) then 0 else 1, 0
    // the visited set only grows, and only by bundle names
    ensures visited <= out.1
    ensures forall n | n in out.1 && n !in visited :: n == item.name || n in Names(catalog)
    // a non-bundle resolves to itself
    ensures !Concrete(item) || out == (Resolution([item], []), visited)
    // an already visited bundle contributes nothing
    ensures !Concrete(item) && item.name in visited ==> out == (Empty, visited)
    // a bundle is marked visited before its includes are examined
    ensures !Concrete(item) ==> item.name in out.1
    // an empty bundle contributes nothing but is still marked
    ensures !Concrete(item) && item.name !in visited && (item.includes.None? || |item.includes.value| == 0)
      ==> out == (Empty, visited + {item.name})
    // both lists are free of duplicates
    ensures DistinctNames(out.0.valid) && NoDups(out.0.missing)
  {
    if item.kind != Bundle then (Resolution([item], []), visited)
    else if item.name in visited then (Empty, visited)
    else
      var v := visited + {item.name};
      if item.includes.None? || |item.includes.value| == 0 then (Empty, v)
      else
        assert |Names(catalog) - v| <= |Names(catalog) - visited| by {
          UnvisitedShrinks(Names(catalog), visited, v);
        }
        assert item.name in Names(catalog) ==> |Names(catalog) - v| < |Names(catalog) - visited| by {
          if item.name in Names(catalog) {
            assert Names(catalog) - v == (Names(catalog) - visited) - {item.name};
          }
        }
        var acc := ResolveIncludes(catalog, item.includes.value, v);
        (Resolution(UniqueByName(acc.0), Distinct(acc.1)), acc.2)
  }

  /** The `for (const itemName of selectedItem.includes)` loop: the concrete
      items and missing names collected before deduplication, and the visited
      set after the last include. */
  function ResolveIncludes(catalog: seq<RegistryItem>, names: seq<string>, visited: set<string>)
    : (out: (seq<RegistryItem>, seq<string>, set<string>))
    decreases |Names(catalog) - visited|, 0, |names|
    ensures visited <= out.2
    ensures forall n | n in out.2 && n !in visited :: n in Names(catalog)
  {
    if |names| == 0 then ([], [], visited)
    else
      match Find(catalog, names[0])
      case None =>
        var rest := ResolveIncludes(catalog, names[1..], visited);
        (rest.0, [names[0]] + rest.1, rest.2)
      case Some(found) =>
        var first := Resolve(catalog, found, visited);
        assert |Names(catalog) - first.1| <= |Names(catalog) - visited| by {
          UnvisitedShrinks(Names(catalog), visited, first.1);
        }
        var rest := ResolveIncludes(catalog, names[1..], first.1);
        (first.0.valid + rest.0, first.0.missing + rest.1, rest.2)
  }

  /** What a resolution holds: concrete entries, each the item itself or the
      catalog's entry for its name, and missing names that have no entry; a
      direct include of a bundle is reported missing exactly when the catalog
      lacks it. */
  lemma {:induction false} ResolveSound(catalog: seq<RegistryItem>, item: RegistryItem, visited: set<string>)
    decreases |Names(catalog) - visited|, if item.name in Names(catalog) then 0 else 1, 0
    ensures var out := Resolve(catalog, item, visited);
      forall x | x in out.0.valid :: Concrete(x) && (x == item || Canonical(catalog, x))
    ensures var out := Resolve(catalog, item, visited);
      forall n | n in out.0.missing :: n !in Names(catalog)
    ensures var out := Resolve(catalog, item, visited);
      !Concrete(item) && item.name !in visited && item.includes.Some?
      ==> forall n | n in item.includes.value :: n in out.0.missing <==> n !in Names(catalog)
  {
    if item.kind == Bundle && item.name !in visited && item.includes.Some? && |item.includes.value| > 0 {
      var v := visited + {item.name};
      assert |Names(catalog) - v| <= |Names(catalog) - visited| by {
        UnvisitedShrinks(Names(catalog), visited, v);
      }
      assert item.name in Names(catalog) ==> |Names(catalog) - v| < |Names(catalog) - visited| by {
        if item.name in Names(catalog) {
          assert Names(catalog) - v == (Names(catalog) - visited) - {item.name};
        }
      }
      var acc := ResolveIncludes(catalog, item.includes.value, v);
      ResolveIncludesSound(catalog, item.includes.value, v);
      UniqueByNameFromInput(acc.0);
    }
  }

  /** The include loop collects only canonical concrete entries, reports only
      names without an entry, and reports every such name it meets. */
  lemma {:induction false} ResolveIncludesSound(catalog: seq<RegistryItem>, names: seq<string>, visited: set<string>)
    decreases |Names(catalog) - visited|, 0, |names|
    ensures var out := ResolveIncludes(catalog, names, visited);
      forall x | x in out.0 :: Concrete(x) && Canonical(catalog, x)
    ensures var out := ResolveIncludes(catalog, names, visited);
      forall n | n in out.1 :: n !in Names(catalog)
    ensures var out := ResolveIncludes(catalog, names, visited);
      forall n | n in names && n !in Names(catalog) :: n in out.1
  {
    if |names| > 0 {
      assert forall n | n in names :: n == names[0] || n in names[1..];
      match Find(catalog, names[0])
      case None =>
        ResolveIncludesSound(catalog, names[1..], visited);
      case Some(found) =>
        var first := Resolve(catalog, found, visited);
        ResolveSound(catalog, found, visited);
        assert |Names(catalog) - first.1| <= |Names(catalog) - visited| by {
          UnvisitedShrinks(Names(catalog), visited, first.1);
        }
        ResolveIncludesSound(catalog, names[1..], first.1);
        assert Canonical(catalog, found);
    }
  }

  /** The include loop collects every include that names a concrete catalog
      entry: such an entry is resolved to itself whatever was visited before. */
  lemma {:induction false} ResolveIncludesComplete(catalog: seq<RegistryItem>, names: seq<string>, visited: set<string>)
    decreases |Names(catalog) - visited|, 0, |names|
    ensures var out := ResolveIncludes(catalog, names, visited);
      forall n | n in names && Find(catalog, n).Some? && Concrete(Find(catalog, n).value) ::
        Find(catalog, n).value in out.0
  {
    if |names| > 0 {
      var out := ResolveIncludes(catalog, names, visited);
      assert forall n | n in names :: n == names[0] || n in names[1..];
      match Find(catalog, names[0])
      case None =>
        ResolveIncludesComplete(catalog, names[1..], visited);
      case Some(found) =>
        var first := Resolve(catalog, found, visited);
        assert |Names(catalog) - first.1| <= |Names(catalog) - visited| by {
          UnvisitedShrinks(Names(catalog), visited, first.1);
        }
        var rest := ResolveIncludes(catalog, names[1..], first.1);
        ResolveIncludesComplete(catalog, names[1..], first.1);
        assert out.0 == first.0.valid + rest.0;
        assert Concrete(found) ==> first.0.valid == [found];
    }
  }

  /** Entries that are all the catalog's entry for their name agree whenever
      their names agree. */
  lemma CanonicalConsistent(catalog: seq<RegistryItem>, s: seq<RegistryItem>)
    requires forall x | x in s :: Canonical(catalog, x)
    ensures forall i, j | 0 <= i < |s| && 0 <= j < |s| && s[i].name == s[j].name :: s[i] == s[j]
  {
    forall i, j | 0 <= i < |s| && 0 <= j < |s| && s[i].name == s[j].name ensures s[i] == s[j] {
      assert Canonical(catalog, s[i]) && Canonical(catalog, s[j]);
    }
  }

  /** Expanding a bundle for the first time resolves every direct include that
      names a concrete catalog entry to that entry. */
  lemma ResolveComplete(catalog: seq<RegistryItem>, item: RegistryItem, visited: set<string>)
    requires !Concrete(item) && item.name !in visited && item.includes.Some?
    ensures forall n | n in item.includes.value && Find(catalog, n).Some? && Concrete(Find(catalog, n).value) ::
      Find(catalog, n).value in Resolve(catalog, item, visited).0.valid
  {
    if |item.includes.value| > 0 {
      var v := visited + {item.name};
      var acc := ResolveIncludes(catalog, item.includes.value, v);
      ResolveBundleStep(catalog, item, visited);
      ResolveIncludesComplete(catalog, item.includes.value, v);
      ResolveIncludesSound(catalog, item.includes.value, v);
      CanonicalConsistent(catalog, acc.0);
      UniqueByNameOfConsistent(acc.0);
    }
  }

  /** The default argument `new Set()`: resolution of one selection with a fresh visited set. */
  function ResolveFresh(catalog: seq<RegistryItem>, item: RegistryItem): Resolution {
    Resolve(catalog, item, {}).0
  }

  /** The entries `find` returns for each of `names`, when all of them exist. */
  function Lookups(catalog: seq<RegistryItem>, names: seq<string>): (r: seq<RegistryItem>)
    requires forall n | n in names :: n in Names(catalog)
    ensures |r| == |names|
    ensures forall k | 0 <= k < |names| :: Find(catalog, names[k]) == Some(r[k])
  {
    if |names| == 0 then [] else [Find(catalog, names[0]).value] + Lookups(catalog, names[1..])
  }

  /** Includes that all name concrete catalog entries are collected in order,
      report nothing missing and leave the visited set alone. */
  lemma {:induction false} ResolveIncludesFlat(catalog: seq<RegistryItem>, names: seq<string>, visited: set<string>)
    requires forall n | n in names :: n in Names(catalog) && Concrete(Find(catalog, n).value)
    ensures ResolveIncludes(catalog, names, visited) == (Lookups(catalog, names), [], visited)
  {
    if |names| > 0 {
      assert forall n | n in names[1..] :: n in names;
      ResolveIncludesFlat(catalog, names[1..], visited);
      var found := Find(catalog, names[0]).value;
      assert Resolve(catalog, found, visited) == (Resolution([found], []), visited);
      assert Lookups(catalog, names) == [found] + Lookups(catalog, names[1..]);
      var rest := ResolveIncludes(catalog, names[1..], visited);
      assert ResolveIncludes(catalog, names, visited) == ([found] + rest.0, [] + rest.1, rest.2);
      assert [] + rest.1 == rest.1;
    }
  }

  /** A bundle whose includes all name concrete catalog entries resolves to
      those entries, deduplicated by name, with nothing missing. */
  lemma FlatBundle(catalog: seq<RegistryItem>, bundle: RegistryItem, visited: set<string>)
    requires bundle.kind == Bundle && bundle.name !in visited
    requires bundle.includes.Some? && |bundle.includes.value| > 0
    requires forall n | n in bundle.includes.value :: n in Names(catalog) && Concrete(Find(catalog, n).value)
    ensures Resolve(catalog, bundle, visited)
         == (Resolution(UniqueByName(Lookups(catalog, bundle.includes.value)), []), visited + {bundle.name})
  {
    ResolveIncludesFlat(catalog, bundle.includes.value, visited + {bundle.name});
  }

  /** One unfolding of `Resolve` on a fresh bundle with includes. */
  lemma ResolveBundleStep(catalog: seq<RegistryItem>, item: RegistryItem, visited: set<string>)
    requires item.kind == Bundle && item.name !in visited
    requires item.includes.Some? && |item.includes.value| > 0
    ensures var acc := ResolveIncludes(catalog, item.includes.value, visited + {item.name});
      Resolve(catalog, item, visited) == (Resolution(UniqueByName(acc.0), Distinct(acc.1)), acc.2)
  {
  }

  /** `ResolveBundleStep` with the include loop's result given. */
  lemma ResolveBundleStepKnown(catalog: seq<RegistryItem>, item: RegistryItem, visited: set<string>,
                               acc: (seq<RegistryItem>, seq<string>, set<string>))
    requires item.kind == Bundle && item.name !in visited
    requires item.includes.Some? && |item.includes.value| > 0
    requires ResolveIncludes(catalog, item.includes.value, visited + {item.name}) == acc
    ensures Resolve(catalog, item, visited) == (Resolution(UniqueByName(acc.0), Distinct(acc.1)), acc.2)
  {
    ResolveBundleStep(catalog, item, visited);
  }

  /** One unfolding of the include loop on a name the catalog has. */
  lemma ResolveIncludesFoundStep(catalog: seq<RegistryItem>, names: seq<string>, visited: set<string>)
    requires |names| > 0 && Find(catalog, names[0]).Some?
    ensures var first := Resolve(catalog, Find(catalog, names[0]).value, visited);
      var rest := ResolveIncludes(catalog, names[1..], first.1);
      ResolveIncludes(catalog, names, visited) == (first.0.valid + rest.0, first.0.missing + rest.1, rest.2)
  {
  }

  /** The include loop on a name the catalog has, given what resolving that
      entry and then the remaining names yields. */
  lemma ResolveIncludesFoundStepKnown(catalog: seq<RegistryItem>, names: seq<string>, visited: set<string>,
                                      first: Resolution, mid: set<string>,
                                      rest: (seq<RegistryItem>, seq<string>, set<string>))
    requires |names| > 0 && Find(catalog, names[0]).Some?
    requires Resolve(catalog, Find(catalog, names[0]).value, visited) == (first, mid)
    requires ResolveIncludes(catalog, names[1..], mid) == rest
    ensures ResolveIncludes(catalog, names, visited) == (first.valid + rest.0, first.missing + rest.1, rest.2)
  {
    ResolveIncludesFoundStep(catalog, names, visited);
  }

  /** One unfolding of the include loop on a name the catalog lacks. */
  lemma ResolveIncludesMissingStep(catalog: seq<RegistryItem>, names: seq<string>, visited: set<string>)
    requires |names| > 0 && Find(catalog, names[0]).None?
    ensures var rest := ResolveIncludes(catalog, names[1..], visited);
      ResolveIncludes(catalog, names, visited) == (rest.0, [names[0]] + rest.1, rest.2)
  {
  }
}


=== FILE: registry_reach.dfy ===
/** What `resolveBundleContents` reaches through nested bundles.

    A call with a fresh visited set collects every concrete entry that can be
    reached from the selection through a chain of bundle includes, each name
    looked up with `find`. The reason is that a bundle's name enters the
    visited set only when that bundle's whole include loop runs inside the same
    call, so a bundle skipped as visited has been, or is being, expanded
    elsewhere in the same call tree. `ResolveSettles` states this as a closure
    property of the final visited set; `ResolveReaches` follows a chain along
    it. */
module RegistryReach {
  import opened Common
  import opened Catalog
  import opened Dedup
  import opened Registry

  /** The include names a resolution expands: a bundle's includes, and none for
      any other entry. */
  function IncludesOf(x: RegistryItem): seq<string> {
    if x.kind == Bundle && x.includes.Some? then x.includes.value else []
  }

  /** Every one of `names` is accounted for: it has no entry, or it finds a
      concrete entry whose name is among `collected`, or it finds a bundle whose
      name is in `visited`. */
  predicate AllSettled(catalog: seq<RegistryItem>, names: seq<string>, collected: set<string>, visited: set<string>) {
    forall n | n in names ::
      Find(catalog, n).None?
      || (Concrete(Find(catalog, n).value) && n in collected)
      || (!Concrete(Find(catalog, n).value) && n in visited)
  }

  lemma AllSettledGrows(catalog: seq<RegistryItem>, names: seq<string>, c: set<string>, w: set<string>,
                        c': set<string>, w': set<string>)
    requires AllSettled(catalog, names, c, w) && c <= c' && w <= w'
    ensures AllSettled(catalog, names, c', w')
  {
  }

  /** The names of a concatenation. */
  lemma NamesAppend(a: seq<RegistryItem>, b: seq<RegistryItem>)
    ensures Names(a + b) == Names(a) + Names(b)
  {
    assert forall x | x in a + b :: x in a || x in b;
  }

  /** Deduplication by name keeps the set of names. */
  lemma NamesUnique(s: seq<RegistryItem>)
    ensures Names(UniqueByName(s)) == Names(s)
  {
    var r := UniqueByName(s);
    UniqueByNameFromInput(s);
    UniqueByNameCoversNames(s);
    forall n | n in Names(s) ensures n in Names(r) {
      var x :| x in s && x.name == n;
      var k :| 0 <= k < |r| && NamesOf(r)[k] == n;
      assert r[k] in r;
    }
  }

  /** At the end of a call, every bundle the call marked has all its includes
      accounted for by what the call collected and visited: the selection
      itself when it is an unvisited bundle, and every other newly visited
      name through the entry `find` returns for it. */
  lemma {:induction false} ResolveSettles(catalog: seq<RegistryItem>, item: RegistryItem, visited: set<string>)
    decreases |Names(catalog) - visited|, if item.name in Names(catalog) then 0 else 1, 0
    ensures var out := Resolve(catalog, item, visited);
      forall b | b in out.1 && b !in visited && b != item.name ::
        Find(catalog, b).Some? && AllSettled(catalog, IncludesOf(Find(catalog, b).value), Names(out.0.valid), out.1)
    ensures var out := Resolve(catalog, item, visited);
      !Concrete(item) && item.name !in visited ==> AllSettled(catalog, IncludesOf(item), Names(out.0.valid), out.1)
  {
    if item.kind == Bundle && item.name !in visited && item.includes.Some? && |item.includes.value| > 0 {
      var v := visited + {item.name};
      assert |Names(catalog) - v| <= |Names(catalog) - visited| by {
        UnvisitedShrinks(Names(catalog), visited, v);
      }
      assert item.name in Names(catalog) ==> |Names(catalog) - v| < |Names(catalog) - visited| by {
        if item.name in Names(catalog) {
          assert Names(catalog) - v == (Names(catalog) - visited) - {item.name};
        }
      }
      var acc := ResolveIncludes(catalog, item.includes.value, v);
      ResolveBundleStepKnown(catalog, item, visited, acc);
      ResolveIncludesSettles(catalog, item.includes.value, v);
      NamesUnique(acc.0);
    }
  }

  /** The include loop accounts for every name it meets, and every name it
      newly visits is a bundle whose includes are accounted for. */
  lemma {:induction false} ResolveIncludesSettles(catalog: seq<RegistryItem>, names: seq<string>, visited: set<string>)
    decreases |Names(catalog) - visited|, 0, |names|
    ensures var out := ResolveIncludes(catalog, names, visited);
      forall b | b in out.2 && b !in visited ::
        Find(catalog, b).Some? && AllSettled(catalog, IncludesOf(Find(catalog, b).value), Names(out.0), out.2)
    ensures var out := ResolveIncludes(catalog, names, visited);
      AllSettled(catalog, names, Names(out.0), out.2)
  {
    if |names| > 0 {
      var out := ResolveIncludes(catalog, names, visited);
      assert forall n | n in names :: n == names[0] || n in names[1..];
      match Find(catalog, names[0])
      case None =>
        ResolveIncludesSettles(catalog, names[1..], visited);
      case Some(found) =>
        var first := Resolve(catalog, found, visited);
        assert |Names(catalog) - first.1| <= |Names(catalog) - visited| by {
          UnvisitedShrinks(Names(catalog), visited, first.1);
        }
        var rest := ResolveIncludes(catalog, names[1..], first.1);
        ResolveIncludesFoundStepKnown(catalog, names, visited, first.0, first.1, rest);
        ResolveSettles(catalog, found, visited);
        ResolveIncludesSettles(catalog, names[1..], first.1);
        NamesAppend(first.0.valid, rest.0);
        forall b | b in out.2 && b !in visited
          ensures Find(catalog, b).Some? && AllSettled(catalog, IncludesOf(Find(catalog, b).value), Names(out.0), out.2)
        {
          if b in first.1 {
            if b == found.name {
              assert Find(catalog, b) == Some(found);
            }
            AllSettledGrows(catalog, IncludesOf(Find(catalog, b).value), Names(first.0.valid), first.1, Names(out.0), out.2);
          } else {
            AllSettledGrows(catalog, IncludesOf(Find(catalog, b).value), Names(rest.0), rest.2, Names(out.0), out.2);
          }
        }
        AllSettledGrows(catalog, names[1..], Names(rest.0), rest.2, Names(out.0), out.2);
        if Concrete(found) {
          assert found in first.0.valid;
        }
    }
  }

  /** A chain of bundle includes from `item` that ends at the concrete entry
      `x`: the first name is an include of `item`, every later name is an
      include of the bundle `find` returns for the name before it, and `find`
      returns `x` for the last name. */
  predicate Chain(catalog: seq<RegistryItem>, item: RegistryItem, path: seq<string>, x: RegistryItem) {
    && |path| > 0
    && path[0] in IncludesOf(item)
    && (forall i | 0 <= i < |path| - 1 ::
          Find(catalog, path[i]).Some? && path[i + 1] in IncludesOf(Find(catalog, path[i]).value))
    && Find(catalog, path[|path| - 1]) == Some(x)
    && Concrete(x)
  }

  /** The closure `ResolveSettles` establishes for a call with a fresh visited
      set: the selection and every other visited name have all their includes
      accounted for. */
  predicate Closed(catalog: seq<RegistryItem>, item: RegistryItem, collected: set<string>, visited: set<string>) {
    && AllSettled(catalog, IncludesOf(item), collected, visited)
    && forall b | b in visited && b != item.name ::
         Find(catalog, b).Some? && AllSettled(catalog, IncludesOf(Find(catalog, b).value), collected, visited)
  }

  /** Following a chain inside a closed pair of sets ends in a collected name. */
  lemma ChainCollected(catalog: seq<RegistryItem>, item: RegistryItem, path: seq<string>, x: RegistryItem,
                       collected: set<string>, visited: set<string>)
    requires Find(catalog, item.name).Some? ==> Find(catalog, item.name) == Some(item)
    requires Chain(catalog, item, path, x) && Closed(catalog, item, collected, visited)
    ensures x.name in collected
  {
    var i := 0;
    while i < |path| - 1
      invariant 0 <= i <= |path| - 1
      invariant Find(catalog, path[i]).Some?
      invariant var e := Find(catalog, path[i]).value;
        (Concrete(e) && path[i] in collected) || (!Concrete(e) && path[i] in visited)
    {
      var e := Find(catalog, path[i]).value;
      assert path[i + 1] in IncludesOf(e);
      assert AllSettled(catalog, IncludesOf(e), collected, visited) by {
        if path[i] == item.name {
          assert e == item;
        }
      }
      i := i + 1;
    }
  }

  /** `resolveBundleContents(registry, item)` with a fresh visited set collects
      every concrete entry reachable from `item` through nested bundles. The
      selection must be the entry `find` returns for its name (or its name must
      have no entry): a later entry of the same name would be shadowed, as
      `ShadowedSelection` shows. */
  lemma ResolveReaches(catalog: seq<RegistryItem>, item: RegistryItem, path: seq<string>, x: RegistryItem)
    requires Find(catalog, item.name).Some? ==> Find(catalog, item.name) == Some(item)
    requires Chain(catalog, item, path, x)
    ensures x in Resolve(catalog, item, {}).0.valid
  {
    FreshAccounted(catalog, item);
    ChainInValid(catalog, item, path, x, Resolve(catalog, item, {}).0.valid, Resolve(catalog, item, {}).1);
  }

  /** What a call leaves behind: a closed pair of sets, and collected entries
      that are each the selection or the catalog's entry for their name. */
  predicate Accounted(catalog: seq<RegistryItem>, item: RegistryItem, valid: seq<RegistryItem>, visited: set<string>) {
    && Closed(catalog, item, Names(valid), visited)
    && forall y | y in valid :: Concrete(y) && (y == item || Canonical(catalog, y))
  }

  /** A bundle resolved with a fresh visited set leaves its result accounted for. */
  lemma FreshAccounted(catalog: seq<RegistryItem>, item: RegistryItem)
    requires !Concrete(item)
    ensures Accounted(catalog, item, Resolve(catalog, item, {}).0.valid, Resolve(catalog, item, {}).1)
  {
    ResolveSettles(catalog, item, {});
    ResolveSound(catalog, item, {});
  }

  /** In an accounted result, the end of every chain is collected. */
  lemma ChainInValid(catalog: seq<RegistryItem>, item: RegistryItem, path: seq<string>, x: RegistryItem,
                     valid: seq<RegistryItem>, visited: set<string>)
    requires Find(catalog, item.name).Some? ==> Find(catalog, item.name) == Some(item)
    requires Chain(catalog, item, path, x) && Accounted(catalog, item, valid, visited)
    ensures x in valid
  {
    ChainCollected(catalog, item, path, x, Names(valid), visited);
    CollectedEntry(catalog, item, valid, x);
  }

  /** Among entries that are each the selection or the catalog's entry for their
      name, a collected name that `find` maps to a concrete entry stands for
      that entry. */
  lemma CollectedEntry(catalog: seq<RegistryItem>, item: RegistryItem, valid: seq<RegistryItem>, x: RegistryItem)
    requires !Concrete(item) && Concrete(x) && Find(catalog, x.name) == Some(x)
    requires forall y | y in valid :: Concrete(y) && (y == item || Canonical(catalog, y))
    requires x.name in Names(valid)
    ensures x in valid
  {
    var y :| y in valid && y.name == x.name;
  }

  /** A selected entry that is not the one `find` returns for its name can
      shadow what it reaches: here the selection includes its own name, `find`
      returns the other bundle of that name, which is skipped as visited, and
      the skill behind it is never collected. */
  lemma ShadowedSelection(s: RegistryItem)
    requires s.name == "s" && s.kind == Skill
    ensures var first := RegistryItem("a", "", Bundle, None, Some(["s"]));
      var second := RegistryItem("a", "", Bundle, None, Some(["a"]));
      var catalog := [first, second, s];
      Chain(catalog, second, ["a", "s"], s)
      && Resolve(catalog, second, {}).0.valid == []
  {
    var first := RegistryItem("a", "", Bundle, None, Some(["s"]));
    var second := RegistryItem("a", "", Bundle, None, Some(["a"]));
    var catalog := [first, second, s];
    assert Find(catalog, "a") == Some(first);
    assert Find(catalog, "s") == Some(s);
    var none: seq<RegistryItem> := [];
    var unknown: seq<string> := [];
    var marked: set<string> := {"a"};
    assert Resolve(catalog, first, marked) == (Empty, marked);
    assert ["a"][1..] == [] && ResolveIncludes(catalog, [], marked) == (none, unknown, marked);
    ResolveIncludesFoundStepKnown(catalog, ["a"], marked, Empty, marked, (none, unknown, marked));
    assert none + none == none && unknown + unknown == unknown && {} + {second.name} == marked;
    ResolveBundleStepKnown(catalog, second, {}, (none, unknown, marked));
    assert UniqueByName(none) == none;
  }
}

=== FILE: registry_scenarios.dfy ===
/** The bundle resolver on the three inclusion shapes that matter: a diamond,
    a two-bundle cycle, and a bundle of concrete entries with a dangling name.
    Each lemma holds for every catalog in which the named entries are the ones
    `find` returns, and pins down the exact resolution together with the
    visited set the shared `Set` ends up holding. */
module RegistryScenarios {
  import opened Common
  import opened Catalog
  import opened Dedup
  import opened Registry

  lemma EmptyDedup()
    ensures UniqueByName([]) == [] && Distinct([]) == []
  {
  }

  lemma SingleDedup(x: RegistryItem)
    ensures UniqueByName([x]) == [x]
  {
    assert [x][..0] == [];
  }

  /** A bundle `b` whose only include is the entry `target`, visited nowhere yet. */
  predicate IncludesOnly(catalog: seq<RegistryItem>, b: RegistryItem, target: RegistryItem) {
    b.kind == Bundle && b.includes == Some([target.name]) && Find(catalog, target.name) == Some(target)
  }

  /** Resolving a bundle with a single include resolves that include with the
      bundle's name added to the visited set. */
  lemma SingleInclude(catalog: seq<RegistryItem>, b: RegistryItem, target: RegistryItem, visited: set<string>)
    requires IncludesOnly(catalog, b, target) && b.name !in visited
    ensures var inner := Resolve(catalog, target, visited + {b.name});
      Resolve(catalog, b, visited)
        == (Resolution(UniqueByName(inner.0.valid), Distinct(inner.0.missing)), inner.1)
  {
    var v := visited + {b.name};
    var ns := [target.name];
    ResolveBundleStep(catalog, b, visited);
    ResolveIncludesFoundStep(catalog, ns, v);
    var inner := Resolve(catalog, target, v);
    assert ns[1..] == [];
    assert ResolveIncludes(catalog, [], inner.1) == ([], [], inner.1);
    assert inner.0.valid + [] == inner.0.valid;
    assert inner.0.missing + [] == inner.0.missing;
  }

  /** The first branch of a diamond: `b` and then `d` are expanded for the
      first time and yield `d`'s concrete entry `s`. */
  lemma DiamondFirstBranch(catalog: seq<RegistryItem>, b: RegistryItem, d: RegistryItem,
                           s: RegistryItem, va: set<string>)
    requires IncludesOnly(catalog, b, d) && IncludesOnly(catalog, d, s) && Concrete(s)
    requires b.name !in va && d.name !in va && b.name != d.name
    ensures Resolve(catalog, b, va) == (Resolution([s], []), va + {b.name} + {d.name})
  {
    var vab := va + {b.name};
    var vabd := vab + {d.name};
    EmptyDedup();
    SingleDedup(s);
    SingleInclude(catalog, d, s, vab);
    assert Resolve(catalog, s, vabd) == (Resolution([s], []), vabd);
    assert Resolve(catalog, d, vab) == (Resolution([s], []), vabd);
    SingleInclude(catalog, b, d, va);
  }

  /** The second branch of a diamond: `d` is already visited, so `c`
      contributes nothing beyond marking itself. */
  lemma DiamondSecondBranch(catalog: seq<RegistryItem>, c: RegistryItem, d: RegistryItem, v: set<string>)
    requires IncludesOnly(catalog, c, d) && d.kind == Bundle
    requires c.name !in v && d.name in v
    ensures Resolve(catalog, c, v) == (Empty, v + {c.name})
  {
    EmptyDedup();
    assert Resolve(catalog, d, v + {c.name}) == (Empty, v + {c.name});
    SingleInclude(catalog, c, d, v);
  }

  /** The second include of the diamond's top bundle, `c`, after the branch
      through `b` marked `d`. */
  lemma DiamondTail(catalog: seq<RegistryItem>, c: RegistryItem, d: RegistryItem, v: set<string>)
    requires Find(catalog, c.name) == Some(c) && IncludesOnly(catalog, c, d) && d.kind == Bundle
    requires c.name !in v && d.name in v
    ensures ResolveIncludes(catalog, [c.name], v) == ([], [], v + {c.name})
  {
    var all := v + {c.name};
    DiamondSecondBranch(catalog, c, d, v);
    assert [c.name][1..] == [];
    assert ResolveIncludes(catalog, [], all) == ([], [], all);
    ResolveIncludesFoundStepKnown(catalog, [c.name], v, Empty, all, ([], [], all));
  }

  /** The include loop of the diamond's top bundle: the branch through `b`
      yields `s` and marks `b` and `d`, the branch through `c` only marks `c`. */
  lemma DiamondLoop(catalog: seq<RegistryItem>, b: RegistryItem, c: RegistryItem,
                    d: RegistryItem, s: RegistryItem, va: set<string>)
    requires Find(catalog, b.name) == Some(b) && Find(catalog, c.name) == Some(c)
    requires IncludesOnly(catalog, b, d) && IncludesOnly(catalog, c, d) && IncludesOnly(catalog, d, s)
    requires Concrete(s)
    requires b.name !in va && c.name !in va && d.name !in va
    requires b.name != c.name && b.name != d.name && c.name != d.name
    ensures ResolveIncludes(catalog, [b.name, c.name], va)
         == ([s], [], va + {b.name} + {d.name} + {c.name})
  {
    var vabd := va + {b.name} + {d.name};
    DiamondFirstBranch(catalog, b, d, s, va);
    MarkedAfterFirstBranch(va, b.name, d.name, c.name);
    DiamondTail(catalog, c, d, vabd);
    assert [s] + [] == [s];
    TwoIncludes(catalog, b.name, c.name, va, Resolution([s], []), vabd, ([], [], vabd + {c.name}),
                ([s], [], vabd + {c.name}));
  }

  /** After the branch through `b` marked `b` and `d`, `d` is visited and `c` is not. */
  lemma MarkedAfterFirstBranch(va: set<string>, b: string, d: string, c: string)
    requires c !in va && c != b && c != d
    ensures c !in va + {b} + {d} && d in va + {b} + {d}
  {
  }

  /** The include loop over two names, the first of which the catalog has. */
  lemma TwoIncludes(catalog: seq<RegistryItem>, x: string, y: string, va: set<string>,
                    first: Resolution, mid: set<string>, rest: (seq<RegistryItem>, seq<string>, set<string>),
                    out: (seq<RegistryItem>, seq<string>, set<string>))
    requires Find(catalog, x).Some? && Resolve(catalog, Find(catalog, x).value, va) == (first, mid)
    requires ResolveIncludes(catalog, [y], mid) == rest
    requires out == (first.valid + rest.0, first.missing + rest.1, rest.2)
    ensures ResolveIncludes(catalog, [x, y], va) == out
  {
    var ns := [x, y];
    assert ns[0] == x && ns[1..] == [y];
    ResolveIncludesFoundStepKnown(catalog, ns, va, first, mid, rest);
  }

  /** Diamond: `a` includes `b` and `c`, both include the bundle `d`, and `d`
      includes the concrete entry `s`. `s` is collected once, through `b`; the
      second encounter of `d`, through `c`, contributes nothing. */
  lemma Diamond(catalog: seq<RegistryItem>, a: RegistryItem, b: RegistryItem, c: RegistryItem,
                d: RegistryItem, s: RegistryItem)
    requires a.kind == Bundle && a.includes == Some([b.name, c.name])
    requires Find(catalog, b.name) == Some(b) && Find(catalog, c.name) == Some(c)
    requires IncludesOnly(catalog, b, d) && IncludesOnly(catalog, c, d) && IncludesOnly(catalog, d, s)
    requires Concrete(s)
    requires a.name != b.name && a.name != c.name && a.name != d.name
    requires b.name != c.name && b.name != d.name && c.name != d.name
    ensures Resolve(catalog, a, {}) == (Resolution([s], []), {a.name, b.name, c.name, d.name})
  {
    var va: set<string> := {} + {a.name};
    DiamondLoop(catalog, b, c, d, s, va);
    var all := va + {b.name} + {d.name} + {c.name};
    VisitOrder(a.name, b.name, c.name, d.name);
    ResolveBundleStepKnown(catalog, a, {}, ([s], [], all));
    EmptyDedup();
    SingleDedup(s);
  }

  /** The names the diamond marks, in the order it marks them. */
  lemma VisitOrder(a: string, b: string, c: string, d: string)
    ensures {} + {a} + {b} + {d} + {c} == {a, b, c, d}
  {
  }

  /** Cycle: `a` includes `b` and `b` includes `a`. Resolution terminates with
      nothing resolved and nothing missing, and both names end up visited. */
  lemma Cycle(catalog: seq<RegistryItem>, a: RegistryItem, b: RegistryItem)
    requires IncludesOnly(catalog, a, b) && IncludesOnly(catalog, b, a)
    requires a.name != b.name
    ensures Resolve(catalog, a, {}) == (Empty, {a.name, b.name})
  {
    var va: set<string> := {} + {a.name};
    var vab := va + {b.name};
    EmptyDedup();
    assert Resolve(catalog, a, vab) == (Empty, vab);
    SingleInclude(catalog, b, a, va);
    assert Resolve(catalog, b, va) == (Empty, vab);
    SingleInclude(catalog, a, b, {});
    assert vab == {a.name, b.name};
  }

  /** The include loop over two concrete entries and a dangling name. */
  lemma TwoConcreteAndMissingLoop(catalog: seq<RegistryItem>, x: RegistryItem, y: RegistryItem,
                                  dangling: string, v: set<string>)
    requires Find(catalog, x.name) == Some(x) && Find(catalog, y.name) == Some(y)
    requires Concrete(x) && Concrete(y)
    requires dangling !in Names(catalog)
    ensures ResolveIncludes(catalog, [x.name, y.name, dangling], v) == ([x, y], [dangling], v)
  {
    var ns := [x.name, y.name, dangling];
    ResolveIncludesFoundStep(catalog, ns, v);
    assert ns[1..] == [y.name, dangling];
    ResolveIncludesFoundStep(catalog, [y.name, dangling], v);
    assert [y.name, dangling][1..] == [dangling];
    ResolveIncludesMissingStep(catalog, [dangling], v);
    assert [dangling][1..] == [];
    assert ResolveIncludes(catalog, [], v) == ([], [], v);
    assert ResolveIncludes(catalog, [dangling], v) == ([], [dangling], v) by {
      assert [dangling] + [] == [dangling];
    }
    assert ResolveIncludes(catalog, [y.name, dangling], v) == ([y], [dangling], v) by {
      assert Resolve(catalog, y, v) == (Resolution([y], []), v);
      assert [y] + [] == [y];
      assert [] + [dangling] == [dangling];
    }
    assert [x] + [y] == [x, y];
    assert Resolve(catalog, x, v) == (Resolution([x], []), v);
  }

  /** A bundle listing two concrete entries `x` and `y` and a name `dangling`
      without an entry resolves to `[x, y]` with `dangling` missing. */
  lemma TwoConcreteAndMissing(catalog: seq<RegistryItem>, bundle: RegistryItem,
                              x: RegistryItem, y: RegistryItem, dangling: string)
    requires bundle.kind == Bundle && bundle.includes == Some([x.name, y.name, dangling])
    requires Find(catalog, x.name) == Some(x) && Find(catalog, y.name) == Some(y)
    requires Concrete(x) && Concrete(y) && x.name != y.name
    requires dangling !in Names(catalog)
    ensures ResolveFresh(catalog, bundle) == Resolution([x, y], [dangling])
  {
    var v: set<string> := {} + {bundle.name};
    ResolveBundleStep(catalog, bundle, {});
    TwoConcreteAndMissingLoop(catalog, x, y, dangling, v);
    SingleDedup(x);
    assert UniqueByName([x, y]) == [x, y] by {
      assert [x, y][..1] == [x];
      assert FindIndex([x], y.name) == None;
    }
    assert Distinct([dangling]) == [dangling] by { assert [dangling][..0] == []; }
  }
}
